=== FILE: README.md ===
# LevelUpGamer catalogue and cart, modelled in Dafny

LevelUpGamer is an Android shop for games and gaming gear. Products live in a Room `productos`
table keyed by product code. Cart lines live in a `carrito` table with an auto-generated id, and
each line belongs to a user; id 0 stands for the guest. This project models the data layer, the
view models over it and the few pure pieces of two screens, as pure functions over immutable
values:

- **Entities.** `Producto` and `ItemCarrito`, with their Kotlin defaults, and the ten demo
  products of `obtenerProductosDefault`.
- **DAOs and repositories.** `ProductoDao`, `ProductoRepository`, `CarritoDao` and
  `CarritoRepository`.
  - A table is a sequence in rowid order.
  - The product table is a subset type whose codes are distinct, because `codigo` is the primary key.
  - The cart table keeps ids strictly increasing, together with the AUTOINCREMENT counter.
  - `REPLACE` deletes the conflicting row and appends the new one.
  - `@Update` rewrites a row in place.
  - `@Delete` goes by primary key.
  - A `WHERE` without `ORDER BY` keeps table order.
  - SQL `SUM` over no rows is `null`.
- **View models.**
  - `CarritoViewModel`: the cart of the current user, its badge, its summary with DUOC discount
    and 19 percent VAT, and the add, increment, decrement, remove and checkout operations.
  - `ProductoViewModel`: the catalogue filters.
  - `VendedorProductosViewModel`: the seller panel.
  - Each view model is a state value plus the table. Each operation returns the new pair.
  - A repository write that throws is an explicit `Escritura` argument (`Completa` or `Falla`).
- **Session and database.**
  - `SessionManager`: the in-memory session.
  - `AppDatabase`: the seed callback, which fills only empty tables.
- **Screens.**
  - From `HomeVendedorScreen`: the `visibles` list, the `isFiltered` flag and the dialog's
    number fields.
  - From `LoginScreen`: the e-mail-to-seller-id mapping and the route for each role.
- **Shared modules.** `Kotlin` holds the standard-library behaviour the code relies on: `trim`,
  ASCII `lowercase`, `contains`, `toIntOrNull`, `toString`, `coerceAtLeast` and `coerceIn`.
  `Seqs` holds order-preserving filtering.

Each operation has a partner:

- an inverse (`toString`/`toIntOrNull`, route/read-back);
- an invariant it keeps (one line per user and product, positive quantities, distinct codes);
- or an independent statement of its effect (lookups after a write, totals before and after a
  cart change).

## Model

| member | source | states |
|---|---|---|
| ItemCarritoModel.Defaults | app/src/main/java/com/example/levelupgamer/data/model/ItemCarrito.kt:9-22 | a cart line built from code, name and price alone has id 0 (not yet generated), guest owner 0 and quantity 1 |
| ProductoModel.Defaults | app/src/main/java/com/example/levelupgamer/data/model/Producto.kt:7-21 | a product built from its six required fields has stock 100, empty image URL and maker, seller 0 and is active |
| ProductoModel.ProductosDefault | app/src/main/java/com/example/levelupgamer/data/model/Producto.kt:23-126 | the demo catalogue has exactly ten products |
| ProductoModel.ProductosDefaultValid | app/src/main/java/com/example/levelupgamer/data/model/Producto.kt:23-126 | every row of the demo catalogue sits at the position its code names, has a positive price and a category id in 1..8 whose name matches |
| ProductoModel.ProductosDefaultDistinct | app/src/main/java/com/example/levelupgamer/data/model/Producto.kt:23-126 | the ten demo codes are pairwise distinct, so the list is a valid primary-key set |
| ProductoModel.ProductosDefaultPrices | app/src/main/java/com/example/levelupgamer/data/model/Producto.kt:23-126 | every demo price is positive |
| ProductoModel.ProductosDefaultCategories | app/src/main/java/com/example/levelupgamer/data/model/Producto.kt:23-126 | two demo products with the same category id carry the same category name, and every id lies in 1..8 |
| ProductoModel.ProductosDefaultOwnership | app/src/main/java/com/example/levelupgamer/data/model/Producto.kt:23-126 | every demo product belongs to no seller (id 0) and is active, as the constructor defaults give |
| CarritoDao.ObserveByUser | app/src/main/java/com/example/levelupgamer/data/dao/CarritoDao.kt:17-18 | exactly the rows of the user, in increasing id order, as a subsequence of the table |
| CarritoDao.ObserveCount | app/src/main/java/com/example/levelupgamer/data/dao/CarritoDao.kt:21-22 | SQL `SUM`: null exactly when the user has no row, otherwise the sum of the quantities of the user's rows |
| CarritoDao.ObserveSubtotal | app/src/main/java/com/example/levelupgamer/data/dao/CarritoDao.kt:25-26 | null exactly when the user has no row, otherwise the sum of quantity times price over the user's rows |
| CarritoDao.FindIndex | app/src/main/java/com/example/levelupgamer/data/dao/CarritoDao.kt:31-32 | `LIMIT 1`: the first position holding the user's line for the code, or none exactly when no row matches |
| CarritoDao.FindItem | app/src/main/java/com/example/levelupgamer/data/dao/CarritoDao.kt:31-32 | a found row is in the table and is the user's line for the code; none exactly when no row is |
| CarritoDao.Place | app/src/main/java/com/example/levelupgamer/data/dao/CarritoDao.kt:37-38 | REPLACE on the primary key: the result keeps ids increasing and holds the new row plus every old row with another id |
| CarritoDao.PlaceReplaces | app/src/main/java/com/example/levelupgamer/data/dao/CarritoDao.kt:37-38 | replacing a row whose id is present overwrites that position and leaves the order of the rest unchanged |
| CarritoDao.Upsert | app/src/main/java/com/example/levelupgamer/data/dao/CarritoDao.kt:37-38 | id 0 takes the next AUTOINCREMENT id and is appended; a set id replaces the row with that id, and the counter never goes back |
| CarritoDao.Delete | app/src/main/java/com/example/levelupgamer/data/dao/CarritoDao.kt:41-42 | `@Delete` by primary key: exactly the rows with another id remain |
| CarritoDao.DeleteAt | app/src/main/java/com/example/levelupgamer/data/dao/CarritoDao.kt:41-42 | deleting a stored row removes exactly its position |
| CarritoDao.ClearByUser | app/src/main/java/com/example/levelupgamer/data/dao/CarritoDao.kt:45-46 | exactly the rows of other users remain, and the id counter is kept |
| CarritoDao.Keep | app/src/main/java/com/example/levelupgamer/data/dao/CarritoDao.kt:45-46 | a `DELETE ... WHERE` keeps exactly the rows the condition keeps, in order, with the counter unchanged |
| CarritoDao.SumCantidadAppend | app/src/main/java/com/example/levelupgamer/data/dao/CarritoDao.kt:21-22 | the quantity sum of two row lists in a row is the sum of their sums |
| CarritoDao.SumImporteAppend | app/src/main/java/com/example/levelupgamer/data/dao/CarritoDao.kt:25-26 | the amount sum of two row lists in a row is the sum of their sums |
| CarritoRepository.ObserveItems | app/src/main/java/com/example/levelupgamer/data/repository/CarritoRepository.kt:14-15 | the user's rows and only those, in increasing id order |
| CarritoRepository.ObserveCount | app/src/main/java/com/example/levelupgamer/data/repository/CarritoRepository.kt:18-19 | null exactly when the user has no row, otherwise the sum of the listed quantities |
| CarritoRepository.ObserveSubtotal | app/src/main/java/com/example/levelupgamer/data/repository/CarritoRepository.kt:22-23 | null exactly when the user has no row, otherwise the sum of the listed amounts |
| CarritoRepository.FindItem | app/src/main/java/com/example/levelupgamer/data/repository/CarritoRepository.kt:28-29 | a found row is the user's line for the code; none exactly when there is no such line |
| CarritoRepository.Upsert | app/src/main/java/com/example/levelupgamer/data/repository/CarritoRepository.kt:34-35 | a new line gets the next id at the end; a stored id is replaced, all other rows kept |
| CarritoRepository.Delete | app/src/main/java/com/example/levelupgamer/data/repository/CarritoRepository.kt:38-39 | exactly the rows with another id remain |
| CarritoRepository.Clear | app/src/main/java/com/example/levelupgamer/data/repository/CarritoRepository.kt:42-43 | exactly the rows of other users remain |
| CarritoViewModel.Inicial | app/src/main/java/com/example/levelupgamer/view/CarritoViewModel.kt:30-31 | the engine starts as the guest with no discount, the state `inicializarCarrito(null, 0)` sets |
| CarritoViewModel.InicializarCarrito | app/src/main/java/com/example/levelupgamer/view/CarritoViewModel.kt:65-68 | the user id is clamped at 0 (null counts as 0) and the discount percentage clamped into 0..100, each case stated |
| CarritoViewModel.Items | app/src/main/java/com/example/levelupgamer/view/CarritoViewModel.kt:34-38 | a guest or non-positive id sees no lines; a logged-in user sees exactly their rows, in id order |
| CarritoViewModel.CantidadItems | app/src/main/java/com/example/levelupgamer/view/CarritoViewModel.kt:41-45 | the badge is the quantity sum of the lines shown, with SQL null read as 0 |
| CarritoViewModel.Subtotal | app/src/main/java/com/example/levelupgamer/view/CarritoViewModel.kt:50-53 | the subtotal is the amount sum of the lines shown, with SQL null read as 0 |
| CarritoViewModel.Resumen | app/src/main/java/com/example/levelupgamer/view/CarritoViewModel.kt:48-57 | the summary is exactly `calcularResumen` of the amount sum of the lines shown and the stored discount percentage, so its discount, VAT and total follow from those lines |
| CarritoViewModel.RoundHundredth | app/src/main/java/com/example/levelupgamer/view/CarritoViewModel.kt:128 | `roundToInt` of a hundredth: the unique integer d with 100d - 50 <= y < 100d + 50, non-negative exactly when y >= -50 |
| CarritoViewModel.RoundsToUnique | app/src/main/java/com/example/levelupgamer/view/CarritoViewModel.kt:128 | two integers that both round a value are equal, so the rounding is a function |
| CarritoViewModel.PercentAtMost | app/src/main/java/com/example/levelupgamer/view/CarritoViewModel.kt:128 | a percentage in 0..100 of a non-negative amount lies between 0 and the amount |
| CarritoViewModel.CalcularResumenExample | app/src/main/java/com/example/levelupgamer/view/CarritoViewModel.kt:127-143 | a 100000 subtotal at 20 percent gives 20000 off, a 80000 base, 15200 VAT and a 95200 total |
| CarritoViewModel.CalcularResumen | app/src/main/java/com/example/levelupgamer/view/CarritoViewModel.kt:127-143 | discount rounded from subtotal times percent and clamped at 0, base clamped at 0, VAT 19 percent of the base rounded, total base plus VAT; for a valid percent the discount never exceeds the subtotal |
| CarritoViewModel.Fusionar | app/src/main/java/com/example/levelupgamer/view/CarritoViewModel.kt:86 | an existing line is rewritten in place with its quantity plus the added amount, clamped at 1 |
| CarritoViewModel.AgregarProducto | app/src/main/java/com/example/levelupgamer/view/CarritoViewModel.kt:71-90 | as written: only a negative id returns early; otherwise a missing line is appended with the next id and quantity clamped at 1, a present line merged in place |
| CarritoViewModel.AgregarProductoCorregido | app/src/main/java/com/example/levelupgamer/view/CarritoViewModel.kt:71-90 | with the guard `uid <= 0` that the rest of the class uses: a guest adds nothing; a user appends or merges as above |
| CarritoViewModel.RewriteLine | app/src/main/java/com/example/levelupgamer/view/CarritoViewModel.kt:94 | writing back a stored line with a new quantity changes that position only and keeps the size and counter |
| CarritoViewModel.IncrementarCantidad | app/src/main/java/com/example/levelupgamer/view/CarritoViewModel.kt:92-96 | a stored line gets one more unit in place, nothing else changes; a line with a set id that had been deleted is written again, and then the table holds exactly that line and the rows with other ids; a line with id 0 is appended under the next id |
| CarritoViewModel.DecrementarCantidad | app/src/main/java/com/example/levelupgamer/view/CarritoViewModel.kt:98-103 | a quantity of 1 or less is left alone; otherwise the stored line loses one unit in place, and a line with a set id that had been deleted is written again with one unit less, beside exactly the rows with other ids; a line with id 0 is appended under the next id |
| CarritoViewModel.EliminarItem | app/src/main/java/com/example/levelupgamer/view/CarritoViewModel.kt:105-109 | exactly the rows with another id remain |
| CarritoViewModel.FinalizarCompra | app/src/main/java/com/example/levelupgamer/view/CarritoViewModel.kt:114-124 | a guest's checkout writes nothing; a user's removes exactly that user's rows |
| CarritoProperties.ItemsIsFilter | app/src/main/java/com/example/levelupgamer/view/CarritoViewModel.kt:34-38 | for a logged-in user the shown list is the table filtered by owner |
| CarritoProperties.GuestSeesEmptyCart | app/src/main/java/com/example/levelupgamer/view/CarritoViewModel.kt:36 | a guest sees no lines, a zero badge and an all-zero summary except the discount percentage |
| CarritoProperties.GuestAddWritesHiddenLine | app/src/main/java/com/example/levelupgamer/view/CarritoViewModel.kt:73 | as written, a guest's add writes a row owned by user 0 that the guest's own list never shows |
| CarritoProperties.GuestAddExample | app/src/main/java/com/example/levelupgamer/view/CarritoViewModel.kt:73 | the concrete case: a fresh guest cart adding one unit stores row 1 for user 0 and still shows nothing |
| CarritoProperties.CorrectedAddGuards | app/src/main/java/com/example/levelupgamer/view/CarritoViewModel.kt:73 | the corrected add writes nothing for a guest and agrees with the written one for a logged-in user |
| CarritoProperties.AddTwiceMerges | app/src/main/java/com/example/levelupgamer/view/CarritoViewModel.kt:76-88 | adding a product and then any amount of it leaves one line whose quantity is the sum floored at 1, the same as adding the sum once |
| CarritoProperties.AddOneThenTwoExample | app/src/main/java/com/example/levelupgamer/view/CarritoViewModel.kt:76-88 | adding 1 then 2 units to an empty cart of user 5 stores one line with id 1 and quantity 3, and the badge reads 3 |
| CarritoProperties.CartInvariantEmpty | app/src/main/java/com/example/levelupgamer/data/model/ItemCarrito.kt:9-22 | the empty table has one line per user and product and only positive quantities |
| CarritoProperties.KeepPreservesInvariant | app/src/main/java/com/example/levelupgamer/data/dao/CarritoDao.kt:45-46 | deleting rows keeps the cart invariant |
| CarritoProperties.AgregarPreservesInvariant | app/src/main/java/com/example/levelupgamer/view/CarritoViewModel.kt:71-90 | adding, as written or corrected, keeps at most one line per user and product and every quantity at least 1 |
| CarritoProperties.IncrementarPreservesInvariant | app/src/main/java/com/example/levelupgamer/view/CarritoViewModel.kt:92-96 | incrementing a stored line keeps the cart invariant |
| CarritoProperties.DecrementarPreservesInvariant | app/src/main/java/com/example/levelupgamer/view/CarritoViewModel.kt:98-103 | decrementing keeps every quantity at least 1 and the invariant |
| CarritoProperties.EliminarPreservesInvariant | app/src/main/java/com/example/levelupgamer/view/CarritoViewModel.kt:105-109 | removing a line keeps the cart invariant |
| CarritoProperties.FinalizarPreservesInvariant | app/src/main/java/com/example/levelupgamer/view/CarritoViewModel.kt:114-124 | checkout keeps the cart invariant |
| CarritoProperties.AgregarMovesTotals | app/src/main/java/com/example/levelupgamer/view/CarritoViewModel.kt:71-90 | the badge grows by the clamped quantity and the subtotal by that many prices for a new line; for a merged line both move by the change in that line |
| CarritoProperties.AgregarNewLineTotals | app/src/main/java/com/example/levelupgamer/view/CarritoViewModel.kt:77-84 | a new line raises the badge by the clamped quantity and the subtotal by that quantity times the price |
| CarritoProperties.AgregarMergeTotals | app/src/main/java/com/example/levelupgamer/view/CarritoViewModel.kt:85-87 | a merged line moves badge and subtotal by exactly the change of that one line |
| CarritoProperties.RewriteTotals | app/src/main/java/com/example/levelupgamer/view/CarritoViewModel.kt:86 | rewriting one of the user's lines moves badge and subtotal by that line's change alone |
| CarritoProperties.IncrementarMovesTotals | app/src/main/java/com/example/levelupgamer/view/CarritoViewModel.kt:92-96 | incrementing a shown line raises the badge by 1 and the subtotal by the line's price |
| CarritoProperties.DecrementarMovesTotals | app/src/main/java/com/example/levelupgamer/view/CarritoViewModel.kt:98-103 | decrementing a shown line of quantity above 1 lowers the badge by 1 and the subtotal by the price |
| CarritoProperties.EliminarMovesTotals | app/src/main/java/com/example/levelupgamer/view/CarritoViewModel.kt:105-109 | removing a shown line lowers the badge by its quantity and the subtotal by its amount |
| CarritoProperties.CheckoutClearsOwnCartOnly | app/src/main/java/com/example/levelupgamer/view/CarritoViewModel.kt:114-124 | after checkout the user's cart is empty and every other user's list is unchanged |
| ProductoDao.IndexOf | app/src/main/java/com/example/levelupgamer/data/dao/ProductoDao.kt:35-36 | the first position with the code, or none exactly when no row has it |
| ProductoDao.ObtenerProductoPorCodigo | app/src/main/java/com/example/levelupgamer/data/dao/ProductoDao.kt:35-36 | the stored product with the code whenever there is one, none exactly when there is none |
| ProductoDao.ObtenerProductoPorCodigoFlow | app/src/main/java/com/example/levelupgamer/data/dao/ProductoDao.kt:38-39 | the same lookup as a snapshot of the flow: present exactly when a row has the code |
| ProductoDao.FilterDistinct | app/src/main/java/com/example/levelupgamer/data/dao/ProductoDao.kt:28-29 | deleting rows keeps the codes distinct, so the primary key stays valid |
| ProductoDao.RemoveCode | app/src/main/java/com/example/levelupgamer/data/dao/ProductoDao.kt:28-29 | deleting a code removes exactly the position holding it, or nothing when it is absent |
| ProductoDao.DeleteByCodigo | app/src/main/java/com/example/levelupgamer/data/dao/ProductoDao.kt:28-29 | exactly the rows with another code remain, in order, one fewer when the code was present |
| ProductoDao.EliminarProducto | app/src/main/java/com/example/levelupgamer/data/dao/ProductoDao.kt:25-26 | `@Delete` by primary key: the rows with another code remain and the code is no longer found |
| ProductoDao.Upsert | app/src/main/java/com/example/levelupgamer/data/dao/ProductoDao.kt:16-17 | REPLACE on the code: the code then finds the new product, every other code finds what it found before, and the size grows exactly when the code was new |
| ProductoDao.UpsertAll | app/src/main/java/com/example/levelupgamer/data/dao/ProductoDao.kt:19-20 | each code finds the last product of the list with it, or what the table held when the list has none |
| ProductoDao.UpsertIdempotent | app/src/main/java/com/example/levelupgamer/data/dao/ProductoDao.kt:16-17 | upserting the same product twice is upserting it once |
| ProductoDao.UpsertAllFresh | app/src/main/java/com/example/levelupgamer/data/dao/ProductoDao.kt:19-20 | a list of distinct codes new to the table is appended as it is, in order |
| ProductoDao.UpsertFresh | app/src/main/java/com/example/levelupgamer/data/dao/ProductoDao.kt:16-17 | a product with a new code is appended at the end |
| ProductoDao.ActualizarProducto | app/src/main/java/com/example/levelupgamer/data/dao/ProductoDao.kt:22-23 | `@Update`: an absent code changes nothing, a present one is rewritten in place; other codes and the size are unchanged |
| ProductoDao.DeleteAfterUpsert | app/src/main/java/com/example/levelupgamer/data/dao/ProductoDao.kt:28-29 | deleting a code just upserted leaves what deleting it from the old table leaves |
| ProductoDao.ObtenerTodosLosProductos | app/src/main/java/com/example/levelupgamer/data/dao/ProductoDao.kt:32-33 | the table itself, in rowid order, so every stored product once with distinct codes |
| ProductoDao.ObtenerProductosPorCategoria | app/src/main/java/com/example/levelupgamer/data/dao/ProductoDao.kt:41-42 | exactly the products of the category, in table order |
| ProductoDao.BuscarProductos | app/src/main/java/com/example/levelupgamer/data/dao/ProductoDao.kt:44-49 | exactly the products whose name or description contains the text, case-insensitively for ASCII, in table order |
| ProductoDao.BuscarProductosPorCategoria | app/src/main/java/com/example/levelupgamer/data/dao/ProductoDao.kt:51-57 | exactly the products of the category whose name or description matches, in table order |
| ProductoDao.BuscarPorCategoriaComposes | app/src/main/java/com/example/levelupgamer/data/dao/ProductoDao.kt:51-57 | the combined query equals the text search filtered by category and the category query filtered by text |
| ProductoDao.LexLeTotal | app/src/main/java/com/example/levelupgamer/data/dao/ProductoDao.kt:73-74 | any two names compare one way or the other |
| ProductoDao.LexLeTrans | app/src/main/java/com/example/levelupgamer/data/dao/ProductoDao.kt:73-74 | the name order is transitive |
| ProductoDao.Sort | app/src/main/java/com/example/levelupgamer/data/dao/ProductoDao.kt:59-63 | the sorted list is ordered and a permutation of the input |
| ProductoDao.ObtenerProductosOrdenadosPorPrecioAsc | app/src/main/java/com/example/levelupgamer/data/dao/ProductoDao.kt:59-60 | a permutation of the table with prices non-decreasing |
| ProductoDao.ObtenerProductosOrdenadosPorPrecioDesc | app/src/main/java/com/example/levelupgamer/data/dao/ProductoDao.kt:62-63 | a permutation of the table with prices non-increasing |
| ProductoDao.ContarProductos | app/src/main/java/com/example/levelupgamer/data/dao/ProductoDao.kt:69-70 | `COUNT(*)` is the number of rows, and it is 0 exactly when no code finds a product |
| ProductoDao.ObserveByVendedor | app/src/main/java/com/example/levelupgamer/data/dao/ProductoDao.kt:73-74 | exactly the seller's products, a permutation of the filtered table, ordered by name |
| ProductoRepository.ObtenerTodosLosProductos | app/src/main/java/com/example/levelupgamer/data/repository/ProductoRepository.kt:15-16 | the DAO's rows unchanged, in rowid order: every stored product once |
| ProductoRepository.ObtenerProductoPorCodigo | app/src/main/java/com/example/levelupgamer/data/repository/ProductoRepository.kt:18-19 | the product with the code whenever there is one, none exactly when there is none |
| ProductoRepository.ObtenerProductoPorCodigoFlow | app/src/main/java/com/example/levelupgamer/data/repository/ProductoRepository.kt:21-22 | each snapshot of the flow equals the one-shot lookup, and a found product is stored under that code |
| ProductoRepository.ObtenerProductosPorCategoria | app/src/main/java/com/example/levelupgamer/data/repository/ProductoRepository.kt:24-25 | exactly the products of the category, in table order |
| ProductoRepository.BuscarProductos | app/src/main/java/com/example/levelupgamer/data/repository/ProductoRepository.kt:27-28 | exactly the products whose name or description matches the text, in table order |
| ProductoRepository.BuscarProductosPorCategoria | app/src/main/java/com/example/levelupgamer/data/repository/ProductoRepository.kt:30-31 | exactly the products of the category that match the text, in table order |
| ProductoRepository.ObtenerProductosOrdenadosPorPrecioAsc | app/src/main/java/com/example/levelupgamer/data/repository/ProductoRepository.kt:33-34 | the table by ascending price, a permutation |
| ProductoRepository.ObtenerProductosOrdenadosPorPrecioDesc | app/src/main/java/com/example/levelupgamer/data/repository/ProductoRepository.kt:36-37 | the table by descending price, a permutation |
| ProductoRepository.Upsert | app/src/main/java/com/example/levelupgamer/data/repository/ProductoRepository.kt:45-46 | the code then finds the product, every other code what it found before |
| ProductoRepository.UpsertAll | app/src/main/java/com/example/levelupgamer/data/repository/ProductoRepository.kt:48-49 | each code finds the list's last product with it, or the old one |
| ProductoRepository.ActualizarProducto | app/src/main/java/com/example/levelupgamer/data/repository/ProductoRepository.kt:51-52 | an absent code changes nothing; a present one finds the new product; other codes unchanged |
| ProductoRepository.EliminarProducto | app/src/main/java/com/example/levelupgamer/data/repository/ProductoRepository.kt:54-55 | exactly the products with another code remain |
| ProductoRepository.EliminarPorCodigo | app/src/main/java/com/example/levelupgamer/data/repository/ProductoRepository.kt:57-58 | exactly the products with another code remain |
| ProductoRepository.ObserveByVendedor | app/src/main/java/com/example/levelupgamer/data/repository/ProductoRepository.kt:62-63 | exactly the seller's products, ordered by name |
| ProductoRepository.GetByCode | app/src/main/java/com/example/levelupgamer/data/repository/ProductoRepository.kt:65-66 | the seller panel's name returns what `obtenerProductoPorCodigo` returns, a stored product with that code |
| ProductoRepository.Insert | app/src/main/java/com/example/levelupgamer/data/repository/ProductoRepository.kt:69 | `insert` is `upsert`: the code finds the new product and every other row stays |
| ProductoRepository.Update | app/src/main/java/com/example/levelupgamer/data/repository/ProductoRepository.kt:70 | `update` is exactly `actualizarProducto`, so it never inserts and keeps the size |
| ProductoRepository.DeleteByCode | app/src/main/java/com/example/levelupgamer/data/repository/ProductoRepository.kt:71 | `deleteByCode` is `eliminarPorCodigo`: the code is gone, every other row stays |
| ProductoRepository.DeletesAgree | app/src/main/java/com/example/levelupgamer/data/repository/ProductoRepository.kt:54-58 | deleting an entity and deleting its code are the same write |
| ProductoViewModel.Ejecutar | app/src/main/java/com/example/levelupgamer/view/ProductoViewModel.kt:46-89 | each query shows only stored products: all of them, exactly the category's, exactly the text matches, or the whole table by non-decreasing or non-increasing price |
| ProductoViewModel.Inicial | app/src/main/java/com/example/levelupgamer/view/ProductoViewModel.kt:28-35 | empty filters, nothing selected, and the whole table shown |
| ProductoViewModel.ConsultaBusqueda | app/src/main/java/com/example/levelupgamer/view/ProductoViewModel.kt:63-73 | a blank text loads all products, any other text runs the search |
| ProductoViewModel.ConsultaCategoria | app/src/main/java/com/example/levelupgamer/view/ProductoViewModel.kt:111-118 | no category loads all products, a category loads that category |
| ProductoViewModel.ConsultaOrden | app/src/main/java/com/example/levelupgamer/view/ProductoViewModel.kt:120-127 | each order selects its query, `NINGUNO` loads all |
| ProductoViewModel.Mostrar | app/src/main/java/com/example/levelupgamer/view/ProductoViewModel.kt:46-52 | showing a query's emission changes only the list, to stored products |
| ProductoViewModel.CargarProductosPorCategoria | app/src/main/java/com/example/levelupgamer/view/ProductoViewModel.kt:54-60 | the list becomes exactly the category's products; filters and selection untouched |
| ProductoViewModel.BuscarProductos | app/src/main/java/com/example/levelupgamer/view/ProductoViewModel.kt:63-73 | a blank search shows the whole table, any other exactly the matches |
| ProductoViewModel.OrdenarProductosPorPrecioAsc | app/src/main/java/com/example/levelupgamer/view/ProductoViewModel.kt:75-81 | the list becomes the table by ascending price |
| ProductoViewModel.OrdenarProductosPorPrecioDesc | app/src/main/java/com/example/levelupgamer/view/ProductoViewModel.kt:83-89 | the list becomes the table by descending price |
| ProductoViewModel.SeleccionarProducto | app/src/main/java/com/example/levelupgamer/view/ProductoViewModel.kt:97-103 | the selection becomes the product with the code, or null exactly when there is none |
| ProductoViewModel.OnBusquedaChange | app/src/main/java/com/example/levelupgamer/view/ProductoViewModel.kt:106-109 | records the text and shows that search's result |
| ProductoViewModel.OnCategoriaSeleccionadaChange | app/src/main/java/com/example/levelupgamer/view/ProductoViewModel.kt:111-118 | records the category and shows that category, or all products for null |
| ProductoViewModel.OnOrdenChange | app/src/main/java/com/example/levelupgamer/view/ProductoViewModel.kt:120-127 | records the order and shows every product of the table: by non-decreasing price for `PRECIO_ASC`, by non-increasing price for `PRECIO_DESC` |
| ProductoViewModel.LimpiarFiltros | app/src/main/java/com/example/levelupgamer/view/ProductoViewModel.kt:129-132 | resets the filters to their defaults and shows the whole table |
| ProductoViewModel.LimpiarIsInicial | app/src/main/java/com/example/levelupgamer/view/ProductoViewModel.kt:129-132 | clearing the filters returns to the initial state, except the selection |
| ProductoViewModel.SearchIgnoresOtherFilters | app/src/main/java/com/example/levelupgamer/view/ProductoViewModel.kt:106-109 | the shown list after a search does not depend on the recorded category or order |
| ProductoViewModel.CategoryIgnoresOtherFilters | app/src/main/java/com/example/levelupgamer/view/ProductoViewModel.kt:111-118 | the shown list after choosing a category does not depend on the recorded text or order |
| ProductoViewModel.OrderIgnoresOtherFilters | app/src/main/java/com/example/levelupgamer/view/ProductoViewModel.kt:120-127 | after an order change the whole table is shown again, whatever filters are recorded |
| ProductoViewModel.RecordedFiltersDisagreeWithList | app/src/main/java/com/example/levelupgamer/view/ProductoViewModel.kt:106-118 | choosing a category then typing a search records both, but the list shows every match of every category |
| VendedorProductosViewModel.Inicial | app/src/main/java/com/example/levelupgamer/viewmodel/vendedor/VendedorProductosViewModel.kt:30-32 | starts loading, for the given seller, with no error, no products and no dialog |
| VendedorProductosViewModel.OnEmission | app/src/main/java/com/example/levelupgamer/viewmodel/vendedor/VendedorProductosViewModel.kt:42-44 | an emission replaces the list and clears loading and error |
| VendedorProductosViewModel.OnStreamError | app/src/main/java/com/example/levelupgamer/viewmodel/vendedor/VendedorProductosViewModel.kt:39-41 | a stream failure stops loading and records the message, keeping the list |
| VendedorProductosViewModel.Emitido | app/src/main/java/com/example/levelupgamer/viewmodel/vendedor/VendedorProductosViewModel.kt:37-38 | the observed list holds exactly the seller's products |
| VendedorProductosViewModel.Refresh | app/src/main/java/com/example/levelupgamer/viewmodel/vendedor/VendedorProductosViewModel.kt:49-53 | only the loading flag turns on |
| VendedorProductosViewModel.ProductoNuevo | app/src/main/java/com/example/levelupgamer/viewmodel/vendedor/VendedorProductosViewModel.kt:59-72 | the blank product of a new dialog: given code, empty texts, zero price and category, stock 100, the seller's id, active |
| VendedorProductosViewModel.Nuevo | app/src/main/java/com/example/levelupgamer/viewmodel/vendedor/VendedorProductosViewModel.kt:56-75 | opens the dialog on the blank product, nothing else changes |
| VendedorProductosViewModel.Editar | app/src/main/java/com/example/levelupgamer/viewmodel/vendedor/VendedorProductosViewModel.kt:78-80 | opens the dialog on the given product, nothing else changes |
| VendedorProductosViewModel.Cancelar | app/src/main/java/com/example/levelupgamer/viewmodel/vendedor/VendedorProductosViewModel.kt:83-85 | closes the dialog, nothing else changes |
| VendedorProductosViewModel.Editado | app/src/main/java/com/example/levelupgamer/viewmodel/vendedor/VendedorProductosViewModel.kt:99-107 | the saved copy keeps code, stock, image and maker, takes the trimmed texts, the numbers and the flag, and the panel's seller |
| VendedorProductosViewModel.Guardar | app/src/main/java/com/example/levelupgamer/viewmodel/vendedor/VendedorProductosViewModel.kt:88-114 | no dialog writes nothing; a completed save upserts the edited copy and closes the dialog; a failed one keeps table and dialog and records the message |
| VendedorProductosViewModel.Eliminar | app/src/main/java/com/example/levelupgamer/viewmodel/vendedor/VendedorProductosViewModel.kt:117-125 | a completed delete leaves exactly the rows with another code; a failed one keeps the table and records the message |
| VendedorProductosViewModel.EnLista | app/src/main/java/com/example/levelupgamer/viewmodel/vendedor/VendedorProductosViewModel.kt:129 | `find` on the shown list: a product with the code from the list, none exactly when there is none |
| VendedorProductosViewModel.ToggleActivo | app/src/main/java/com/example/levelupgamer/viewmodel/vendedor/VendedorProductosViewModel.kt:128-135 | a code not in the shown list does nothing; otherwise its active flag is flipped in the table and every other code is unchanged; a completed write leaves the screen state as it was, and a failed write keeps the table and only sets the error to the exception's message |
| VendedorProductosViewModel.EnListaFinds | app/src/main/java/com/example/levelupgamer/viewmodel/vendedor/VendedorProductosViewModel.kt:129 | a listed product from a valid table is the one `find` returns for its code |
| VendedorProductosViewModel.SavedProductIsListed | app/src/main/java/com/example/levelupgamer/viewmodel/vendedor/VendedorProductosViewModel.kt:88-114 | after a completed save the code finds the edited copy and the next emission lists it |
| VendedorProductosViewModel.SaveKeepsHiddenFields | app/src/main/java/com/example/levelupgamer/viewmodel/vendedor/VendedorProductosViewModel.kt:99-107 | saving an edited product keeps its stock, image and maker |
| VendedorProductosViewModel.FailedSaveCanRetry | app/src/main/java/com/example/levelupgamer/viewmodel/vendedor/VendedorProductosViewModel.kt:111-113 | a failed save keeps the dialog open, so retrying writes what a first successful save would have |
| VendedorProductosViewModel.ToggleTwiceRestores | app/src/main/java/com/example/levelupgamer/viewmodel/vendedor/VendedorProductosViewModel.kt:128-135 | toggling a listed product twice, with the emission in between, restores the stored product |
| VendedorProductosViewModel.SellerNeverChanges | app/src/main/java/com/example/levelupgamer/viewmodel/vendedor/VendedorProductosViewModel.kt:16-22 | no action changes the panel's seller id |
| SessionManager.Initial | app/src/main/java/com/example/levelupgamer/data/sesion/SessionManager.kt:17-23 | no user, no name, not DUOC, plain user role, no seller |
| SessionManager.Clear | app/src/main/java/com/example/levelupgamer/data/sesion/SessionManager.kt:25-31 | every field goes back to its initial value |
| SessionManager.ClearIsInitial | app/src/main/java/com/example/levelupgamer/data/sesion/SessionManager.kt:25-31 | clearing yields the initial session and clearing twice is clearing once |
| SessionManager.SafeUserId | app/src/main/java/com/example/levelupgamer/data/sesion/SessionManager.kt:34 | the user id, or -1 without a session |
| SessionManager.RequireUserId | app/src/main/java/com/example/levelupgamer/data/sesion/SessionManager.kt:37-38 | returns the id exactly when there is one, and otherwise throws with the fixed message |
| SessionManager.RequireAgreesWithSafe | app/src/main/java/com/example/levelupgamer/data/sesion/SessionManager.kt:34-38 | the two accessors agree on a logged-in id, and the throwing one fails exactly when the safe one gives -1 for no session |
| SessionManager.DescuentoSesion | app/src/main/java/com/example/levelupgamer/ui/product/CarritoScreen.kt:38 | the cart discount is 20 exactly for a DUOC session, 0 otherwise |
| SessionManager.CarritoDeSesion | app/src/main/java/com/example/levelupgamer/ui/product/CarritoScreen.kt:38-39 | the cart opens for the session's id (null as 0, clamped at 0) with the session's discount |
| SessionManager.CartUserIsClampedSafeId | app/src/main/java/com/example/levelupgamer/ui/product/CarritoScreen.kt:38-39 | the cart's user is the safe id clamped at 0, so the -1 of no session becomes the guest |
| SessionManager.ClearedSessionIsGuestCart | app/src/main/java/com/example/levelupgamer/ui/product/CarritoScreen.kt:38-39 | after a logout the cart is the guest's with no discount |
| AppDatabase.SeedVendedores | app/src/main/java/com/example/levelupgamer/data/database/AppDatabase.kt:82-90 | the demo seller is inserted exactly when there is no seller |
| AppDatabase.SeedCategorias | app/src/main/java/com/example/levelupgamer/data/database/AppDatabase.kt:91-95 | the default categories are inserted exactly when there is no category |
| AppDatabase.SeedProductos | app/src/main/java/com/example/levelupgamer/data/database/AppDatabase.kt:96-101 | an empty catalogue becomes exactly the demo list, a non-empty one is untouched |
| AppDatabase.SeedEmptyCatalogue | app/src/main/java/com/example/levelupgamer/data/database/AppDatabase.kt:98-100 | upserting the demo list into an empty catalogue stores it as it is, in order |
| AppDatabase.Seed | app/src/main/java/com/example/levelupgamer/data/database/AppDatabase.kt:82-101 | after the callback there is a seller and a product, and a non-empty table is left as it was |
| AppDatabase.GuardsAreIndependent | app/src/main/java/com/example/levelupgamer/data/database/AppDatabase.kt:82-101 | what each step writes depends only on its own table |
| AppDatabase.SeedEmptyDatabase | app/src/main/java/com/example/levelupgamer/data/database/AppDatabase.kt:82-101 | the first open of an empty database writes exactly the demo seller, the default categories and the demo catalogue |
| AppDatabase.SeedIdempotent | app/src/main/java/com/example/levelupgamer/data/database/AppDatabase.kt:82-101 | opening the database again seeds nothing more |
| AppDatabase.SeedProductosIdempotent | app/src/main/java/com/example/levelupgamer/data/database/AppDatabase.kt:96-101 | the product step run on its own output writes nothing |
| HomeVendedorScreen.Visibles | app/src/main/java/com/example/levelupgamer/ui/homevendedor/HomeVendedorScreen.kt:58-68 | a product is shown exactly when it is in the list, active if only active ones are wanted, and the normalised query is blank or in its lower-cased name, code or category name |
| HomeVendedorScreen.VisiblesIsOneFilter | app/src/main/java/com/example/levelupgamer/ui/homevendedor/HomeVendedorScreen.kt:58-68 | the two filters in a row equal one filter by the visibility condition |
| HomeVendedorScreen.VisiblesKeepOrder | app/src/main/java/com/example/levelupgamer/ui/homevendedor/HomeVendedorScreen.kt:58-68 | the shown products keep the view model's order |
| HomeVendedorScreen.BlankQueryFiltersNoText | app/src/main/java/com/example/levelupgamer/ui/homevendedor/HomeVendedorScreen.kt:62-63 | a blank query leaves only the active filter |
| HomeVendedorScreen.ConsultaBlank | app/src/main/java/com/example/levelupgamer/ui/homevendedor/HomeVendedorScreen.kt:62-63 | the trimmed, lower-cased query is blank exactly when the typed one is |
| HomeVendedorScreen.IsFiltered | app/src/main/java/com/example/levelupgamer/ui/homevendedor/HomeVendedorScreen.kt:153 | the screen counts as filtered exactly when only active products are shown or the trimmed query is not empty |
| HomeVendedorScreen.UnfilteredShowsAll | app/src/main/java/com/example/levelupgamer/ui/homevendedor/HomeVendedorScreen.kt:153 | when `isFiltered` is false every product is shown |
| HomeVendedorScreen.EmptyUnfilteredMeansNoProducts | app/src/main/java/com/example/levelupgamer/ui/homevendedor/HomeVendedorScreen.kt:151-153 | an empty screen that is not filtered means the seller has no products |
| HomeVendedorScreen.QueryNormalisationIrrelevant | app/src/main/java/com/example/levelupgamer/ui/homevendedor/HomeVendedorScreen.kt:62 | trimming or lower-casing the typed query changes nothing shown |
| HomeVendedorScreen.ParseOrZero | app/src/main/java/com/example/levelupgamer/ui/homevendedor/HomeVendedorScreen.kt:260-261 | the typed number when the text is an `Int`, otherwise 0; always within `Int` range |
| HomeVendedorScreen.NumberFieldRoundTrip | app/src/main/java/com/example/levelupgamer/ui/homevendedor/HomeVendedorScreen.kt:251-252 | a field opened with `toString()` of a number reads back that number |
| HomeVendedorScreen.GuardarDialogo | app/src/main/java/com/example/levelupgamer/ui/homevendedor/HomeVendedorScreen.kt:259-262 | a completed save stores under the edited code the parsed numbers, the trimmed texts, the flag and the panel's seller; no dialog or a failure leaves the table |
| HomeVendedorScreen.UnparseablePriceSavesZero | app/src/main/java/com/example/levelupgamer/ui/homevendedor/HomeVendedorScreen.kt:260 | a price text that is not an `Int` is saved as price 0 |
| HomeVendedorScreen.UneditedDialogKeepsNumbers | app/src/main/java/com/example/levelupgamer/ui/homevendedor/HomeVendedorScreen.kt:251-262 | confirming the dialog unedited stores the product's own price and category id again |
| LoginScreen.VendedorIdPara | app/src/main/java/com/example/levelupgamer/ui/login/LoginScreen.kt:170-174 | seller id 1 or 2: 2 exactly for the trimmed, lower-cased Jean seller address, 1 for the Damian address and every other |
| LoginScreen.VendedorIdIgnoresFormatting | app/src/main/java/com/example/levelupgamer/ui/login/LoginScreen.kt:170 | surrounding whitespace and letter case of the address do not change the id |
| LoginScreen.Ruta | app/src/main/java/com/example/levelupgamer/ui/login/LoginScreen.kt:163-184 | a user's route is the user prefix followed by the name, a seller's is the seller prefix followed by text that reads as the e-mail's seller id, and only an administrator gets the supervisor route |
| LoginScreen.RutaRoundTrip | app/src/main/java/com/example/levelupgamer/ui/login/LoginScreen.kt:163-184 | every route navigated to reads back, under the model's own route reader `LeerRuta`, as the role's screen with its argument, so the three routes do not collide |
| LoginScreen.UserRouteReadsBack | app/src/main/java/com/example/levelupgamer/ui/login/LoginScreen.kt:165 | the user route reads back as the user home with the same name |
| LoginScreen.SellerRouteReadsBack | app/src/main/java/com/example/levelupgamer/ui/login/LoginScreen.kt:175 | the seller route reads back as the seller home with the same id |
| LoginScreen.VendedorLandsOnKnownSeller | app/src/main/java/com/example/levelupgamer/ui/login/LoginScreen.kt:168-177 | a seller always lands on the home of seller 1 or 2 |
| Kotlin.CoerceAtLeast | app/src/main/java/com/example/levelupgamer/view/CarritoViewModel.kt:66 | `coerceAtLeast`: the value, or the minimum when it is below |
| Kotlin.CoerceIn | app/src/main/java/com/example/levelupgamer/view/CarritoViewModel.kt:67 | `coerceIn`: the value clamped into the range, each side stated |
| Kotlin.Trim | app/src/main/java/com/example/levelupgamer/viewmodel/vendedor/VendedorProductosViewModel.kt:100 | `trim()`: the input with a whitespace-only prefix and suffix cut off, and the result neither starts nor ends with whitespace |
| Kotlin.BlankIffTrimEmpty | app/src/main/java/com/example/levelupgamer/ui/homevendedor/HomeVendedorScreen.kt:62-63 | `isBlank()` holds exactly when `trim()` is empty |
| Kotlin.TrimIdempotent | app/src/main/java/com/example/levelupgamer/ui/homevendedor/HomeVendedorScreen.kt:62 | trimming twice is trimming once |
| Kotlin.Lowercase | app/src/main/java/com/example/levelupgamer/ui/homevendedor/HomeVendedorScreen.kt:62 | `lowercase()` for ASCII: same length, no capital left, every other character unchanged |
| Kotlin.LowercaseIdempotent | app/src/main/java/com/example/levelupgamer/ui/homevendedor/HomeVendedorScreen.kt:62 | lower-casing twice is lower-casing once |
| Kotlin.TrimLowercase | app/src/main/java/com/example/levelupgamer/ui/login/LoginScreen.kt:170 | trimming and lower-casing commute |
| Kotlin.ContainsIff | app/src/main/java/com/example/levelupgamer/ui/homevendedor/HomeVendedorScreen.kt:64-66 | `contains` holds exactly when the text occurs at some position |
| Kotlin.ToIntOrNull | app/src/main/java/com/example/levelupgamer/ui/homevendedor/HomeVendedorScreen.kt:260-261 | `toIntOrNull()`: empty text is null; text read as a number is an optional sign followed by Unicode decimal digits, and its value lies in `Int` range |
| Kotlin.ToIntOrNullExamples | app/src/main/java/com/example/levelupgamer/ui/homevendedor/HomeVendedorScreen.kt:260-261 | a sign reads with digits after it and not alone, a stray character gives null, fullwidth digits read as their values |
| Kotlin.IntToStringRoundTrip | app/src/main/java/com/example/levelupgamer/ui/homevendedor/HomeVendedorScreen.kt:251-261 | `toIntOrNull()` reads back every `Int` that `toString()` wrote |

## Left out

- Flows, coroutines, `stateIn` and `WhileSubscribed`.
  - A flow is modelled by the snapshot it emits for the current table.
  - A collector is modelled by applying that snapshot.
  - Emission timing, cancellation of an earlier `collect`, and races between collectors are not modelled.
- `roundToInt` on `Double` (CarritoViewModel.kt:128,131) is modelled as exact integer rounding
  with halves rounded up (`RoundsTo`), as `Math.round` does. The binary floating-point error of
  `x * (p / 100.0)` is not modelled.
- 32-bit `Int` overflow of sums, prices and quantities is not modelled. Integers are unbounded
  except where `toIntOrNull` checks the `Int` range.
- `Long` ids (`vendedorId`, cart `id`) are modelled as unbounded integers.
- Room and SQLite internals: transactions, indices, the `createdAt` default
  (`System.currentTimeMillis()`), and the rowid reuse that plain tables allow.
- `calificacion` and `obtenerProductosOrdenadosPorCalificacion` (ProductoDao.kt:65-67,
  ProductoRepository.kt:39-41) are not modelled. The field is a `Float` that the rest of the
  core never sets, and ordering by it adds nothing the price orders do not show.
- Categories (ProductoRepository.kt:73-82, `cargarCategorias` in ProductoViewModel.kt:38-44,
  AppDatabase.kt:91-95).
  - The `Categoria` entity and `CategoriaDao` are not part of this model.
  - The category seed is modelled over an abstract element type, with the default list as a parameter.
- `VendedorEntity` ids and the seller DAO beyond its count and insert (AppDatabase.kt:82-90).
- SQL `LIKE`.
  - The `%` and `_` wildcards inside the search text are not modelled.
  - Case folding covers ASCII letters only. Kotlin's `lowercase()` is modelled the same way.
  - Non-ASCII case mappings are not modelled.
- The order SQLite gives to rows with equal sort keys under `ORDER BY precio` or `ORDER BY nombre`.
  The model sorts stably by the key. The contracts state only the order by the key and the
  permutation.
- `UUID.randomUUID()` in `nuevo()` (VendedorProductosViewModel.kt:60) is the parameter `codigoNuevo`.
- The `onDone` callback of `finalizarCompra` (CarritoViewModel.kt:114-124) is not modelled. The
  model gives only the table it leaves.
- The `resumen` flow's initial `null` (CarritoViewModel.kt:57) is not modelled. The model gives
  the summary once a subtotal has been emitted.
- `LoginViewModel` and `hacerLogin` are not part of this model. The role, the user name and the
  typed e-mail are parameters of the route function.
- Compose UI, navigation options (`popUpTo`), images, the dialog's title and the seed callback's
  `onOpen` plumbing.
- Kotlin.ToIntOrNull: states the shape of readable text and the range of the value, not the value
  of every text; the value is fixed by `Kotlin.IntToStringRoundTrip` and `Kotlin.ToIntOrNullExamples`.
  Decimal digits are those of Unicode 15 that fit in one UTF-16 `Char`; the Unicode version of
  the device's `Character.digit` may differ.

Where the code and its documentation disagree, the model follows the code.

- A guest's `agregarProducto` is documented as doing nothing. The code's guard `uid < 0`
  (CarritoViewModel.kt:73) never fires, so the add writes a row for user 0 (see Findings).
- `incrementarCantidad` on a line no longer in the table is documented as doing nothing. The code
  upserts the copy by id (CarritoViewModel.kt:94), which inserts it again.
- `decrementarCantidad` on a line no longer in the table, with more than one unit, is likewise
  documented as doing nothing. The code upserts the copy by id (CarritoViewModel.kt:101), which
  inserts it again with one unit less.

The catalogue's `FiltroState` records the text, the category and the order, but each action
runs exactly one query (ProductoViewModel.kt:106-127), so the list reflects only the last action
(`ProductoViewModel.RecordedFiltersDisagreeWithList`).

## Findings

| source | as written | input that shows it | evidently intended | confidence | as-written member | corrected member |
|---|---|---|---|---|---|---|
| app/src/main/java/com/example/levelupgamer/view/CarritoViewModel.kt:73 | `if (uid < 0) return`, but `uid` was clamped at 0 on line 66, so the guard never fires and a guest's add writes a cart row owned by user 0 that the guest's own list (line 36, `uid <= 0`) never shows | a fresh cart (`inicializarCarrito(null)`) adding one unit of any product to the empty table stores row 1 with `userId = 0`, while `items` stays empty | `uid <= 0`, as in `items`, `cantidadItems`, `resumen` and `finalizarCompra`: a guest's add writes nothing | not executed | CarritoProperties.GuestAddWritesHiddenLine | CarritoProperties.CorrectedAddGuards |

=== FILE: AppDatabase.dfy ===
/** `AppDatabase.SeedIfEmptyCallback`: on every open the database fills each of three tables
    with demo content, but only a table that is empty. The category entity and its default list
    are not part of this model, so categories are kept abstract (`C`) and the default list is a
    parameter. */
module AppDatabase {
  import opened ProductoModel
  import ProductoDao

  type ProductoTable = ProductoDao.ProductoTable

  /** `VendedorEntity` as the seed writes it (its generated id is not modelled). */
  datatype VendedorEntity = VendedorEntity(nombre: string, email: string, activo: bool)

  /** The demo seller. */
  function VendedorDemo(): VendedorEntity {
    VendedorEntity("Vendedor Demo", "demo@levelupgamer.cl", true)
  }

  /** The three tables the callback looks at. */
  datatype Db<C> = Db(vendedores: seq<VendedorEntity>, categorias: seq<C>, productos: ProductoTable)

  /** The seller step: insert the demo seller iff `contarVendedores() == 0`. */
  function SeedVendedores(vendedores: seq<VendedorEntity>): (r: seq<VendedorEntity>)
    ensures |vendedores| == 0 ==> r == [VendedorDemo()]
    ensures |vendedores| != 0 ==> r == vendedores
  {
    if |vendedores| == 0 then vendedores + [VendedorDemo()] else vendedores
  }

  /** The category step: insert the default list iff `contarCategorias() == 0`. */
  function SeedCategorias<C>(categorias: seq<C>, categoriasDefault: seq<C>): (r: seq<C>)
    ensures |categorias| == 0 ==> r == categoriasDefault
    ensures |categorias| != 0 ==> r == categorias
  {
    if |categorias| == 0 then categorias + categoriasDefault else categorias
  }

  /** The product step: `upsertAll(obtenerProductosDefault())` iff `contarProductos() == 0`. */
  function SeedProductos(t: ProductoTable): (r: ProductoTable)
    ensures ProductoDao.ContarProductos(t) == 0 ==> r == ProductosDefault()
    ensures ProductoDao.ContarProductos(t) != 0 ==> r == t
  {
    var n := ProductoDao.ContarProductos(t);
    if n == 0 then
      var r := SeedEmptyCatalogue(t);
      assert n == 0;
      r
    else
      t
  }

  /** Upserting the demo list into an empty catalogue stores exactly that list, in order. */
  function SeedEmptyCatalogue(t: ProductoTable): (r: ProductoTable)
    requires |t| == 0
    ensures r == ProductosDefault()
  {
    ProductosDefaultDistinct();
    ProductoDao.UpsertAllFresh(t, ProductosDefault());
    ProductoDao.UpsertAll(t, ProductosDefault())
  }

  /** The callback body: the three guarded steps, each on its own table. */
  function Seed<C>(db: Db<C>, categoriasDefault: seq<C>): (r: Db<C>)
    ensures |r.vendedores| > 0 && |r.productos| > 0
    ensures |db.vendedores| != 0 ==> r.vendedores == db.vendedores
    ensures |db.categorias| != 0 ==> r.categorias == db.categorias
    ensures |db.productos| != 0 ==> r.productos == db.productos
  {
    ProductosDefaultDistinct();
    Db(SeedVendedores(db.vendedores), SeedCategorias(db.categorias, categoriasDefault), SeedProductos(db.productos))
  }

  /** Each step looks only at its own table: what it writes is decided by that table alone,
      whatever the other two hold. */
  lemma GuardsAreIndependent<C>(a: Db<C>, b: Db<C>, categoriasDefault: seq<C>)
    ensures a.vendedores == b.vendedores ==> Seed(a, categoriasDefault).vendedores == Seed(b, categoriasDefault).vendedores
    ensures a.categorias == b.categorias ==> Seed(a, categoriasDefault).categorias == Seed(b, categoriasDefault).categorias
    ensures a.productos == b.productos ==> Seed(a, categoriasDefault).productos == Seed(b, categoriasDefault).productos
  {
  }

  /** The first open of an empty database writes exactly the demo content. */
  lemma SeedEmptyDatabase<C>(t: ProductoTable, categoriasDefault: seq<C>)
    requires |t| == 0
    ensures Seed(Db([], [], t), categoriasDefault) == Db([VendedorDemo()], categoriasDefault, ProductosDefault())
  {
  }

  /** Opening the database again seeds nothing more. */
  lemma SeedIdempotent<C>(db: Db<C>, categoriasDefault: seq<C>)
    ensures Seed(Seed(db, categoriasDefault), categoriasDefault) == Seed(db, categoriasDefault)
  {
    SeedProductosIdempotent(db.productos);
  }

  /** The product step, run on its own output, writes nothing. */
  lemma SeedProductosIdempotent(t: ProductoTable)
    ensures SeedProductos(SeedProductos(t)) == SeedProductos(t)
  {
    if |t| == 0 {
      assert |SeedProductos(t)| == 10;
    }
  }
}

=== FILE: CarritoDao.dfy ===
/** The cart table and the semantics of every `CarritoDao` query.

    The table is kept as its rows in rowid order (the order of SQLite's table B-tree), together
    with the `AUTOINCREMENT` counter, the largest id ever handed out. The primary key makes the
    ids strictly increasing; an id of 0 is never stored, because Room writes `nullif(id, 0)` and
    lets SQLite pick a fresh id. */
module CarritoDao {
  import opened Kotlin
  import opened Seqs
  import opened ItemCarritoModel

  datatype CarritoStore = CarritoStore(rows: seq<ItemCarrito>, lastId: int)

  predicate IdsIncreasing(rows: seq<ItemCarrito>) {
    forall i, j :: 0 <= i < j < |rows| ==> rows[i].id < rows[j].id
  }

  /** What the storage engine guarantees about the cart table. */
  predicate ValidStore(s: CarritoStore) {
    && IdsIncreasing(s.rows)
    && s.lastId >= 0
    && forall i :: 0 <= i < |s.rows| ==> s.rows[i].id != 0 && s.rows[i].id <= s.lastId
  }

  type CarritoTable = s: CarritoStore | ValidStore(s) witness CarritoStore([], 0)

  /** A freshly created, empty table. */
  function Empty(): CarritoTable {
    CarritoStore([], 0)
  }

  /** A subsequence of rows with increasing ids has increasing ids. */
  lemma SubsequenceIdsIncreasing(a: seq<ItemCarrito>, b: seq<ItemCarrito>)
    requires IsSubsequence(a, b) && IdsIncreasing(b)
    ensures IdsIncreasing(a)
  {
    forall i, j | 0 <= i < j < |a|
      ensures a[i].id < a[j].id
    {
      SubsequenceOrder(a, b, i, j);
    }
  }

  /** Removing rows keeps a table valid. */
  function Keep(t: CarritoTable, keep: ItemCarrito -> bool): (r: CarritoTable)
    ensures r.lastId == t.lastId
    ensures forall x :: x in r.rows <==> x in t.rows && keep(x)
    ensures IsSubsequence(r.rows, t.rows)
  {
    var rows := Filter(t.rows, keep);
    FilterSubsequence(t.rows, keep);
    SubsequenceIdsIncreasing(rows, t.rows);
    assert forall x :: x in t.rows && keep(x) ==> x in rows by {
      forall x | x in t.rows && keep(x)
        ensures x in rows
      {
        var i :| 0 <= i < |t.rows| && t.rows[i] == x;
      }
    }
    CarritoStore(rows, t.lastId)
  }

  /* ---------------- row filters ---------------- */

  /** `WHERE userId = :userId` */
  function DeUsuario(userId: int): ItemCarrito -> bool {
    (x: ItemCarrito) => x.userId == userId
  }

  /** `WHERE userId <> :userId`, what survives `clearByUser`. */
  function DeOtroUsuario(userId: int): ItemCarrito -> bool {
    (x: ItemCarrito) => x.userId != userId
  }

  /** `WHERE id <> :id`, what survives `@Delete`. */
  function SinId(id: int): ItemCarrito -> bool {
    (x: ItemCarrito) => x.id != id
  }

  /* ---------------- observables ---------------- */

  /** `observeByUser`: `SELECT * FROM carrito WHERE userId = :userId ORDER BY id ASC`.
      Exactly the user's rows, by ascending id. */
  function ObserveByUser(t: CarritoTable, userId: int): (r: seq<ItemCarrito>)
    ensures forall x :: x in r <==> x in t.rows && x.userId == userId
    ensures IdsIncreasing(r)
    ensures IsSubsequence(r, t.rows)
  {
    Keep(t, DeUsuario(userId)).rows
  }

  /** Sum of `cantidad` over a list of lines. */
  function SumCantidad(rows: seq<ItemCarrito>): int {
    if |rows| == 0 then 0 else rows[0].cantidad + SumCantidad(rows[1..])
  }

  /** Sum of `cantidad * productoPrecio` over a list of lines. */
  function SumImporte(rows: seq<ItemCarrito>): int {
    if |rows| == 0 then 0 else rows[0].cantidad * rows[0].productoPrecio + SumImporte(rows[1..])
  }

  lemma {:induction false} SumCantidadAppend(a: seq<ItemCarrito>, b: seq<ItemCarrito>)
    ensures SumCantidad(a + b) == SumCantidad(a) + SumCantidad(b)
  {
    if |a| > 0 {
      assert (a + b)[1..] == a[1..] + b;
      SumCantidadAppend(a[1..], b);
    } else {
      assert a + b == b;
    }
  }

  lemma {:induction false} SumImporteAppend(a: seq<ItemCarrito>, b: seq<ItemCarrito>)
    ensures SumImporte(a + b) == SumImporte(a) + SumImporte(b)
  {
    if |a| > 0 {
      assert (a + b)[1..] == a[1..] + b;
      SumImporteAppend(a[1..], b);
    } else {
      assert a + b == b;
    }
  }

  /** SQL `SUM(expr)`: `NULL` over no rows, the sum otherwise. */
  function SqlSum(rows: seq<ItemCarrito>, sum: int): Option<int> {
    if |rows| == 0 then None else Some(sum)
  }

  /** `observeCount`: `SELECT SUM(cantidad) ... WHERE userId = :userId`. */
  function ObserveCount(t: CarritoTable, userId: int): (r: Option<int>)
    ensures r.None? <==> forall x :: x in t.rows ==> x.userId != userId
    ensures r.Some? ==> r.value == SumCantidad(ObserveByUser(t, userId))
  {
    var rows := ObserveByUser(t, userId);
    assert |rows| > 0 ==> rows[0] in rows;
    SqlSum(rows, SumCantidad(rows))
  }

  /** `observeSubtotal`: `SELECT SUM(cantidad * productoPrecio) ... WHERE userId = :userId`. */
  function ObserveSubtotal(t: CarritoTable, userId: int): (r: Option<int>)
    ensures r.None? <==> forall x :: x in t.rows ==> x.userId != userId
    ensures r.Some? ==> r.value == SumImporte(ObserveByUser(t, userId))
  {
    var rows := ObserveByUser(t, userId);
    assert |rows| > 0 ==> rows[0] in rows;
    SqlSum(rows, SumImporte(rows))
  }

  /* ---------------- point query ---------------- */

  predicate IsLine(x: ItemCarrito, userId: int, codigo: string) {
    x.userId == userId && x.productoCodigo == codigo
  }

  /** Position of the first line of `userId` for product `codigo`, scanning in id order. */
  function FindIndex(rows: seq<ItemCarrito>, userId: int, codigo: string): (r: Option<nat>)
    ensures r.Some? ==> r.value < |rows| && IsLine(rows[r.value], userId, codigo)
    ensures r.Some? ==> forall k :: 0 <= k < r.value ==> !IsLine(rows[k], userId, codigo)
    ensures r.None? <==> forall k :: 0 <= k < |rows| ==> !IsLine(rows[k], userId, codigo)
  {
    if |rows| == 0 then None
    else if IsLine(rows[0], userId, codigo) then Some(0)
    else match FindIndex(rows[1..], userId, codigo)
      case None => None
      case Some(i) => Some(i + 1)
  }

  /** `findItem`: `SELECT * ... WHERE userId = :userId AND productoCodigo = :codigo LIMIT 1`.
      A line of that user for that product, or `null` when there is none. */
  function FindItem(t: CarritoTable, userId: int, codigo: string): (r: Option<ItemCarrito>)
    ensures r.Some? ==> r.value in t.rows && IsLine(r.value, userId, codigo)
    ensures r.None? <==> forall x :: x in t.rows ==> !IsLine(x, userId, codigo)
  {
    match FindIndex(t.rows, userId, codigo)
    case None => None
    case Some(i) => Some(t.rows[i])
  }

  /* ---------------- writes ---------------- */

  /** Puts `item` at its id's place in an id-ordered list, replacing the row with that id. */
  function Place(rows: seq<ItemCarrito>, item: ItemCarrito): (r: seq<ItemCarrito>)
    requires IdsIncreasing(rows)
    ensures IdsIncreasing(r)
    ensures forall x :: x in r <==> x == item || (x in rows && x.id != item.id)
  {
    if |rows| == 0 then [item]
    else if rows[0].id == item.id then
      assert forall k :: 1 <= k < |rows| ==> rows[k].id > item.id;
      [item] + rows[1..]
    else if rows[0].id > item.id then
      [item] + rows
    else
      var rest := Place(rows[1..], item);
      assert forall x :: x in rows <==> x == rows[0] || x in rows[1..];
      assert forall k :: 0 <= k < |rest| ==> rest[k] in rest && rest[k].id > rows[0].id;
      [rows[0]] + rest
  }

  /** Placing a row whose id is already at position `i` overwrites position `i`. */
  lemma {:induction false} PlaceReplaces(rows: seq<ItemCarrito>, item: ItemCarrito, i: int)
    requires IdsIncreasing(rows)
    requires 0 <= i < |rows| && rows[i].id == item.id
    ensures Place(rows, item) == rows[i := item]
  {
    if i == 0 {
      PlaceAtHead(rows, item);
    } else {
      assert rows[0].id < rows[i].id;
      PlaceStep(rows, item);
      PlaceReplaces(rows[1..], item, i - 1);
      ConsUpdate(rows, i, item);
    }
  }

  /** Placing a row with the first row's id overwrites the first row. */
  lemma PlaceAtHead(rows: seq<ItemCarrito>, item: ItemCarrito)
    requires IdsIncreasing(rows)
    requires |rows| > 0 && rows[0].id == item.id
    ensures Place(rows, item) == rows[0 := item]
  {
    assert [item] + rows[1..] == rows[0 := item];
  }

  /** Placing a row with an id past the first row's keeps the first row and places into the rest. */
  lemma PlaceStep(rows: seq<ItemCarrito>, item: ItemCarrito)
    requires IdsIncreasing(rows)
    requires |rows| > 0 && rows[0].id < item.id
    ensures IdsIncreasing(rows[1..])
    ensures Place(rows, item) == [rows[0]] + Place(rows[1..], item)
  {
  }

  lemma ConsUpdate<T>(s: seq<T>, i: int, v: T)
    requires 0 < i < |s|
    ensures [s[0]] + s[1..][i - 1 := v] == s[i := v]
  {
  }

  /** `upsert` (`@Insert(onConflict = REPLACE)`): id 0 inserts under the next id of the
      counter; any other id replaces the row with that id, or inserts it when there is none. */
  function Upsert(t: CarritoTable, item: ItemCarrito): (r: CarritoTable)
    ensures item.id == 0 ==>
      && r.lastId == t.lastId + 1
      && r.rows == t.rows + [item.(id := r.lastId)]
    ensures item.id != 0 ==>
      && r.lastId >= t.lastId
      && forall x :: x in r.rows <==> x == item || (x in t.rows && x.id != item.id)
  {
    if item.id == 0 then
      var newId := t.lastId + 1;
      var rows := t.rows + [item.(id := newId)];
      assert forall k :: 0 <= k < |t.rows| ==> rows[k] == t.rows[k];
      CarritoStore(rows, newId)
    else
      var rows := Place(t.rows, item);
      var last := if item.id > t.lastId then item.id else t.lastId;
      assert forall k :: 0 <= k < |rows| ==> rows[k] in rows;
      CarritoStore(rows, last)
  }

  /** `delete` (`@Delete`): removes the row with the item's id; nothing when there is none. */
  function Delete(t: CarritoTable, item: ItemCarrito): (r: CarritoTable)
    ensures r.lastId == t.lastId
    ensures forall x :: x in r.rows <==> x in t.rows && x.id != item.id
  {
    Keep(t, SinId(item.id))
  }

  /** Deleting a stored line removes exactly its position. */
  lemma DeleteAt(t: CarritoTable, i: int)
    requires 0 <= i < |t.rows|
    ensures Delete(t, t.rows[i]).rows == t.rows[..i] + t.rows[i + 1..]
  {
    var k := SinId(t.rows[i].id);
    assert t.rows == t.rows[..i] + ([t.rows[i]] + t.rows[i + 1..]);
    FilterAppend(t.rows[..i], [t.rows[i]] + t.rows[i + 1..], k);
    FilterAppend([t.rows[i]], t.rows[i + 1..], k);
    FilterAll(t.rows[..i], k);
    FilterAll(t.rows[i + 1..], k);
  }

  /** `clearByUser`: `DELETE FROM carrito WHERE userId = :userId`. */
  function ClearByUser(t: CarritoTable, userId: int): (r: CarritoTable)
    ensures r.lastId == t.lastId
    ensures forall x :: x in r.rows <==> x in t.rows && x.userId != userId
  {
    Keep(t, DeOtroUsuario(userId))
  }
}

=== FILE: CarritoProperties.dfy ===
/** What the cart engine guarantees across commands: the guest's views, merging repeated adds
    into one line, the line invariant every command keeps, how each command moves the badge
    count and the subtotal, and what checkout touches. */
module CarritoProperties {
  import opened Kotlin
  import opened Seqs
  import opened ItemCarritoModel
  import opened ProductoModel
  import opened CarritoDao
  import opened CarritoViewModel

  /* ---------------- per-user sums over the raw rows ---------------- */

  /** The units a line contributes to `userId`'s badge. */
  function Unidades(x: ItemCarrito, userId: int): int {
    if x.userId == userId then x.cantidad else 0
  }

  /** The amount a line contributes to `userId`'s subtotal. */
  function Importe(x: ItemCarrito, userId: int): int {
    if x.userId == userId then x.cantidad * x.productoPrecio else 0
  }

  /** A line's amount: its units at its stored unit price. */
  function Monto(x: ItemCarrito): int {
    x.cantidad * x.productoPrecio
  }

  /** Changing a line's quantity changes its amount by the difference at its unit price. */
  lemma ImporteStep(x: ItemCarrito, n: int, u: int)
    requires x.userId == u
    ensures Unidades(x.(cantidad := n), u) - Unidades(x, u) == n - x.cantidad
    ensures Importe(x.(cantidad := n), u) - Importe(x, u) == (n - x.cantidad) * x.productoPrecio
  {
    assert n * x.productoPrecio - x.cantidad * x.productoPrecio == (n - x.cantidad) * x.productoPrecio;
  }

  /** A signed-in user's visible cart is their rows filtered out of the table. */
  lemma ItemsIsFilter(s: CarritoState, t: CarritoTable)
    requires s.userId > 0
    ensures Items(s, t) == Filter(t.rows, DeUsuario(s.userId))
  {
  }

  /** Filtering one row keeps it exactly when it is the user's. */
  lemma FilterOne(x: ItemCarrito, u: int)
    ensures Filter([x], DeUsuario(u)) == if x.userId == u then [x] else []
  {
    assert [x][1..] == [];
  }

  /** The user's rows split around one row. */
  lemma SplitFilter(rows: seq<ItemCarrito>, i: int, u: int)
    requires 0 <= i < |rows|
    ensures Filter(rows, DeUsuario(u))
         == Filter(rows[..i], DeUsuario(u)) + (if rows[i].userId == u then [rows[i]] else []) + Filter(rows[i + 1..], DeUsuario(u))
  {
    FilterSplit(rows, i, DeUsuario(u));
    FilterOne(rows[i], u);
  }

  /** The user's sums split around one row. */
  lemma SplitSums(rows: seq<ItemCarrito>, i: int, u: int)
    requires 0 <= i < |rows|
    ensures SumCantidad(Filter(rows, DeUsuario(u)))
         == SumCantidad(Filter(rows[..i], DeUsuario(u))) + Unidades(rows[i], u) + SumCantidad(Filter(rows[i + 1..], DeUsuario(u)))
    ensures SumImporte(Filter(rows, DeUsuario(u)))
         == SumImporte(Filter(rows[..i], DeUsuario(u))) + Importe(rows[i], u) + SumImporte(Filter(rows[i + 1..], DeUsuario(u)))
  {
    var k := DeUsuario(u);
    var pre, mid, post := Filter(rows[..i], k), (if rows[i].userId == u then [rows[i]] else []), Filter(rows[i + 1..], k);
    SplitFilter(rows, i, u);
    SumCantidadAppend(pre + mid, post);
    SumCantidadAppend(pre, mid);
    SumImporteAppend(pre + mid, post);
    SumImporteAppend(pre, mid);
  }

  /** Appending a row adds its contribution. */
  lemma AppendSums(rows: seq<ItemCarrito>, x: ItemCarrito, u: int)
    ensures SumCantidad(Filter(rows + [x], DeUsuario(u))) == SumCantidad(Filter(rows, DeUsuario(u))) + Unidades(x, u)
    ensures SumImporte(Filter(rows + [x], DeUsuario(u))) == SumImporte(Filter(rows, DeUsuario(u))) + Importe(x, u)
  {
    var k := DeUsuario(u);
    FilterAppend(rows, [x], k);
    SumCantidadAppend(Filter(rows, k), Filter([x], k));
    SumImporteAppend(Filter(rows, k), Filter([x], k));
  }

  /** Overwriting a row trades its contribution for the new row's. */
  lemma RewriteSums(rows: seq<ItemCarrito>, i: int, v: ItemCarrito, u: int)
    requires 0 <= i < |rows|
    ensures SumCantidad(Filter(rows[i := v], DeUsuario(u)))
         == SumCantidad(Filter(rows, DeUsuario(u))) - Unidades(rows[i], u) + Unidades(v, u)
    ensures SumImporte(Filter(rows[i := v], DeUsuario(u)))
         == SumImporte(Filter(rows, DeUsuario(u))) - Importe(rows[i], u) + Importe(v, u)
  {
    SplitSums(rows, i, u);
    SplitSums(rows[i := v], i, u);
    assert rows[i := v][..i] == rows[..i];
    assert rows[i := v][i + 1..] == rows[i + 1..];
  }

  /* ---------------- the guest ---------------- */

  /** The guest's views never look at the table: an empty cart, a zero badge and an all-zero
      breakdown at the configured discount. */
  lemma GuestSeesEmptyCart(s: CarritoState, t: CarritoTable)
    requires s.userId <= 0
    ensures Items(s, t) == [] && CantidadItems(s, t) == 0
    ensures Resumen(s, t) == ResumenCarrito(descuentoPorcentaje := s.descPorcentaje)
  {
    var r := Resumen(s, t);
    RoundsToUnique(0, r.descuentoMonto, 0);
    RoundsToUnique(0, r.ivaMonto, 0);
  }

  /** As written, a guest's add is not a no-op: it stores a line under user 0 that none of the
      guest's views can show. */
  lemma GuestAddWritesHiddenLine(s: CarritoState, t: CarritoTable, p: Producto, cantidad: int)
    requires s.userId == 0 && LineaDe(t, 0, p.codigo).None?
    ensures var r := AgregarProducto(s, t, p, cantidad);
      && |r.rows| == |t.rows| + 1
      && r.rows[|t.rows|].userId == 0 && r.rows[|t.rows|].productoCodigo == p.codigo
      && Items(s, r) == [] && CantidadItems(s, r) == 0
  {
  }

  /** The concrete case: a fresh guest session adds one product to an empty table. */
  lemma GuestAddExample(p: Producto)
    ensures var s := InicializarCarrito(None, 0);
      && AgregarProducto(s, Empty(), p, 1).rows == [ItemCarrito(1, 0, p.codigo, p.nombre, p.precio, 1)]
      && Items(s, AgregarProducto(s, Empty(), p, 1)) == []
  {
    var s := InicializarCarrito(None, 0);
    GuestAddWritesHiddenLine(s, Empty(), p, 1);
  }

  /** With the guest guard, a guest's add leaves the table alone and a user's add is the add as
      written. */
  lemma CorrectedAddGuards(s: CarritoState, t: CarritoTable, p: Producto, cantidad: int)
    ensures s.userId <= 0 ==> AgregarProductoCorregido(s, t, p, cantidad) == t
    ensures s.userId > 0 ==> AgregarProductoCorregido(s, t, p, cantidad) == AgregarProducto(s, t, p, cantidad)
  {
  }

  /* ---------------- repeated adds merge ---------------- */

  /** A new line appended after lines of other (user, product) pairs is the first match. */
  lemma FindIndexAppended(rows: seq<ItemCarrito>, x: ItemCarrito, u: int, codigo: string)
    requires FindIndex(rows, u, codigo).None? && IsLine(x, u, codigo)
    ensures FindIndex(rows + [x], u, codigo) == Some(|rows|)
  {
    var r := FindIndex(rows + [x], u, codigo);
    assert (rows + [x])[|rows|] == x;
    assert forall k :: 0 <= k < |rows| ==> (rows + [x])[k] == rows[k];
    assert r.Some?;
  }

  /** Adding `a` and then `b` units of a product not yet in the cart is the same write as adding
      `a + b` at once: one line, the summed quantity floored at 1, the id the first add handed out. */
  lemma AddTwiceMerges(s: CarritoState, t: CarritoTable, p: Producto, a: int, b: int)
    requires s.userId > 0 && LineaDe(t, s.userId, p.codigo).None?
    requires a >= 1
    ensures AgregarProductoCorregido(s, AgregarProductoCorregido(s, t, p, a), p, b)
         == AgregarProductoCorregido(s, t, p, a + b)
  {
    var u := s.userId;
    var t1 := AgregarProductoCorregido(s, t, p, a);
    var x := NuevaLinea(u, p, a).(id := t.lastId + 1);
    assert t1.rows == t.rows + [x];
    FindIndexAppended(t.rows, x, u, p.codigo);
    var t2 := AgregarProductoCorregido(s, t1, p, b);
    var y := NuevaLinea(u, p, a + b).(id := t.lastId + 1);
    assert x.(cantidad := CoerceAtLeast(x.cantidad + b, 1)) == y;
    LastUpdated(t.rows, x, y);
  }

  /** Overwriting the last row of `rows + [x]` with `y` gives `rows + [y]`. */
  lemma LastUpdated<T>(rows: seq<T>, x: T, y: T)
    ensures (rows + [x])[|rows| := y] == rows + [y]
  {
  }

  /** Session 5 adds one unit of a product and then two more: the cart holds a single line of three. */
  lemma AddOneThenTwoExample(p: Producto)
    ensures var s := InicializarCarrito(Some(5), 0);
      var t := AgregarProductoCorregido(s, AgregarProductoCorregido(s, Empty(), p, 1), p, 2);
      && t.rows == [ItemCarrito(1, 5, p.codigo, p.nombre, p.precio, 3)]
      && CantidadItems(s, t) == 3
  {
    var s := InicializarCarrito(Some(5), 0);
    AddTwiceMerges(s, Empty(), p, 1, 2);
    var t := AgregarProductoCorregido(s, Empty(), p, 3);
    assert t.rows == [] + [NuevaLinea(5, p, 3).(id := 1)];
    assert Items(s, t) == t.rows;
    assert SumCantidad(t.rows) == 3 + SumCantidad(t.rows[1..]);
  }

  /* ---------------- the line invariant ---------------- */

  /** At most one line per (user, product). */
  predicate UniqueLines(rows: seq<ItemCarrito>) {
    forall i, j :: 0 <= i < j < |rows| ==>
      !(rows[i].userId == rows[j].userId && rows[i].productoCodigo == rows[j].productoCodigo)
  }

  /** Every line holds at least one unit. */
  predicate PositiveQuantities(rows: seq<ItemCarrito>) {
    forall i :: 0 <= i < |rows| ==> rows[i].cantidad >= 1
  }

  /** What the engine's commands keep true of the cart table. */
  predicate CartInvariant(t: CarritoTable) {
    UniqueLines(t.rows) && PositiveQuantities(t.rows)
  }

  lemma CartInvariantEmpty()
    ensures CartInvariant(Empty())
  {
  }

  lemma UniqueLinesSubsequence(a: seq<ItemCarrito>, b: seq<ItemCarrito>)
    requires IsSubsequence(a, b) && UniqueLines(b)
    ensures UniqueLines(a)
  {
    forall i, j | 0 <= i < j < |a|
      ensures !(a[i].userId == a[j].userId && a[i].productoCodigo == a[j].productoCodigo)
    {
      SubsequenceOrder(a, b, i, j);
    }
  }

  /** Removing rows keeps the invariant. */
  lemma KeepPreservesInvariant(t: CarritoTable, keep: ItemCarrito -> bool)
    requires CartInvariant(t)
    ensures CartInvariant(Keep(t, keep))
  {
    var r := Keep(t, keep);
    UniqueLinesSubsequence(r.rows, t.rows);
    forall i | 0 <= i < |r.rows|
      ensures r.rows[i].cantidad >= 1
    {
      assert r.rows[i] in t.rows;
    }
  }

  /** Both adds keep the invariant, whatever the quantity asked for. */
  lemma AgregarPreservesInvariant(s: CarritoState, t: CarritoTable, p: Producto, cantidad: int)
    requires CartInvariant(t)
    ensures CartInvariant(AgregarProducto(s, t, p, cantidad))
    ensures CartInvariant(AgregarProductoCorregido(s, t, p, cantidad))
  {
    var u := s.userId;
    if u >= 0 {
      match LineaDe(t, u, p.codigo)
      case None =>
        assert forall k :: 0 <= k < |t.rows| ==> !IsLine(t.rows[k], u, p.codigo);
        AppendKeepsLines(t.rows, NuevaLinea(u, p, cantidad).(id := t.lastId + 1));
      case Some(i) =>
        MergeKeepsLines(t.rows, i, CoerceAtLeast(t.rows[i].cantidad + cantidad, 1));
    }
  }

  /** Appending a line of a new (user, product) pair with at least one unit keeps the invariant. */
  lemma AppendKeepsLines(rows: seq<ItemCarrito>, x: ItemCarrito)
    requires UniqueLines(rows) && PositiveQuantities(rows) && x.cantidad >= 1
    requires forall k :: 0 <= k < |rows| ==> !IsLine(rows[k], x.userId, x.productoCodigo)
    ensures UniqueLines(rows + [x]) && PositiveQuantities(rows + [x])
  {
    assert forall k :: 0 <= k < |rows| ==> (rows + [x])[k] == rows[k];
  }

  /** Setting one line's quantity to at least one keeps the invariant. */
  lemma MergeKeepsLines(rows: seq<ItemCarrito>, i: int, n: int)
    requires UniqueLines(rows) && PositiveQuantities(rows) && 0 <= i < |rows| && n >= 1
    ensures UniqueLines(rows[i := rows[i].(cantidad := n)]) && PositiveQuantities(rows[i := rows[i].(cantidad := n)])
  {
  }

  /** A write that changes quantities in place keeps the invariant when no quantity drops
      below one. */
  lemma PointwisePreservesInvariant(t: CarritoTable, r: CarritoTable, item: ItemCarrito, v: ItemCarrito)
    requires CartInvariant(t)
    requires v.userId == item.userId && v.productoCodigo == item.productoCodigo && v.cantidad >= 1
    requires |r.rows| == |t.rows|
    requires forall k :: 0 <= k < |t.rows| ==> r.rows[k] == if t.rows[k] == item then v else t.rows[k]
    ensures CartInvariant(r)
  {
  }

  lemma IncrementarPreservesInvariant(t: CarritoTable, item: ItemCarrito)
    requires CartInvariant(t) && item in t.rows
    ensures CartInvariant(IncrementarCantidad(t, item))
  {
    var i :| 0 <= i < |t.rows| && t.rows[i] == item;
    PointwisePreservesInvariant(t, IncrementarCantidad(t, item), item, item.(cantidad := item.cantidad + 1));
  }

  lemma DecrementarPreservesInvariant(t: CarritoTable, item: ItemCarrito)
    requires CartInvariant(t) && item in t.rows
    ensures CartInvariant(DecrementarCantidad(t, item))
  {
    if item.cantidad > 1 {
      PointwisePreservesInvariant(t, DecrementarCantidad(t, item), item, item.(cantidad := item.cantidad - 1));
    }
  }

  lemma EliminarPreservesInvariant(t: CarritoTable, item: ItemCarrito)
    requires CartInvariant(t)
    ensures CartInvariant(EliminarItem(t, item))
  {
    KeepPreservesInvariant(t, SinId(item.id));
  }

  lemma FinalizarPreservesInvariant(s: CarritoState, t: CarritoTable)
    requires CartInvariant(t)
    ensures CartInvariant(FinalizarCompra(s, t))
  {
    KeepPreservesInvariant(t, DeOtroUsuario(s.userId));
  }

  /* ---------------- badge and subtotal ---------------- */

  /** A user's add moves the badge by the units it writes, and the subtotal by those units at
      the line's price: the product's current price for a new line, the price stored in the
      line when it merges. */
  lemma AgregarMovesTotals(s: CarritoState, t: CarritoTable, p: Producto, cantidad: int)
    requires s.userId > 0
    ensures var r := AgregarProductoCorregido(s, t, p, cantidad);
      if LineaDe(t, s.userId, p.codigo).None? then
        && CantidadItems(s, r) == CantidadItems(s, t) + CoerceAtLeast(cantidad, 1)
        && Subtotal(s, r) == Subtotal(s, t) + CoerceAtLeast(cantidad, 1) * p.precio
      else
        var ex := t.rows[LineaDe(t, s.userId, p.codigo).value];
        var n := CoerceAtLeast(ex.cantidad + cantidad, 1);
        && CantidadItems(s, r) == CantidadItems(s, t) + (n - ex.cantidad)
        && Subtotal(s, r) == Subtotal(s, t) - Monto(ex) + Monto(ex.(cantidad := n))
  {
    if LineaDe(t, s.userId, p.codigo).None? {
      AgregarNewLineTotals(s, t, p, cantidad);
    } else {
      AgregarMergeTotals(s, t, p, cantidad);
    }
  }

  lemma AgregarNewLineTotals(s: CarritoState, t: CarritoTable, p: Producto, cantidad: int)
    requires s.userId > 0 && LineaDe(t, s.userId, p.codigo).None?
    ensures var r := AgregarProductoCorregido(s, t, p, cantidad);
      && CantidadItems(s, r) == CantidadItems(s, t) + CoerceAtLeast(cantidad, 1)
      && Subtotal(s, r) == Subtotal(s, t) + CoerceAtLeast(cantidad, 1) * p.precio
  {
    var r := AgregarProductoCorregido(s, t, p, cantidad);
    var x := NuevaLinea(s.userId, p, cantidad).(id := r.lastId);
    assert r.rows == t.rows + [x];
    ItemsIsFilter(s, t);
    ItemsIsFilter(s, r);
    AppendSums(t.rows, x, s.userId);
  }

  lemma AgregarMergeTotals(s: CarritoState, t: CarritoTable, p: Producto, cantidad: int)
    requires s.userId > 0 && LineaDe(t, s.userId, p.codigo).Some?
    ensures var r := AgregarProductoCorregido(s, t, p, cantidad);
      var ex := t.rows[LineaDe(t, s.userId, p.codigo).value];
      var n := CoerceAtLeast(ex.cantidad + cantidad, 1);
      && CantidadItems(s, r) == CantidadItems(s, t) + (n - ex.cantidad)
      && Subtotal(s, r) == Subtotal(s, t) - Monto(ex) + Monto(ex.(cantidad := n))
  {
    var i := LineaDe(t, s.userId, p.codigo).value;
    var r := AgregarProductoCorregido(s, t, p, cantidad);
    var n := CoerceAtLeast(t.rows[i].cantidad + cantidad, 1);
    assert r.rows == t.rows[i := t.rows[i].(cantidad := n)];
    RewriteTotals(s, t, r, i, n);
  }

  /** Setting the quantity of one of the user's lines to `n` moves the totals by the difference. */
  lemma RewriteTotals(s: CarritoState, t: CarritoTable, r: CarritoTable, i: int, n: int)
    requires s.userId > 0 && 0 <= i < |t.rows| && t.rows[i].userId == s.userId
    requires r.rows == t.rows[i := t.rows[i].(cantidad := n)]
    ensures CantidadItems(s, r) == CantidadItems(s, t) + (n - t.rows[i].cantidad)
    ensures Subtotal(s, r) == Subtotal(s, t) - Monto(t.rows[i]) + Monto(t.rows[i].(cantidad := n))
  {
    ItemsIsFilter(s, t);
    ItemsIsFilter(s, r);
    RewriteSums(t.rows, i, t.rows[i].(cantidad := n), s.userId);
  }

  /** The rows after an in-place write, as a sequence update. */
  lemma PointwiseIsUpdate(t: CarritoTable, r: CarritoTable, item: ItemCarrito, v: ItemCarrito) returns (i: int)
    requires item in t.rows && |r.rows| == |t.rows|
    requires forall k :: 0 <= k < |t.rows| ==> r.rows[k] == if t.rows[k] == item then v else t.rows[k]
    ensures 0 <= i < |t.rows| && t.rows[i] == item && r.rows == t.rows[i := v]
  {
    i := RowIndex(t, item);
    assert forall k :: 0 <= k < |t.rows| && k != i ==> t.rows[k] != item;
  }

  /** `+` on a line of the signed-in user adds one unit and one unit price. */
  lemma IncrementarMovesTotals(s: CarritoState, t: CarritoTable, item: ItemCarrito)
    requires s.userId > 0 && item in t.rows && item.userId == s.userId
    ensures CantidadItems(s, IncrementarCantidad(t, item)) == CantidadItems(s, t) + 1
    ensures Subtotal(s, IncrementarCantidad(t, item)) == Subtotal(s, t) + item.productoPrecio
  {
    var r := IncrementarCantidad(t, item);
    var v := item.(cantidad := item.cantidad + 1);
    var i := PointwiseIsUpdate(t, r, item, v);
    ItemsIsFilter(s, t);
    ItemsIsFilter(s, r);
    RewriteSums(t.rows, i, v, s.userId);
    ImporteStep(item, item.cantidad + 1, s.userId);
  }

  /** `-` on a line of more than one unit removes one unit and one unit price. */
  lemma DecrementarMovesTotals(s: CarritoState, t: CarritoTable, item: ItemCarrito)
    requires s.userId > 0 && item in t.rows && item.userId == s.userId && item.cantidad > 1
    ensures CantidadItems(s, DecrementarCantidad(t, item)) == CantidadItems(s, t) - 1
    ensures Subtotal(s, DecrementarCantidad(t, item)) == Subtotal(s, t) - item.productoPrecio
  {
    var r := DecrementarCantidad(t, item);
    var v := item.(cantidad := item.cantidad - 1);
    var i := PointwiseIsUpdate(t, r, item, v);
    ItemsIsFilter(s, t);
    ItemsIsFilter(s, r);
    RewriteSums(t.rows, i, v, s.userId);
    ImporteStep(item, item.cantidad - 1, s.userId);
  }

  /** Removing a line of the signed-in user takes its units and its amount out of the totals. */
  lemma EliminarMovesTotals(s: CarritoState, t: CarritoTable, item: ItemCarrito)
    requires s.userId > 0 && item in t.rows && item.userId == s.userId
    ensures CantidadItems(s, EliminarItem(t, item)) == CantidadItems(s, t) - item.cantidad
    ensures Subtotal(s, EliminarItem(t, item)) == Subtotal(s, t) - item.cantidad * item.productoPrecio
  {
    var u := s.userId;
    var k := DeUsuario(u);
    var r := EliminarItem(t, item);
    var i := RowIndex(t, item);
    DeleteAt(t, i);
    ItemsIsFilter(s, t);
    ItemsIsFilter(s, r);
    SplitSums(t.rows, i, u);
    FilterAppend(t.rows[..i], t.rows[i + 1..], k);
    SumCantidadAppend(Filter(t.rows[..i], k), Filter(t.rows[i + 1..], k));
    SumImporteAppend(Filter(t.rows[..i], k), Filter(t.rows[i + 1..], k));
  }

  /* ---------------- checkout ---------------- */

  /** A user's checkout empties that user's cart and leaves every other cart exactly as it was. */
  lemma CheckoutClearsOwnCartOnly(s: CarritoState, other: CarritoState, t: CarritoTable)
    requires s.userId > 0
    ensures Items(s, FinalizarCompra(s, t)) == [] && CantidadItems(s, FinalizarCompra(s, t)) == 0
    ensures other.userId != s.userId ==> Items(other, FinalizarCompra(s, t)) == Items(other, t)
  {
    var r := FinalizarCompra(s, t);
    if other.userId != s.userId && other.userId > 0 {
      ItemsIsFilter(other, t);
      ItemsIsFilter(other, r);
      FilterFilter(t.rows, DeOtroUsuario(s.userId), DeUsuario(other.userId));
    }
  }
}

=== FILE: CarritoRepository.dfy ===
/** `CarritoRepository`: the layer the cart view model talks to. Every call forwards to the
    `CarritoDao` query of the same meaning with the same arguments; in particular the nullable
    sums are passed on as they are, `null` included. */
module CarritoRepository {
  import opened Kotlin
  import opened ItemCarritoModel
  import opened CarritoDao

  /** `observeItems`: the user's lines, by ascending id. */
  function ObserveItems(t: CarritoTable, userId: int): (r: seq<ItemCarrito>)
    ensures forall x :: x in r <==> x in t.rows && x.userId == userId
    ensures IdsIncreasing(r)
  {
    ObserveByUser(t, userId)
  }

  /** `observeCount`: `null` exactly when the user has no line. */
  function ObserveCount(t: CarritoTable, userId: int): (r: Option<int>)
    ensures r.None? <==> forall x :: x in t.rows ==> x.userId != userId
    ensures r.Some? ==> r.value == SumCantidad(ObserveItems(t, userId))
  {
    CarritoDao.ObserveCount(t, userId)
  }

  /** `observeSubtotal`: `null` exactly when the user has no line. */
  function ObserveSubtotal(t: CarritoTable, userId: int): (r: Option<int>)
    ensures r.None? <==> forall x :: x in t.rows ==> x.userId != userId
    ensures r.Some? ==> r.value == SumImporte(ObserveItems(t, userId))
  {
    CarritoDao.ObserveSubtotal(t, userId)
  }

  /** `findItem` */
  function FindItem(t: CarritoTable, userId: int, codigo: string): (r: Option<ItemCarrito>)
    ensures r.Some? ==> r.value in t.rows && IsLine(r.value, userId, codigo)
    ensures r.None? <==> forall x :: x in t.rows ==> !IsLine(x, userId, codigo)
  {
    CarritoDao.FindItem(t, userId, codigo)
  }

  /** `upsert` */
  function Upsert(t: CarritoTable, item: ItemCarrito): (r: CarritoTable)
    ensures item.id == 0 ==> r.rows == t.rows + [item.(id := t.lastId + 1)]
    ensures item.id != 0 ==> forall x :: x in r.rows <==> x == item || (x in t.rows && x.id != item.id)
  {
    CarritoDao.Upsert(t, item)
  }

  /** `delete` */
  function Delete(t: CarritoTable, item: ItemCarrito): (r: CarritoTable)
    ensures forall x :: x in r.rows <==> x in t.rows && x.id != item.id
  {
    CarritoDao.Delete(t, item)
  }

  /** `clear`: the user's lines are gone, everyone else's stay. */
  function Clear(t: CarritoTable, userId: int): (r: CarritoTable)
    ensures forall x :: x in r.rows <==> x in t.rows && x.userId != userId
  {
    ClearByUser(t, userId)
  }
}

=== FILE: CarritoViewModel.dfy ===
/** `CarritoViewModel`: the session-scoped cart engine.

    The engine holds only the active user id and the discount percentage; the cart itself lives
    in the cart table. Its three live views (`items`, `cantidadItems`, `resumen`) are modelled as
    functions of (engine state, table): the value each view shows once the table has settled.
    Each cart command is a function from the table before the write to the table after it. */
module CarritoViewModel {
  import opened Kotlin
  import opened ItemCarritoModel
  import opened ProductoModel
  import opened CarritoDao
  import CarritoRepository

  /** The price breakdown shown under the cart. */
  datatype ResumenCarrito = ResumenCarrito(
    subtotal: int := 0,
    descuentoPorcentaje: int := 0,
    descuentoMonto: int := 0,
    baseImponible: int := 0,
    ivaPorcentaje: int := 19,
    ivaMonto: int := 0,
    total: int := 0
  )

  /** The Chilean VAT rate, fixed. */
  const IVA_PORCENTAJE: int := 19

  /** `_userId` (0 is the guest) and `_descPorcentaje`. */
  datatype CarritoState = CarritoState(userId: int, descPorcentaje: int)

  /** Both flows start at 0: the guest with no discount, as `inicializarCarrito(null, 0)` sets. */
  function Inicial(): (s: CarritoState)
    ensures s == InicializarCarrito(None, 0)
  {
    CarritoState(0, 0)
  }

  /** `inicializarCarrito`: a missing or negative user id becomes the guest, the discount is
      clamped to 0..100. */
  function InicializarCarrito(userId: Option<int>, descuentoPorcentaje: int): (s: CarritoState)
    ensures s.userId >= 0
    ensures userId.Some? && userId.value > 0 ==> s.userId == userId.value
    ensures userId.None? || userId.value <= 0 ==> s.userId == 0
    ensures 0 <= s.descPorcentaje <= 100
    ensures 0 <= descuentoPorcentaje <= 100 ==> s.descPorcentaje == descuentoPorcentaje
    ensures descuentoPorcentaje < 0 ==> s.descPorcentaje == 0
    ensures descuentoPorcentaje > 100 ==> s.descPorcentaje == 100
  {
    CarritoState(CoerceAtLeast(userId.OrElse(0), 0), CoerceIn(descuentoPorcentaje, 0, 100))
  }

  /* ---------------- pricing ---------------- */

  /** `d` is `y / 100` rounded to the nearest integer, halves rounded up. */
  predicate RoundsTo(y: int, d: int) {
    100 * d - 50 <= y < 100 * d + 50
  }

  /** `Math.round(y / 100.0)` in exact integer arithmetic. */
  function RoundHundredth(y: int): (d: int)
    ensures RoundsTo(y, d)
    ensures d >= 0 <==> y >= -50
  {
    (y + 50) / 100
  }

  /** `(x * (pct / 100.0)).roundToInt()`: `pct` per cent of `x`, rounded. */
  function RoundPercent(x: int, pct: int): (d: int)
    ensures RoundsTo(x * pct, d)
  {
    RoundHundredth(x * pct)
  }

  /** There is only one nearest integer. */
  lemma RoundsToUnique(y: int, d1: int, d2: int)
    requires RoundsTo(y, d1) && RoundsTo(y, d2)
    ensures d1 == d2
  {
  }

  /** A percentage of at most 100 of a non-negative amount does not exceed the amount. */
  lemma PercentAtMost(x: int, pct: int)
    ensures x >= 0 && 0 <= pct <= 100 ==> 0 <= RoundPercent(x, pct) <= x
  {
    if x >= 0 && 0 <= pct <= 100 {
      assert 0 <= x * pct <= x * 100;
    }
  }

  /** `calcularResumen`: discount rounded and floored at 0, taxable base floored at 0, 19 % VAT
      rounded on the base, total = base + VAT. */
  function CalcularResumen(subtotal: int, descuentoPorcentaje: int): (r: ResumenCarrito)
    ensures r.subtotal == subtotal && r.descuentoPorcentaje == descuentoPorcentaje
    ensures r.ivaPorcentaje == IVA_PORCENTAJE
    ensures r.descuentoMonto >= 0 && r.baseImponible >= 0 && r.ivaMonto >= 0
    ensures subtotal * descuentoPorcentaje >= -50 ==> RoundsTo(subtotal * descuentoPorcentaje, r.descuentoMonto)
    ensures subtotal * descuentoPorcentaje < -50 ==> r.descuentoMonto == 0
    ensures r.baseImponible == CoerceAtLeast(subtotal - r.descuentoMonto, 0)
    ensures RoundsTo(r.baseImponible * IVA_PORCENTAJE, r.ivaMonto)
    ensures r.total == r.baseImponible + r.ivaMonto
    ensures subtotal >= 0 && 0 <= descuentoPorcentaje <= 100 ==>
      r.descuentoMonto <= subtotal && r.baseImponible == subtotal - r.descuentoMonto
  {
    PercentAtMost(subtotal, descuentoPorcentaje);
    var descMonto := CoerceAtLeast(RoundPercent(subtotal, descuentoPorcentaje), 0);
    var base := CoerceAtLeast(subtotal - descMonto, 0);
    var ivaMonto := RoundPercent(base, IVA_PORCENTAJE);
    assert ivaMonto >= 0;
    ResumenCarrito(subtotal, descuentoPorcentaje, descMonto, base, IVA_PORCENTAJE,
                   CoerceAtLeast(ivaMonto, 0), base + CoerceAtLeast(ivaMonto, 0))
  }

  /** A 100000 subtotal at the 20 % student discount: 20000 off, 80000 taxable, 15200 VAT,
      95200 to pay. */
  lemma CalcularResumenExample()
    ensures CalcularResumen(100000, 20) ==
      ResumenCarrito(100000, 20, 20000, 80000, 19, 15200, 95200)
  {
  }

  /* ---------------- live views ---------------- */

  /** `items`: the guest sees an empty list without any query; a user sees their lines. */
  function Items(s: CarritoState, t: CarritoTable): (r: seq<ItemCarrito>)
    ensures s.userId <= 0 ==> r == []
    ensures s.userId > 0 ==> forall x :: x in r <==> x in t.rows && x.userId == s.userId
    ensures IdsIncreasing(r)
  {
    if s.userId <= 0 then [] else CarritoRepository.ObserveItems(t, s.userId)
  }

  /** `cantidadItems`: the number of units in the visible cart (a `null` sum shows as 0). */
  function CantidadItems(s: CarritoState, t: CarritoTable): (r: int)
    ensures r == SumCantidad(Items(s, t))
  {
    if s.userId <= 0 then 0 else CarritoRepository.ObserveCount(t, s.userId).OrElse(0)
  }

  /** The subtotal fed into the breakdown (a `null` sum counts as 0). */
  function Subtotal(s: CarritoState, t: CarritoTable): (r: int)
    ensures r == SumImporte(Items(s, t))
  {
    if s.userId <= 0 then 0 else CarritoRepository.ObserveSubtotal(t, s.userId).OrElse(0)
  }

  /** `resumen`: the breakdown of the visible cart at the configured discount. */
  function Resumen(s: CarritoState, t: CarritoTable): (r: ResumenCarrito)
    ensures r.subtotal == SumImporte(Items(s, t))
    ensures r.descuentoPorcentaje == s.descPorcentaje
    ensures r == CalcularResumen(SumImporte(Items(s, t)), s.descPorcentaje)
  {
    CalcularResumen(Subtotal(s, t), s.descPorcentaje)
  }

  /* ---------------- commands ---------------- */

  /** The line written for a product that is not in the cart yet. */
  function NuevaLinea(userId: int, p: Producto, cantidad: int): ItemCarrito {
    ItemCarrito(userId := userId, productoCodigo := p.codigo, productoNombre := p.nombre,
                productoPrecio := p.precio, cantidad := CoerceAtLeast(cantidad, 1))
  }

  /** The first line of `userId` for `codigo`, as `findItem` returns it. */
  function LineaDe(t: CarritoTable, userId: int, codigo: string): Option<nat> {
    FindIndex(t.rows, userId, codigo)
  }

  /** The existing line at `i` written back with `cantidad` more units, floored at 1. */
  function Fusionar(t: CarritoTable, i: nat, cantidad: int): (r: CarritoTable)
    requires i < |t.rows|
    ensures r.lastId == t.lastId
    ensures r.rows == t.rows[i := t.rows[i].(cantidad := CoerceAtLeast(t.rows[i].cantidad + cantidad, 1))]
  {
    var existente := t.rows[i];
    var nuevo := existente.(cantidad := CoerceAtLeast(existente.cantidad + cantidad, 1));
    PlaceReplaces(t.rows, nuevo, i);
    CarritoRepository.Upsert(t, nuevo)
  }

  /** `agregarProducto` as written: returns early only for a negative user id. Without a line
      for (user, product) it appends one under a fresh id with the product's current name and
      price; otherwise it rewrites the line `findItem` returns with the summed quantity. */
  function AgregarProducto(s: CarritoState, t: CarritoTable, p: Producto, cantidad: int): (r: CarritoTable)
    ensures s.userId < 0 ==> r == t
    ensures s.userId >= 0 && LineaDe(t, s.userId, p.codigo).None? ==>
      && r.lastId == t.lastId + 1
      && r.rows == t.rows + [NuevaLinea(s.userId, p, cantidad).(id := r.lastId)]
    ensures s.userId >= 0 && LineaDe(t, s.userId, p.codigo).Some? ==>
      var i := LineaDe(t, s.userId, p.codigo).value;
      && r.lastId == t.lastId
      && r.rows == t.rows[i := t.rows[i].(cantidad := CoerceAtLeast(t.rows[i].cantidad + cantidad, 1))]
  {
    var uid := s.userId;
    if uid < 0 then t
    else
      match LineaDe(t, uid, p.codigo)
      case None => CarritoRepository.Upsert(t, NuevaLinea(uid, p, cantidad))
      case Some(i) => Fusionar(t, i, cantidad)
  }

  /** `agregarProducto` with the guard the rest of the engine uses (`uid <= 0`): a guest's
      add writes nothing, a user's add behaves as written. */
  function AgregarProductoCorregido(s: CarritoState, t: CarritoTable, p: Producto, cantidad: int): (r: CarritoTable)
    ensures s.userId <= 0 ==> r == t
    ensures s.userId > 0 && LineaDe(t, s.userId, p.codigo).None? ==>
      && r.lastId == t.lastId + 1
      && r.rows == t.rows + [NuevaLinea(s.userId, p, cantidad).(id := r.lastId)]
    ensures s.userId > 0 && LineaDe(t, s.userId, p.codigo).Some? ==>
      var i := LineaDe(t, s.userId, p.codigo).value;
      && r.lastId == t.lastId
      && r.rows == t.rows[i := t.rows[i].(cantidad := CoerceAtLeast(t.rows[i].cantidad + cantidad, 1))]
  {
    if s.userId <= 0 then t else AgregarProducto(s, t, p, cantidad)
  }

  /** Position of `item` in the table, when it is there. */
  lemma RowIndex(t: CarritoTable, item: ItemCarrito) returns (i: nat)
    requires item in t.rows
    ensures i < |t.rows| && t.rows[i] == item
    ensures forall k :: 0 <= k < |t.rows| && k != i ==> t.rows[k].id != item.id
  {
    i :| 0 <= i < |t.rows| && t.rows[i] == item;
  }

  /** Writing back a line of the table with a new quantity changes that line and nothing else. */
  lemma RewriteLine(t: CarritoTable, item: ItemCarrito, q: int)
    requires item in t.rows
    ensures var r := CarritoDao.Upsert(t, item.(cantidad := q));
      && |r.rows| == |t.rows| && r.lastId == t.lastId
      && forall k :: 0 <= k < |t.rows| ==>
           r.rows[k] == if t.rows[k] == item then item.(cantidad := q) else t.rows[k]
  {
    var i := RowIndex(t, item);
    PlaceReplaces(t.rows, item.(cantidad := q), i);
  }

  /** `incrementarCantidad`: writes the line back with one more unit. For a line of the table
      that line alone changes; a line deleted meanwhile is written again. A line
      with id 0 (no screen hands one over) would be appended under a fresh id. */
  function IncrementarCantidad(t: CarritoTable, item: ItemCarrito): (r: CarritoTable)
    ensures item in t.rows ==>
      && |r.rows| == |t.rows| && r.lastId == t.lastId
      && forall k :: 0 <= k < |t.rows| ==>
           r.rows[k] == if t.rows[k] == item then item.(cantidad := item.cantidad + 1) else t.rows[k]
    ensures item.id != 0 ==> item.(cantidad := item.cantidad + 1) in r.rows
    ensures item.id != 0 ==> forall x :: x in r.rows <==>
      x == item.(cantidad := item.cantidad + 1) || (x in t.rows && x.id != item.id)
    ensures item.id == 0 ==> r.rows == t.rows + [item.(cantidad := item.cantidad + 1, id := t.lastId + 1)]
  {
    if item in t.rows then
      RewriteLine(t, item, item.cantidad + 1);
      CarritoRepository.Upsert(t, item.(cantidad := item.cantidad + 1))
    else
      CarritoRepository.Upsert(t, item.(cantidad := item.cantidad + 1))
  }

  /** `decrementarCantidad`: nothing at one unit or fewer; otherwise writes the line back with
      one unit less, changing that line alone; a line deleted meanwhile is written
      again, and a line with id 0 would be appended under a fresh id. */
  function DecrementarCantidad(t: CarritoTable, item: ItemCarrito): (r: CarritoTable)
    ensures item.cantidad <= 1 ==> r == t
    ensures item.cantidad > 1 && item in t.rows ==>
      && |r.rows| == |t.rows| && r.lastId == t.lastId
      && forall k :: 0 <= k < |t.rows| ==>
           r.rows[k] == if t.rows[k] == item then item.(cantidad := item.cantidad - 1) else t.rows[k]
    ensures item.cantidad > 1 && item.id != 0 ==> forall x :: x in r.rows <==>
      x == item.(cantidad := item.cantidad - 1) || (x in t.rows && x.id != item.id)
    ensures item.cantidad > 1 && item.id == 0 ==>
      r.rows == t.rows + [item.(cantidad := item.cantidad - 1, id := t.lastId + 1)]
  {
    if item.cantidad <= 1 then t
    else if item in t.rows then
      RewriteLine(t, item, item.cantidad - 1);
      CarritoRepository.Upsert(t, item.(cantidad := item.cantidad - 1))
    else
      CarritoRepository.Upsert(t, item.(cantidad := item.cantidad - 1))
  }

  /** `eliminarItem`: deletes the line with the item's id. */
  function EliminarItem(t: CarritoTable, item: ItemCarrito): (r: CarritoTable)
    ensures forall x :: x in r.rows <==> x in t.rows && x.id != item.id
  {
    CarritoRepository.Delete(t, item)
  }

  /** `finalizarCompra`: the guest's checkout writes nothing; a user's checkout deletes that
      user's lines. The completion callback runs afterwards in both cases and sees this table. */
  function FinalizarCompra(s: CarritoState, t: CarritoTable): (r: CarritoTable)
    ensures s.userId <= 0 ==> r == t
    ensures s.userId > 0 ==> forall x :: x in r.rows <==> x in t.rows && x.userId != s.userId
  {
    if s.userId <= 0 then t else CarritoRepository.Clear(t, s.userId)
  }
}

=== FILE: HomeVendedorScreen.dfy ===
/** The pure fragments of the seller home screen: the `visibles` list the screen derives from
    the view model's products, the `isFiltered` flag of its empty state, and the number fields of
    the create/edit dialog, which read back `toIntOrNull() ?: 0`. */
module HomeVendedorScreen {
  import opened Kotlin
  import opened Seqs
  import opened ProductoModel
  import ProductoDao
  import VendedorProductosViewModel

  type ProductoTable = VendedorProductosViewModel.ProductoTable

  /* ---------------- the visible list ---------------- */

  /** The first filter: only active products when `soloActivos` is on. */
  function ActivoSi(soloActivos: bool): Producto -> bool {
    (p: Producto) => if soloActivos then p.activo else true
  }

  /** The query as the text filter uses it: trimmed, then lower-cased. */
  function Consulta(query: string): string {
    Lowercase(Trim(query))
  }

  /** The second filter, for a query already normalised: a blank query keeps everything,
      any other keeps a product whose lower-cased name, code or category name contains it. */
  function CoincideCon(q: string): Producto -> bool {
    (p: Producto) =>
      IsBlank(q)
      || Contains(Lowercase(p.nombre), q) || Contains(Lowercase(p.codigo), q)
      || Contains(Lowercase(p.categoriaNombre), q)
  }

  /** What a product must satisfy to be shown. */
  predicate Visible(p: Producto, query: string, soloActivos: bool) {
    && (soloActivos ==> p.activo)
    && (IsBlank(Consulta(query))
        || Contains(Lowercase(p.nombre), Consulta(query))
        || Contains(Lowercase(p.codigo), Consulta(query))
        || Contains(Lowercase(p.categoriaNombre), Consulta(query)))
  }

  /** `visibles`: the two filters applied one after the other. */
  function Visibles(productos: seq<Producto>, query: string, soloActivos: bool): (r: seq<Producto>)
    ensures forall p :: p in r <==> p in productos && Visible(p, query, soloActivos)
    ensures soloActivos ==> forall i :: 0 <= i < |r| ==> r[i].activo
  {
    Filter(Filter(productos, ActivoSi(soloActivos)), CoincideCon(Consulta(query)))
  }

  /** `isFiltered`: the query is not blank or only active products are shown. */
  function IsFiltered(query: string, soloActivos: bool): (f: bool)
    ensures f <==> soloActivos || Trim(query) != []
  {
    BlankIffTrimEmpty(query);
    !IsBlank(query) || soloActivos
  }

  /** The two filters in a row are one filter by `Visible`. */
  lemma VisiblesIsOneFilter(productos: seq<Producto>, query: string, soloActivos: bool)
    ensures Visibles(productos, query, soloActivos) == Filter(productos, p => Visible(p, query, soloActivos))
  {
    FilterAnd(productos, ActivoSi(soloActivos), CoincideCon(Consulta(query)), p => Visible(p, query, soloActivos));
  }

  /** The visible list is the product list with some entries left out and the rest in order. */
  lemma VisiblesKeepOrder(productos: seq<Producto>, query: string, soloActivos: bool)
    ensures IsSubsequence(Visibles(productos, query, soloActivos), productos)
  {
    VisiblesIsOneFilter(productos, query, soloActivos);
    FilterSubsequence(productos, p => Visible(p, query, soloActivos));
  }

  /** A query that is blank, before or after trimming, applies no text filter. */
  lemma BlankQueryFiltersNoText(productos: seq<Producto>, query: string, soloActivos: bool)
    requires IsBlank(query)
    ensures Visibles(productos, query, soloActivos) == Filter(productos, ActivoSi(soloActivos))
  {
    ConsultaBlank(query);
    var activos := Filter(productos, ActivoSi(soloActivos));
    FilterAll(activos, CoincideCon(Consulta(query)));
  }

  /** The normalised query is blank exactly when the typed one is. */
  lemma ConsultaBlank(query: string)
    ensures IsBlank(Consulta(query)) <==> IsBlank(query)
  {
    BlankLowercase(Trim(query));
    BlankIffTrimEmpty(query);
    BlankIffTrimEmpty(Trim(query));
    TrimIdempotent(query);
  }

  /** Without a filter the screen lists every product of the view model. */
  lemma UnfilteredShowsAll(productos: seq<Producto>, query: string, soloActivos: bool)
    requires !IsFiltered(query, soloActivos)
    ensures Visibles(productos, query, soloActivos) == productos
  {
    BlankQueryFiltersNoText(productos, query, soloActivos);
    FilterAll(productos, ActivoSi(soloActivos));
  }

  /** The empty state tells "no results" from "no products yet" by `isFiltered`: when nothing
      is visible and nothing is filtered, the seller really has no products. */
  lemma EmptyUnfilteredMeansNoProducts(productos: seq<Producto>, query: string, soloActivos: bool)
    requires Visibles(productos, query, soloActivos) == [] && !IsFiltered(query, soloActivos)
    ensures productos == []
  {
    UnfilteredShowsAll(productos, query, soloActivos);
  }

  /** The search ignores surrounding whitespace and the case of the query. */
  lemma QueryNormalisationIrrelevant(productos: seq<Producto>, query: string, soloActivos: bool)
    ensures Visibles(productos, Trim(query), soloActivos) == Visibles(productos, query, soloActivos)
    ensures Visibles(productos, Lowercase(query), soloActivos) == Visibles(productos, query, soloActivos)
  {
    TrimIdempotent(query);
    TrimLowercase(query);
    LowercaseIdempotent(Trim(query));
    assert Consulta(Trim(query)) == Consulta(query);
    assert Consulta(Lowercase(query)) == Consulta(query);
  }

  /* ---------------- the dialog's number fields ---------------- */

  /** `text.toIntOrNull() ?: 0`: the typed number, or 0 for text that is not an `Int`. */
  function ParseOrZero(text: string): (n: int)
    ensures IsInt32(n)
    ensures ToIntOrNull(text).Some? ==> n == ToIntOrNull(text).value
    ensures ToIntOrNull(text).None? ==> n == 0
  {
    ToIntOrNull(text).OrElse(0)
  }

  /** The dialog opens with `toString()` of the stored number; confirming it unchanged saves
      the same number back. */
  lemma NumberFieldRoundTrip(n: int)
    requires IsInt32(n)
    ensures ParseOrZero(IntToString(n)) == n
  {
    IntToStringRoundTrip(n);
  }

  /** Confirming the dialog: the texts of the six fields go to `guardar`, the two number fields
      through `ParseOrZero`. A completed save stores, under the edited code, the trimmed texts and
      the parsed numbers; otherwise the table is untouched. */
  function GuardarDialogo(ui: VendedorProductosViewModel.VendorProdUI, t: ProductoTable,
                          nombre: string, descripcion: string, precio: string, categoriaId: string,
                          categoriaNombre: string, activo: bool,
                          w: VendedorProductosViewModel.Escritura): (r: VendedorProductosViewModel.Paso)
    ensures ui.editando.Some? && w.Completa? ==>
      var saved := ProductoDao.ObtenerProductoPorCodigo(r.tabla, ui.editando.value.codigo);
      && saved.Some?
      && saved.value.precio == ParseOrZero(precio) && saved.value.categoriaId == ParseOrZero(categoriaId)
      && saved.value.nombre == Trim(nombre) && saved.value.categoriaNombre == Trim(categoriaNombre)
      && saved.value.vendedorId == ui.vendedorId && saved.value.activo == activo
    ensures ui.editando.None? || w.Falla? ==> r.tabla == t
  {
    VendedorProductosViewModel.Guardar(ui, t, nombre, descripcion, ParseOrZero(precio),
      ParseOrZero(categoriaId), categoriaNombre, activo, w)
  }

  /** Text that is not an `Int` in the price field is saved as price 0. */
  lemma UnparseablePriceSavesZero(ui: VendedorProductosViewModel.VendorProdUI, t: ProductoTable,
                                  nombre: string, descripcion: string, precio: string, categoriaId: string,
                                  categoriaNombre: string, activo: bool)
    requires ui.editando.Some? && ToIntOrNull(precio).None?
    ensures var r := GuardarDialogo(ui, t, nombre, descripcion, precio, categoriaId, categoriaNombre, activo,
                                    VendedorProductosViewModel.Completa);
      ProductoDao.ObtenerProductoPorCodigo(r.tabla, ui.editando.value.codigo).value.precio == 0
  {
  }

  /** Opening the dialog on a product and confirming it unedited stores the product's own price
      and category id again. */
  lemma UneditedDialogKeepsNumbers(ui: VendedorProductosViewModel.VendorProdUI, t: ProductoTable, activo: bool)
    requires ui.editando.Some?
    requires IsInt32(ui.editando.value.precio) && IsInt32(ui.editando.value.categoriaId)
    ensures var ed := ui.editando.value;
      var r := GuardarDialogo(ui, t, ed.nombre, ed.descripcion, IntToString(ed.precio),
                              IntToString(ed.categoriaId), ed.categoriaNombre, activo,
                              VendedorProductosViewModel.Completa);
      var saved := ProductoDao.ObtenerProductoPorCodigo(r.tabla, ed.codigo).value;
      saved.precio == ed.precio && saved.categoriaId == ed.categoriaId
  {
    NumberFieldRoundTrip(ui.editando.value.precio);
    NumberFieldRoundTrip(ui.editando.value.categoriaId);
  }
}

=== FILE: ItemCarritoModel.dfy ===
/** The cart row `ItemCarrito` (table `carrito`). The creation timestamp `createdAt`, filled from
    the system clock, is not part of this model. */
module ItemCarritoModel {

  /** One cart line. `id` is the auto-generated primary key, where 0 means "not assigned yet";
      `userId` 0 is the guest. Name and price are copies taken when the line is created, not
      references to the catalogue. The table's indexes on `userId` and `productoCodigo` are not
      unique, so storage alone allows two lines for the same user and product. */
  datatype ItemCarrito = ItemCarrito(
    id: int := 0,
    userId: int := 0,
    productoCodigo: string,
    productoNombre: string,
    productoPrecio: int,
    cantidad: int := 1
  )

  /** A line built with only the product fields is unassigned, belongs to the guest and holds one unit. */
  lemma Defaults(codigo: string, nombre: string, precio: int)
    ensures var it := ItemCarrito(productoCodigo := codigo, productoNombre := nombre, productoPrecio := precio);
      it.id == 0 && it.userId == 0 && it.cantidad == 1
  {
  }
}

=== FILE: Kotlin.dfy ===
/** The pieces of the Kotlin standard library the app's logic relies on:
    nullable values, `coerceAtLeast`/`coerceIn`, 32-bit `Int` bounds,
    `Char.isWhitespace`, `String.trim`, `isBlank`, `lowercase`, `contains`,
    `toIntOrNull` and `Int.toString`. */
module Kotlin {

  /** Kotlin's nullable `T?`. */
  datatype Option<T> = None | Some(value: T) {
    /** The elvis operator `x ?: d`. */
    function OrElse(d: T): T {
      if Some? then value else d
    }
  }

  /** A call that either returns a value or throws with a message. */
  datatype Outcome<T> = Returned(value: T) | Thrown(message: string)

  const INT_MIN: int := -0x8000_0000
  const INT_MAX: int := 0x7fff_ffff

  /** The range of Kotlin's `Int`. */
  predicate IsInt32(n: int) {
    INT_MIN <= n <= INT_MAX
  }

  /** `x.coerceAtLeast(minimum)` */
  function CoerceAtLeast(x: int, minimum: int): (r: int)
    ensures r >= minimum
    ensures r == x || r == minimum
    ensures x >= minimum ==> r == x
  {
    if x < minimum then minimum else x
  }

  /** `x.coerceIn(lo, hi)`; Kotlin throws when `lo > hi`. */
  function CoerceIn(x: int, lo: int, hi: int): (r: int)
    requires lo <= hi
    ensures lo <= r <= hi
    ensures lo <= x <= hi ==> r == x
    ensures x < lo ==> r == lo
    ensures x > hi ==> r == hi
  {
    if x < lo then lo else if x > hi then hi else x
  }

  /* ---------------- characters and strings ---------------- */

  /** `Char.isWhitespace()` on the JVM: `Character.isWhitespace(c) || Character.isSpaceChar(c)`,
      i.e. the controls 9..13 and 28..31 plus every Unicode space, line or paragraph separator. */
  predicate IsWhitespace(c: char) {
    || '\t' <= c <= '\r'
    || '\U{1C}' <= c <= ' '
    || c == '\U{A0}' || c == '\U{1680}'
    || '\U{2000}' <= c <= '\U{200A}'
    || c == '\U{2028}' || c == '\U{2029}' || c == '\U{202F}' || c == '\U{205F}' || c == '\U{3000}'
  }

  /** `isBlank()`: empty or whitespace only. */
  predicate IsBlank(s: string) {
    forall i :: 0 <= i < |s| ==> IsWhitespace(s[i])
  }

  /** The number of whitespace characters `s` starts with. */
  function LeadingWhitespace(s: string): (k: nat)
    ensures k <= |s|
    ensures forall i :: 0 <= i < k ==> IsWhitespace(s[i])
    ensures k < |s| ==> !IsWhitespace(s[k])
  {
    if |s| > 0 && IsWhitespace(s[0]) then
      var k := LeadingWhitespace(s[1..]);
      assert forall i :: 1 <= i < k + 1 ==> s[i] == s[1..][i - 1];
      assert k < |s| - 1 ==> s[k + 1] == s[1..][k];
      k + 1
    else
      0
  }

  /** The number of whitespace characters `s` ends with. */
  function TrailingWhitespace(s: string): (k: nat)
    ensures k <= |s|
    ensures forall i :: |s| - k <= i < |s| ==> IsWhitespace(s[i])
    ensures k < |s| ==> !IsWhitespace(s[|s| - k - 1])
  {
    if |s| > 0 && IsWhitespace(s[|s| - 1]) then
      var k := TrailingWhitespace(s[..|s| - 1]);
      assert forall i :: |s| - 1 - k <= i < |s| - 1 ==> s[i] == s[..|s| - 1][i];
      assert k < |s| - 1 ==> s[|s| - k - 2] == s[..|s| - 1][|s| - k - 2];
      k + 1
    else
      0
  }

  /** Drops leading whitespace: the result is a suffix of `s` and everything cut off is whitespace. */
  function TrimStart(s: string): (r: string)
    ensures |r| <= |s| && r == s[|s| - |r|..]
    ensures IsBlank(s[..|s| - |r|])
    ensures r == [] || !IsWhitespace(r[0])
  {
    var k := LeadingWhitespace(s);
    assert forall i :: 0 <= i < k ==> s[..k][i] == s[i];
    s[k..]
  }

  /** Drops trailing whitespace: the result is a prefix of `s` and everything cut off is whitespace. */
  function TrimEnd(s: string): (r: string)
    ensures |r| <= |s| && r == s[..|r|]
    ensures IsBlank(s[|r|..])
    ensures r == [] || !IsWhitespace(r[|r| - 1])
  {
    var k := TrailingWhitespace(s);
    assert forall i :: |s| - k <= i < |s| ==> s[|s| - k..][i - (|s| - k)] == s[i];
    s[..|s| - k]
  }

  /** `trim()`: removes whitespace at both ends. The result is a slice of `s` with only
      whitespace before and after it, and it neither starts nor ends with whitespace. */
  function Trim(s: string): (r: string)
    ensures |r| <= |s|
    ensures r == [] || (!IsWhitespace(r[0]) && !IsWhitespace(r[|r| - 1]))
    ensures exists i :: 0 <= i <= |s| - |r| && r == s[i..i + |r|] && IsBlank(s[..i]) && IsBlank(s[i + |r|..])
  {
    var a := TrimStart(s);
    var r := TrimEnd(a);
    var i := |s| - |a|;
    assert s[i..i + |r|] == a[..|r|];
    assert s[i + |r|..] == a[|r|..];
    r
  }

  /** A string is blank exactly when trimming empties it. */
  lemma BlankIffTrimEmpty(s: string)
    ensures IsBlank(s) <==> Trim(s) == []
  {
    var t := TrimStart(s);
    if Trim(s) == [] {
      assert |t| == 0;
      assert s[..|s|] == s;
    } else {
      var r := Trim(s);
      assert !IsWhitespace(r[0]);
      assert r == t[..|r|];
      assert t == s[|s| - |t|..];
      assert s[|s| - |t|] == r[0];
    }
  }

  /** Trimming twice trims nothing more. */
  lemma TrimIdempotent(s: string)
    ensures Trim(Trim(s)) == Trim(s)
  {
    var r := Trim(s);
    if r != [] {
      assert TrimStart(r) == r;
      assert TrimEnd(r) == r;
    }
  }

  /** ASCII-only lower-casing of one character. */
  function LowerChar(c: char): char {
    if 'A' <= c <= 'Z' then (c as int + 32) as char else c
  }

  predicate IsAsciiUpper(c: char) {
    'A' <= c <= 'Z'
  }

  /** `lowercase()` restricted to ASCII letters: same length, no ASCII capital left, every
      other character kept. */
  function Lowercase(s: string): (r: string)
    ensures |r| == |s|
    ensures forall i :: 0 <= i < |r| ==> !IsAsciiUpper(r[i])
    ensures forall i :: 0 <= i < |s| && !IsAsciiUpper(s[i]) ==> r[i] == s[i]
  {
    seq(|s|, i requires 0 <= i < |s| => LowerChar(s[i]))
  }

  lemma LowercaseIdempotent(s: string)
    ensures Lowercase(Lowercase(s)) == Lowercase(s)
  {
  }

  /** Lower-casing neither creates nor removes whitespace. */
  lemma LowerCharWhitespace(c: char)
    ensures IsWhitespace(LowerChar(c)) <==> IsWhitespace(c)
  {
  }

  lemma BlankLowercase(s: string)
    ensures IsBlank(Lowercase(s)) <==> IsBlank(s)
  {
    forall i | 0 <= i < |s| ensures IsWhitespace(Lowercase(s)[i]) <==> IsWhitespace(s[i]) {
      LowerCharWhitespace(s[i]);
    }
  }

  lemma {:induction false} LeadingWhitespaceLowercase(s: string)
    ensures LeadingWhitespace(Lowercase(s)) == LeadingWhitespace(s)
  {
    if |s| > 0 {
      LowerCharWhitespace(s[0]);
      assert Lowercase(s)[1..] == Lowercase(s[1..]);
      LeadingWhitespaceLowercase(s[1..]);
    }
  }

  lemma {:induction false} TrailingWhitespaceLowercase(s: string)
    ensures TrailingWhitespace(Lowercase(s)) == TrailingWhitespace(s)
  {
    if |s| > 0 {
      LowerCharWhitespace(s[|s| - 1]);
      assert Lowercase(s)[..|s| - 1] == Lowercase(s[..|s| - 1]);
      TrailingWhitespaceLowercase(s[..|s| - 1]);
    }
  }

  lemma TrimStartLowercase(s: string)
    ensures TrimStart(Lowercase(s)) == Lowercase(TrimStart(s))
  {
    LeadingWhitespaceLowercase(s);
    var k := LeadingWhitespace(s);
    assert Lowercase(s)[k..] == Lowercase(s[k..]);
  }

  lemma TrimEndLowercase(s: string)
    ensures TrimEnd(Lowercase(s)) == Lowercase(TrimEnd(s))
  {
    TrailingWhitespaceLowercase(s);
    var k := TrailingWhitespace(s);
    assert Lowercase(s)[..|s| - k] == Lowercase(s[..|s| - k]);
  }

  /** Trimming and lower-casing can be done in either order. */
  lemma TrimLowercase(s: string)
    ensures Trim(Lowercase(s)) == Lowercase(Trim(s))
  {
    TrimStartLowercase(s);
    TrimEndLowercase(TrimStart(s));
  }

  /** `s.startsWith(q)` */
  predicate StartsWith(s: string, q: string) {
    |q| <= |s| && s[..|q|] == q
  }

  /** `s.contains(q)`, scanning the start positions left to right. */
  predicate Contains(s: string, q: string) {
    StartsWith(s, q) || (|s| > 0 && Contains(s[1..], q))
  }

  /** `q` occurs in `s` starting at position `i`. */
  predicate OccursAt(s: string, q: string, i: int) {
    0 <= i <= |s| - |q| && s[i..i + |q|] == q
  }

  /** `Contains` holds exactly when `q` occurs at some position of `s`. */
  lemma {:induction false} ContainsIff(s: string, q: string)
    ensures Contains(s, q) <==> exists i :: OccursAt(s, q, i)
  {
    if StartsWith(s, q) {
      assert OccursAt(s, q, 0);
    } else if |s| > 0 {
      ContainsIff(s[1..], q);
      if Contains(s[1..], q) {
        var i :| OccursAt(s[1..], q, i);
        assert s[1..][i..i + |q|] == s[i + 1..i + 1 + |q|];
        assert OccursAt(s, q, i + 1);
      } else {
        forall i | 0 < i <= |s| - |q|
          ensures !OccursAt(s, q, i)
        {
          assert s[1..][i - 1..i - 1 + |q|] == s[i..i + |q|];
          assert !OccursAt(s[1..], q, i - 1);
        }
      }
    } else {
      assert forall i :: !OccursAt(s, q, i);
    }
  }

  /** Every string contains the empty string. */
  lemma ContainsEmpty(s: string)
    ensures Contains(s, "")
  {
    assert StartsWith(s, "");
  }

  /* ---------------- numbers and their decimal text ---------------- */

  /** The first code point of each block of ten Unicode decimal digits (general category Nd)
      that a single UTF-16 `Char` can hold, in Unicode 15: ASCII, Arabic-Indic, Devanagari and
      the other Indic scripts, Thai, Lao, Tibetan, Myanmar, Khmer, Mongolian, ..., fullwidth. */
  function DigitZero(c: char): (z: int)
    ensures z == -1 || (z <= c as int < z + 10)
    ensures '0' <= c <= '9' ==> z == '0' as int
  {
    var u := c as int;
    if 0x30 <= u < 0x3A then 0x30
    else if 0x660 <= u < 0x66A then 0x660
    else if 0x6F0 <= u < 0x6FA then 0x6F0
    else if 0x7C0 <= u < 0x7CA then 0x7C0
    else if 0x966 <= u < 0x970 then 0x966
    else if 0x9E6 <= u < 0x9F0 then 0x9E6
    else if 0xA66 <= u < 0xA70 then 0xA66
    else if 0xAE6 <= u < 0xAF0 then 0xAE6
    else if 0xB66 <= u < 0xB70 then 0xB66
    else if 0xBE6 <= u < 0xBF0 then 0xBE6
    else if 0xC66 <= u < 0xC70 then 0xC66
    else if 0xCE6 <= u < 0xCF0 then 0xCE6
    else if 0xD66 <= u < 0xD70 then 0xD66
    else if 0xDE6 <= u < 0xDF0 then 0xDE6
    else if 0xE50 <= u < 0xE5A then 0xE50
    else if 0xED0 <= u < 0xEDA then 0xED0
    else if 0xF20 <= u < 0xF2A then 0xF20
    else if 0x1040 <= u < 0x104A then 0x1040
    else if 0x1090 <= u < 0x109A then 0x1090
    else if 0x17E0 <= u < 0x17EA then 0x17E0
    else if 0x1810 <= u < 0x181A then 0x1810
    else if 0x1946 <= u < 0x1950 then 0x1946
    else if 0x19D0 <= u < 0x19DA then 0x19D0
    else if 0x1A80 <= u < 0x1A8A then 0x1A80
    else if 0x1A90 <= u < 0x1A9A then 0x1A90
    else if 0x1B50 <= u < 0x1B5A then 0x1B50
    else if 0x1BB0 <= u < 0x1BBA then 0x1BB0
    else if 0x1C40 <= u < 0x1C4A then 0x1C40
    else if 0x1C50 <= u < 0x1C5A then 0x1C50
    else if 0xA620 <= u < 0xA62A then 0xA620
    else if 0xA8D0 <= u < 0xA8DA then 0xA8D0
    else if 0xA900 <= u < 0xA90A then 0xA900
    else if 0xA9D0 <= u < 0xA9DA then 0xA9D0
    else if 0xA9F0 <= u < 0xA9FA then 0xA9F0
    else if 0xAA50 <= u < 0xAA5A then 0xAA50
    else if 0xABF0 <= u < 0xABFA then 0xABF0
    else if 0xFF10 <= u < 0xFF1A then 0xFF10
    else -1
  }

  /** `Character.digit(c, 10)`, which `toIntOrNull` reads each character with: the decimal
      value of a Unicode decimal digit, -1 for any other character. */
  function DigitOf(c: char): (d: int)
    ensures -1 <= d <= 9
    ensures '0' <= c <= '9' ==> d == c as int - '0' as int
    ensures c < '0' ==> d == -1
  {
    var z := DigitZero(c);
    if z < 0 then -1 else c as int - z
  }

  predicate IsDigit(c: char) {
    DigitOf(c) >= 0
  }

  predicate AllDigits(s: string) {
    forall i :: 0 <= i < |s| ==> IsDigit(s[i])
  }

  /** The value of a decimal digit string, most significant digit first. */
  function DigitsValue(s: string): (n: nat)
    requires AllDigits(s)
  {
    if |s| == 0 then 0 else DigitsValue(s[..|s| - 1]) * 10 + DigitOf(s[|s| - 1])
  }

  /** The decimal text of a natural number, no leading zeros. */
  function NatToString(n: nat): (s: string)
    ensures |s| >= 1 && AllDigits(s)
    ensures |s| > 1 ==> s[0] != '0'
    decreases n
  {
    if n < 10 then [('0' as int + n) as char]
    else NatToString(n / 10) + [('0' as int + n % 10) as char]
  }

  /** `Int.toString()` */
  function IntToString(n: int): string {
    if n < 0 then "-" + NatToString(-n) else NatToString(n)
  }

  /** `String.toIntOrNull()` for base 10: a first character below `'0'` must be a `+` or `-`
      followed by more text; every other character must be a decimal digit, and the value must
      lie in the `Int` range; anything else is `null`. */
  function ToIntOrNull(s: string): (r: Option<int>)
    ensures r.Some? ==> IsInt32(r.value)
    ensures |s| == 0 ==> r.None?
    ensures r.Some? ==> forall i :: 0 < i < |s| ==> IsDigit(s[i])
    ensures r.Some? ==> IsDigit(s[0]) || s[0] == '-' || s[0] == '+'
  {
    if |s| == 0 then None
    else
      var signed := s[0] < '0';
      var digits := if signed then s[1..] else s;
      if signed && s[0] != '-' && s[0] != '+' then None
      else if |digits| == 0 || !AllDigits(digits) then None
      else
        var v: int := if s[0] == '-' then 0 - DigitsValue(digits) else DigitsValue(digits);
        if IsInt32(v) then Some(v) else None
  }

  /** Some texts and what they read as: a sign needs digits after it, any other character
      spoils the text, and non-ASCII decimal digits such as the fullwidth ones count. */
  lemma ToIntOrNullExamples()
    ensures ToIntOrNull("+7") == Some(7)
    ensures ToIntOrNull("-12") == Some(-12)
    ensures ToIntOrNull("-") == None && ToIntOrNull("12a") == None && ToIntOrNull(" 1") == None
    ensures ToIntOrNull("\U{FF11}\U{FF12}") == Some(12)
  {
    assert "-12"[1..] == "12";
    assert "-12"[1..][..1] == "1";
    assert "+7"[1..] == "7";
    assert "7"[..0] == "";
    assert "\U{FF11}\U{FF12}"[..1] == "\U{FF11}";
  }

  lemma {:induction false} DigitsOfNatToString(n: nat)
    ensures DigitsValue(NatToString(n)) == n
    decreases n
  {
    var s := NatToString(n);
    if n >= 10 {
      DigitsOfNatToString(n / 10);
      assert s[..|s| - 1] == NatToString(n / 10);
    }
  }

  /** Reading back the text of an `Int` gives the same `Int`. */
  lemma IntToStringRoundTrip(n: int)
    requires IsInt32(n)
    ensures ToIntOrNull(IntToString(n)) == Some(n)
  {
    if n < 0 {
      NegativeRoundTrip(-n);
    } else {
      NonNegativeRoundTrip(n);
    }
  }

  lemma NonNegativeRoundTrip(m: nat)
    requires m <= INT_MAX
    ensures ToIntOrNull(NatToString(m)) == Some(m)
  {
    var s := NatToString(m);
    DigitsOfNatToString(m);
    assert IsDigit(s[0]);
  }

  lemma NegativeRoundTrip(m: nat)
    requires 0 < m <= -INT_MIN
    ensures ToIntOrNull("-" + NatToString(m)) == Some(0 - m)
  {
    var d := NatToString(m);
    var s := "-" + d;
    DigitsOfNatToString(m);
    assert s[0] == '-' && s[1..] == d;
  }
}

=== FILE: LoginScreen.dfy ===
/** The navigation the login screen performs once `hacerLogin` reports a role: a user goes to
    their home by name, a seller to the seller home of the id its demo e-mail maps to, an
    administrator to the supervisor home. Routes are the strings handed to `navigate`; the
    `popUpTo("login")` option only clears the back stack and is not modelled. */
module LoginScreen {
  import opened Kotlin
  import SessionManager

  const DAMIAN_VENDEDOR: string := "damian@vendedor.cl"
  const JEAN_VENDEDOR: string := "jean@vendedor.cl"

  const PREFIJO_USUARIO: string := "homeUsuario/"
  const PREFIJO_VENDEDOR: string := "homeVendedor/"
  const RUTA_SUPERVISOR: string := "homeSupervisor"

  /** The demo mapping of the typed e-mail, trimmed and lower-cased, to a seller id: the Jean
      seller account is 2, the Damian account and every other address fall back to 1. */
  function VendedorIdPara(email: string): (id: int)
    ensures id == 1 || id == 2
    ensures id == 2 <==> Lowercase(Trim(email)) == JEAN_VENDEDOR
    ensures Lowercase(Trim(email)) == DAMIAN_VENDEDOR ==> id == 1
  {
    var normalizado := Lowercase(Trim(email));
    if normalizado == DAMIAN_VENDEDOR then 1
    else if normalizado == JEAN_VENDEDOR then 2
    else 1
  }

  /** Surrounding whitespace and letter case of the typed e-mail do not change the seller id. */
  lemma VendedorIdIgnoresFormatting(email: string)
    ensures VendedorIdPara(Trim(email)) == VendedorIdPara(email)
    ensures VendedorIdPara(Lowercase(email)) == VendedorIdPara(email)
  {
    TrimIdempotent(email);
    TrimLowercase(email);
    LowercaseIdempotent(Trim(email));
  }

  /** The route `navigate` receives for the role `hacerLogin` reports; `email` is the address
      in the login form's state. */
  function Ruta(role: SessionManager.Role, nombreUsuario: string, email: string): (r: string)
    ensures role.User? ==> StartsWith(r, PREFIJO_USUARIO) && r[|PREFIJO_USUARIO|..] == nombreUsuario
    ensures role.Vendedor? ==>
      StartsWith(r, PREFIJO_VENDEDOR) && ToIntOrNull(r[|PREFIJO_VENDEDOR|..]) == Some(VendedorIdPara(email))
    ensures role.Admin? <==> r == RUTA_SUPERVISOR
  {
    match role
    case User =>
      var ruta := PREFIJO_USUARIO + nombreUsuario;
      assert ruta[..|PREFIJO_USUARIO|] == PREFIJO_USUARIO && ruta[|PREFIJO_USUARIO|..] == nombreUsuario;
      assert ruta[4] != RUTA_SUPERVISOR[4];
      ruta
    case Vendedor =>
      var ruta := PREFIJO_VENDEDOR + IntToString(VendedorIdPara(email));
      IntToStringRoundTrip(VendedorIdPara(email));
      assert ruta[..|PREFIJO_VENDEDOR|] == PREFIJO_VENDEDOR && ruta[|PREFIJO_VENDEDOR|..] == IntToString(VendedorIdPara(email));
      assert ruta[4] != RUTA_SUPERVISOR[4];
      ruta
    case Admin => RUTA_SUPERVISOR
  }

  /** The screens a route leads to. The navigation graph that parses routes is not part of this
      model; `LeerRuta` is the model's own reading of the three route shapes, there to state that
      the routes `Ruta` builds do not collide. */
  datatype Destino = HomeUsuario(nombre: string) | HomeVendedor(vendedorId: int) | HomeSupervisor

  /** Reading a route back: the exact supervisor route, a user route with its name argument, or
      a seller route whose argument reads as a number. */
  function LeerRuta(r: string): (d: Option<Destino>)
    ensures d.Some? && d.value.HomeUsuario? ==> r == PREFIJO_USUARIO + d.value.nombre
    ensures d.Some? && d.value.HomeSupervisor? ==> r == RUTA_SUPERVISOR
  {
    if r == RUTA_SUPERVISOR then Some(HomeSupervisor)
    else if StartsWith(r, PREFIJO_USUARIO) then
      assert r == PREFIJO_USUARIO + r[|PREFIJO_USUARIO|..];
      Some(HomeUsuario(r[|PREFIJO_USUARIO|..]))
    else if StartsWith(r, PREFIJO_VENDEDOR) then
      match ToIntOrNull(r[|PREFIJO_VENDEDOR|..])
      case Some(id) => Some(HomeVendedor(id))
      case None => None
    else None
  }

  /** Where a login sends each role. */
  function DestinoDe(role: SessionManager.Role, nombreUsuario: string, email: string): Destino {
    match role
    case User => HomeUsuario(nombreUsuario)
    case Vendedor => HomeVendedor(VendedorIdPara(email))
    case Admin => HomeSupervisor
  }

  /** Every route a login navigates to reads back as the intended screen with its argument. */
  lemma RutaRoundTrip(role: SessionManager.Role, nombreUsuario: string, email: string)
    ensures LeerRuta(Ruta(role, nombreUsuario, email)) == Some(DestinoDe(role, nombreUsuario, email))
  {
    match role
    case User => UserRouteReadsBack(nombreUsuario);
    case Vendedor => SellerRouteReadsBack(VendedorIdPara(email));
    case Admin =>
  }

  lemma UserRouteReadsBack(nombre: string)
    ensures LeerRuta(PREFIJO_USUARIO + nombre) == Some(HomeUsuario(nombre))
  {
    var r := PREFIJO_USUARIO + nombre;
    assert r[..|PREFIJO_USUARIO|] == PREFIJO_USUARIO;
    assert r[|PREFIJO_USUARIO|..] == nombre;
    assert r != RUTA_SUPERVISOR by { assert r[4] != RUTA_SUPERVISOR[4]; }
  }

  lemma SellerRouteReadsBack(id: int)
    requires IsInt32(id)
    ensures LeerRuta(PREFIJO_VENDEDOR + IntToString(id)) == Some(HomeVendedor(id))
  {
    var r := PREFIJO_VENDEDOR + IntToString(id);
    IntToStringRoundTrip(id);
    assert r[..|PREFIJO_VENDEDOR|] == PREFIJO_VENDEDOR;
    assert r[|PREFIJO_VENDEDOR|..] == IntToString(id);
    assert r != RUTA_SUPERVISOR by { assert r[4] != RUTA_SUPERVISOR[4]; }
    assert !StartsWith(r, PREFIJO_USUARIO) by { assert r[4] != PREFIJO_USUARIO[4]; }
  }

  /** A seller always lands on the home of seller 1 or seller 2. */
  lemma VendedorLandsOnKnownSeller(nombreUsuario: string, email: string)
    ensures var d := LeerRuta(Ruta(SessionManager.Vendedor, nombreUsuario, email));
      d == Some(HomeVendedor(1)) || d == Some(HomeVendedor(2))
  {
    RutaRoundTrip(SessionManager.Vendedor, nombreUsuario, email);
  }
}

=== FILE: ProductoDao.dfy ===
/** The product table and the semantics of every `ProductoDao` query.

    The table is kept as its rows in rowid order, the order in which SQLite's full scans return
    them; the primary key `codigo` makes the codes pairwise distinct. A `REPLACE` insert deletes
    the row holding the code and inserts the new row under a new, largest rowid, so the row
    moves to the end; `@Update` rewrites a row where it is. */
module ProductoDao {
  import opened Kotlin
  import opened Seqs
  import opened ProductoModel

  type ProductoTable = ps: seq<Producto> | DistinctCodes(ps) witness []

  /* ---------------- lookup by primary key ---------------- */

  /** Position of the row with code `codigo`. */
  function IndexOf(ps: seq<Producto>, codigo: string): (r: Option<nat>)
    ensures r.Some? ==> r.value < |ps| && ps[r.value].codigo == codigo
    ensures r.Some? ==> forall k :: 0 <= k < r.value ==> ps[k].codigo != codigo
    ensures r.None? <==> forall k :: 0 <= k < |ps| ==> ps[k].codigo != codigo
  {
    if |ps| == 0 then None
    else if ps[0].codigo == codigo then Some(0)
    else match IndexOf(ps[1..], codigo)
      case None => None
      case Some(i) => Some(i + 1)
  }

  /** `obtenerProductoPorCodigo` (`WHERE codigo = :codigo LIMIT 1`): the row holding the code,
      `null` when there is none. */
  function ObtenerProductoPorCodigo(t: ProductoTable, codigo: string): (r: Option<Producto>)
    ensures forall p :: p in t && p.codigo == codigo ==> r == Some(p)
    ensures r.Some? ==> r.value in t && r.value.codigo == codigo
    ensures r.None? <==> forall p :: p in t ==> p.codigo != codigo
  {
    match IndexOf(t, codigo)
    case None => None
    case Some(i) => Some(t[i])
  }

  /** `obtenerProductoPorCodigoFlow`: the same query, observed. */
  function ObtenerProductoPorCodigoFlow(t: ProductoTable, codigo: string): (r: Option<Producto>)
    ensures r.Some? <==> exists i :: 0 <= i < |t| && t[i].codigo == codigo
    ensures r.Some? ==> r.value in t && r.value.codigo == codigo
  {
    ObtenerProductoPorCodigo(t, codigo)
  }

  /* ---------------- writes ---------------- */

  /** `WHERE codigo <> :codigo` */
  function SinCodigo(codigo: string): Producto -> bool {
    (p: Producto) => p.codigo != codigo
  }

  /** A filter of a list with distinct codes has distinct codes. */
  lemma {:induction false} FilterDistinct(ps: seq<Producto>, keep: Producto -> bool)
    requires DistinctCodes(ps)
    ensures DistinctCodes(Filter(ps, keep))
  {
    if |ps| > 0 {
      FilterDistinct(ps[1..], keep);
      var rest := Filter(ps[1..], keep);
      if keep(ps[0]) {
        forall j | 0 <= j < |rest|
          ensures ps[0].codigo != rest[j].codigo
        {
          var k :| 0 <= k < |ps[1..]| && ps[1..][k] == rest[j];
          assert ps[k + 1] == rest[j];
        }
        assert Filter(ps, keep) == [ps[0]] + rest;
      }
    }
  }

  /** Dropping a code no row holds removes nothing. */
  lemma RemoveAbsentCode(t: ProductoTable, codigo: string)
    requires IndexOf(t, codigo).None?
    ensures Filter(t, SinCodigo(codigo)) == t
  {
    FilterAll(t, SinCodigo(codigo));
  }

  /** Dropping the code of row `i` removes exactly position `i`. */
  lemma RemovePresentCode(t: ProductoTable, i: int)
    requires 0 <= i < |t|
    ensures Filter(t, SinCodigo(t[i].codigo)) == t[..i] + t[i + 1..]
  {
    FilterDropsOne(t, i, SinCodigo(t[i].codigo));
  }

  /** Dropping the row with a code that is present removes exactly its position; dropping an
      absent code removes nothing. */
  lemma RemoveCode(t: ProductoTable, codigo: string)
    ensures IndexOf(t, codigo).None? ==> Filter(t, SinCodigo(codigo)) == t
    ensures IndexOf(t, codigo).Some? ==>
      var i := IndexOf(t, codigo).value;
      Filter(t, SinCodigo(codigo)) == t[..i] + t[i + 1..]
  {
    match IndexOf(t, codigo)
    case None =>
      RemoveAbsentCode(t, codigo);
    case Some(i) =>
      RemovePresentCode(t, i);
  }

  /** `deleteByCodigo` (`DELETE FROM productos WHERE codigo = :codigo`): the row with that code
      is gone, every other row stays, in order. */
  function DeleteByCodigo(t: ProductoTable, codigo: string): (r: ProductoTable)
    ensures forall p :: p in r <==> p in t && p.codigo != codigo
    ensures |r| == if IndexOf(t, codigo).Some? then |t| - 1 else |t|
    ensures IsSubsequence(r, t)
  {
    FilterDistinct(t, SinCodigo(codigo));
    FilterSubsequence(t, SinCodigo(codigo));
    RemoveCode(t, codigo);
    var r := Filter(t, SinCodigo(codigo));
    assert forall p :: p in t && p.codigo != codigo ==> p in r by {
      forall p | p in t && p.codigo != codigo
        ensures p in r
      {
        var i :| 0 <= i < |t| && t[i] == p;
      }
    }
    r
  }

  /** `eliminarProducto` (`@Delete`): deletes by the entity's primary key. */
  function EliminarProducto(t: ProductoTable, p: Producto): (r: ProductoTable)
    ensures forall q :: q in r <==> q in t && q.codigo != p.codigo
    ensures ObtenerProductoPorCodigo(r, p.codigo).None?
  {
    DeleteByCodigo(t, p.codigo)
  }

  /** `upsert` (`@Insert(onConflict = REPLACE)`): afterwards the code holds `p`, every other
      code holds what it held, and the table grows by one row exactly when the code was new. */
  function Upsert(t: ProductoTable, p: Producto): (r: ProductoTable)
    ensures ObtenerProductoPorCodigo(r, p.codigo) == Some(p)
    ensures forall c :: c != p.codigo ==> ObtenerProductoPorCodigo(r, c) == ObtenerProductoPorCodigo(t, c)
    ensures |r| == if ObtenerProductoPorCodigo(t, p.codigo).None? then |t| + 1 else |t|
    ensures forall q :: q in r <==> q == p || (q in t && q.codigo != p.codigo)
  {
    var rest := DeleteByCodigo(t, p.codigo);
    var r := rest + [p];
    assert forall k :: 0 <= k < |rest| ==> rest[k] in rest;
    assert DistinctCodes(r);
    r
  }

  /** The last product of `ps` carrying `codigo`, if any. */
  function LastWithCode(ps: seq<Producto>, codigo: string): (r: Option<Producto>)
    ensures r.Some? ==> r.value in ps && r.value.codigo == codigo
    ensures r.None? <==> forall i :: 0 <= i < |ps| ==> ps[i].codigo != codigo
  {
    if |ps| == 0 then None
    else match LastWithCode(ps[1..], codigo)
      case Some(q) => Some(q)
      case None => if ps[0].codigo == codigo then Some(ps[0]) else None
  }

  /** `upsertAll`: the products are written one after the other, so each code ends up holding
      the last product of the list that carries it, and every other code is untouched. */
  function UpsertAll(t: ProductoTable, ps: seq<Producto>): (r: ProductoTable)
    ensures forall c :: ObtenerProductoPorCodigo(r, c) == (if LastWithCode(ps, c).Some? then LastWithCode(ps, c) else ObtenerProductoPorCodigo(t, c))
    decreases |ps|
  {
    if |ps| == 0 then t else UpsertAll(Upsert(t, ps[0]), ps[1..])
  }

  /** Writing a product a second time changes nothing more. */
  lemma UpsertIdempotent(t: ProductoTable, p: Producto)
    ensures Upsert(Upsert(t, p), p) == Upsert(t, p)
  {
    var once := Upsert(t, p);
    var rest := DeleteByCodigo(t, p.codigo);
    assert once == rest + [p];
    assert forall k :: 0 <= k < |rest| ==> rest[k] in rest;
    RemovePresentCode(once, |once| - 1);
    assert once[..|once| - 1] + once[|once|..] == rest;
  }

  /** No code of `ps` is already in `t`. */
  predicate FreshCodes(t: seq<Producto>, ps: seq<Producto>) {
    forall i, j :: 0 <= i < |t| && 0 <= j < |ps| ==> t[i].codigo != ps[j].codigo
  }

  /** Moving the head of a fresh, distinct list into the table keeps the rest fresh and distinct. */
  lemma FreshShift(t: seq<Producto>, ps: seq<Producto>)
    requires |ps| > 0 && DistinctCodes(ps) && FreshCodes(t, ps)
    ensures DistinctCodes(ps[1..]) && FreshCodes(t + [ps[0]], ps[1..])
  {
    var rest, t1 := ps[1..], t + [ps[0]];
    assert forall j :: 0 <= j < |rest| ==> rest[j] == ps[j + 1];
    forall i, j | 0 <= i < |t1| && 0 <= j < |rest|
      ensures t1[i].codigo != rest[j].codigo
    {
      if i == |t| {
        assert t1[i] == ps[0];
      } else {
        assert t1[i] == t[i];
      }
    }
  }

  /** Writing a list of new, pairwise distinct codes appends the list as it is. */
  lemma {:induction false} UpsertAllFresh(t: ProductoTable, ps: seq<Producto>)
    requires DistinctCodes(ps) && FreshCodes(t, ps)
    ensures UpsertAll(t, ps) == t + ps
    decreases |ps|
  {
    if |ps| == 0 {
      assert t + ps == t;
    } else {
      assert forall k :: 0 <= k < |t| ==> t[k].codigo != ps[0].codigo;
      var t1 := UpsertFresh(t, ps[0]);
      var rest := ps[1..];
      assert UpsertAll(t, ps) == UpsertAll(t1, rest);
      FreshShift(t, ps);
      UpsertAllFresh(t1, rest);
      AppendHead(t, ps);
    }
  }

  lemma AppendHead(t: seq<Producto>, ps: seq<Producto>)
    requires |ps| > 0
    ensures t + ps == (t + [ps[0]]) + ps[1..]
  {
    assert ps == [ps[0]] + ps[1..];
  }

  /** Writing a new code appends its row. */
  lemma UpsertFresh(t: ProductoTable, p: Producto) returns (r: ProductoTable)
    requires forall k :: 0 <= k < |t| ==> t[k].codigo != p.codigo
    ensures r == Upsert(t, p) && r == t + [p]
  {
    RemoveAbsentCode(t, p.codigo);
    r := Upsert(t, p);
  }

  /** `actualizarProducto` (`@Update`): rewrites the row holding the code in place, and does
      nothing when no row holds it; it never inserts. */
  function ActualizarProducto(t: ProductoTable, p: Producto): (r: ProductoTable)
    ensures ObtenerProductoPorCodigo(t, p.codigo).None? ==> r == t
    ensures ObtenerProductoPorCodigo(t, p.codigo).Some? ==> ObtenerProductoPorCodigo(r, p.codigo) == Some(p)
    ensures forall c :: c != p.codigo ==> ObtenerProductoPorCodigo(r, c) == ObtenerProductoPorCodigo(t, c)
    ensures |r| == |t|
  {
    match IndexOf(t, p.codigo)
    case None => t
    case Some(i) =>
      var r := t[i := p];
      assert r[i] == p && p in r;
      assert forall k :: 0 <= k < |t| && k != i ==> r[k] == t[k];
      assert DistinctCodes(r);
      assert forall q :: q in t && q.codigo != p.codigo ==> q in r by {
        forall q | q in t && q.codigo != p.codigo
          ensures q in r
        {
          var k :| 0 <= k < |t| && t[k] == q;
          assert r[k] == q;
        }
      }
      assert forall q :: q in r ==> q == p || (q in t && q.codigo != p.codigo) by {
        forall q | q in r
          ensures q == p || (q in t && q.codigo != p.codigo)
        {
          var k :| 0 <= k < |r| && r[k] == q;
          if k != i {
            assert q == t[k] && t[k].codigo != t[i].codigo;
          }
        }
      }
      r
  }

  /** Deleting a code right after writing it leaves what deleting it alone leaves. */
  lemma DeleteAfterUpsert(t: ProductoTable, p: Producto)
    ensures DeleteByCodigo(Upsert(t, p), p.codigo) == DeleteByCodigo(t, p.codigo)
  {
    var once := Upsert(t, p);
    var rest := DeleteByCodigo(t, p.codigo);
    assert once == rest + [p];
    assert forall k :: 0 <= k < |rest| ==> rest[k] in rest;
    RemovePresentCode(once, |once| - 1);
    assert once[..|once| - 1] + once[|once|..] == rest;
  }

  /* ---------------- filtered reads ---------------- */

  /** `obtenerTodosLosProductos` (`SELECT * FROM productos`): every row once, in rowid order. */
  function ObtenerTodosLosProductos(t: ProductoTable): (r: seq<Producto>)
    ensures r == t
    ensures |r| == |t| && forall p :: p in r <==> p in t
    ensures DistinctCodes(r)
  {
    t
  }

  /** `WHERE categoriaId = :categoriaId` */
  function DeCategoria(categoriaId: int): Producto -> bool {
    (p: Producto) => p.categoriaId == categoriaId
  }

  /** SQLite `x LIKE '%' || s || '%'` under the default ASCII case folding: `s` occurs in `x`
      once both are lower-cased. */
  predicate Like(x: string, s: string) {
    Contains(Lowercase(x), Lowercase(s))
  }

  /** `nombre LIKE '%' || s || '%' OR descripcion LIKE '%' || s || '%'` */
  function CoincideTexto(busqueda: string): Producto -> bool {
    (p: Producto) => Like(p.nombre, busqueda) || Like(p.descripcion, busqueda)
  }

  /** The conjunction of both filters, `buscarProductosPorCategoria`'s `WHERE`. */
  function DeCategoriaYTexto(categoriaId: int, busqueda: string): Producto -> bool {
    (p: Producto) => p.categoriaId == categoriaId && (Like(p.nombre, busqueda) || Like(p.descripcion, busqueda))
  }

  /** `obtenerProductosPorCategoria`: exactly the rows of the category, in rowid order. */
  function ObtenerProductosPorCategoria(t: ProductoTable, categoriaId: int): (r: seq<Producto>)
    ensures forall i :: 0 <= i < |r| ==> r[i].categoriaId == categoriaId && r[i] in t
    ensures forall i :: 0 <= i < |t| && t[i].categoriaId == categoriaId ==> t[i] in r
    ensures IsSubsequence(r, t)
  {
    FilterSubsequence(t, DeCategoria(categoriaId));
    Filter(t, DeCategoria(categoriaId))
  }

  /** `buscarProductos`: exactly the rows whose name or description contains the text. */
  function BuscarProductos(t: ProductoTable, busqueda: string): (r: seq<Producto>)
    ensures forall i :: 0 <= i < |r| ==> (Like(r[i].nombre, busqueda) || Like(r[i].descripcion, busqueda)) && r[i] in t
    ensures forall i :: 0 <= i < |t| && (Like(t[i].nombre, busqueda) || Like(t[i].descripcion, busqueda)) ==> t[i] in r
    ensures IsSubsequence(r, t)
  {
    FilterSubsequence(t, CoincideTexto(busqueda));
    Filter(t, CoincideTexto(busqueda))
  }

  /** `buscarProductosPorCategoria`: the rows that pass both the category and the text test. */
  function BuscarProductosPorCategoria(t: ProductoTable, categoriaId: int, busqueda: string): (r: seq<Producto>)
    ensures forall i :: 0 <= i < |r| ==>
      && r[i].categoriaId == categoriaId && (Like(r[i].nombre, busqueda) || Like(r[i].descripcion, busqueda))
      && r[i] in t
    ensures forall i :: 0 <= i < |t| && DeCategoriaYTexto(categoriaId, busqueda)(t[i]) ==> t[i] in r
    ensures IsSubsequence(r, t)
  {
    FilterSubsequence(t, DeCategoriaYTexto(categoriaId, busqueda));
    Filter(t, DeCategoriaYTexto(categoriaId, busqueda))
  }

  /** The combined query is the text search narrowed to the category, and the category list
      narrowed to the text search. */
  lemma BuscarPorCategoriaComposes(t: ProductoTable, categoriaId: int, busqueda: string)
    ensures BuscarProductosPorCategoria(t, categoriaId, busqueda)
         == Filter(BuscarProductos(t, busqueda), DeCategoria(categoriaId))
    ensures BuscarProductosPorCategoria(t, categoriaId, busqueda)
         == Filter(ObtenerProductosPorCategoria(t, categoriaId), CoincideTexto(busqueda))
  {
    FilterAnd(t, CoincideTexto(busqueda), DeCategoria(categoriaId), DeCategoriaYTexto(categoriaId, busqueda));
    FilterAnd(t, DeCategoria(categoriaId), CoincideTexto(busqueda), DeCategoriaYTexto(categoriaId, busqueda));
  }

  /* ---------------- ordered reads ---------------- */

  /** The `ORDER BY` clauses the DAO uses. */
  datatype Orden = PrecioAsc | PrecioDesc | NombreAsc

  /** SQLite's default `BINARY` collation on text: code point by code point, a proper prefix
      first (UTF-8 byte order and code point order agree). */
  predicate LexLe(a: string, b: string) {
    if |a| == 0 then true
    else if |b| == 0 then false
    else if a[0] != b[0] then a[0] < b[0]
    else LexLe(a[1..], b[1..])
  }

  lemma {:induction false} LexLeTotal(a: string, b: string)
    ensures LexLe(a, b) || LexLe(b, a)
  {
    if |a| > 0 && |b| > 0 && a[0] == b[0] {
      LexLeTotal(a[1..], b[1..]);
    }
  }

  lemma {:induction false} LexLeTrans(a: string, b: string, c: string)
    requires LexLe(a, b) && LexLe(b, c)
    ensures LexLe(a, c)
  {
    if |a| > 0 && |b| > 0 && |c| > 0 && a[0] == b[0] && b[0] == c[0] {
      LexLeTrans(a[1..], b[1..], c[1..]);
    }
  }

  /** `a` may come before `b` under the ordering. */
  predicate Le(o: Orden, a: Producto, b: Producto) {
    match o
    case PrecioAsc => a.precio <= b.precio
    case PrecioDesc => a.precio >= b.precio
    case NombreAsc => LexLe(a.nombre, b.nombre)
  }

  lemma LeTotal(o: Orden, a: Producto, b: Producto)
    ensures Le(o, a, b) || Le(o, b, a)
  {
    if o.NombreAsc? {
      LexLeTotal(a.nombre, b.nombre);
    }
  }

  /** Neighbours in order. */
  predicate Sorted(o: Orden, s: seq<Producto>) {
    forall i :: 0 <= i < |s| - 1 ==> Le(o, s[i], s[i + 1])
  }

  /** `x` placed before the first element it may precede; ties keep `x` first. */
  function Insert(o: Orden, x: Producto, s: seq<Producto>): (r: seq<Producto>)
    requires Sorted(o, s)
    ensures Sorted(o, r)
    ensures multiset(r) == multiset(s) + multiset{x}
    ensures |r| == |s| + 1
    ensures r[0] == x || (|s| > 0 && r[0] == s[0])
  {
    if |s| == 0 then [x]
    else if Le(o, x, s[0]) then [x] + s
    else
      LeTotal(o, x, s[0]);
      var rest := Insert(o, x, s[1..]);
      assert s == [s[0]] + s[1..];
      [s[0]] + rest
  }

  /** A stable insertion sort: the result is a sorted rearrangement of the input. */
  function Sort(o: Orden, s: seq<Producto>): (r: seq<Producto>)
    ensures Sorted(o, r)
    ensures multiset(r) == multiset(s)
    ensures |r| == |s|
  {
    if |s| == 0 then []
    else
      assert s == [s[0]] + s[1..];
      Insert(o, s[0], Sort(o, s[1..]))
  }

  /** Sorted neighbours give sorted pairs. */
  lemma {:induction false} SortedPairs(o: Orden, s: seq<Producto>, i: int, j: int)
    requires Sorted(o, s) && 0 <= i < j < |s|
    ensures Le(o, s[i], s[j])
    decreases j - i
  {
    if j > i + 1 {
      SortedPairs(o, s, i + 1, j);
      if o.NombreAsc? {
        LexLeTrans(s[i].nombre, s[i + 1].nombre, s[j].nombre);
      }
    }
  }

  lemma SortedAllPairs(o: Orden, s: seq<Producto>)
    requires Sorted(o, s)
    ensures forall i, j :: 0 <= i < j < |s| ==> Le(o, s[i], s[j])
  {
    forall i, j | 0 <= i < j < |s|
      ensures Le(o, s[i], s[j])
    {
      SortedPairs(o, s, i, j);
    }
  }

  /** `obtenerProductosOrdenadosPorPrecioAsc`: every row, cheapest first. */
  function ObtenerProductosOrdenadosPorPrecioAsc(t: ProductoTable): (r: seq<Producto>)
    ensures multiset(r) == multiset(t)
    ensures forall i, j :: 0 <= i < j < |r| ==> r[i].precio <= r[j].precio
  {
    var r := Sort(PrecioAsc, t);
    SortedAllPairs(PrecioAsc, r);
    r
  }

  /** `obtenerProductosOrdenadosPorPrecioDesc`: every row, dearest first. */
  function ObtenerProductosOrdenadosPorPrecioDesc(t: ProductoTable): (r: seq<Producto>)
    ensures multiset(r) == multiset(t)
    ensures forall i, j :: 0 <= i < j < |r| ==> r[i].precio >= r[j].precio
  {
    var r := Sort(PrecioDesc, t);
    SortedAllPairs(PrecioDesc, r);
    r
  }

  /** `contarProductos` (`SELECT COUNT(*)`): the number of rows, i.e. of distinct codes. */
  function ContarProductos(t: ProductoTable): (n: nat)
    ensures n == |t|
    ensures n == 0 <==> forall c :: ObtenerProductoPorCodigo(t, c).None?
  {
    if |t| > 0 then
      assert ObtenerProductoPorCodigo(t, t[0].codigo).Some?;
      |t|
    else
      |t|
  }

  /** `WHERE vendedorId = :vendedorId` */
  function DeVendedor(vendedorId: int): Producto -> bool {
    (p: Producto) => p.vendedorId == vendedorId
  }

  /** `observeByVendedor` (`... WHERE vendedorId = :vendedorId ORDER BY nombre ASC`): exactly
      the seller's rows, by name. */
  function ObserveByVendedor(t: ProductoTable, vendedorId: int): (r: seq<Producto>)
    ensures multiset(r) == multiset(Filter(t, DeVendedor(vendedorId)))
    ensures forall p :: p in r <==> p in t && p.vendedorId == vendedorId
    ensures forall i, j :: 0 <= i < j < |r| ==> LexLe(r[i].nombre, r[j].nombre)
  {
    var mine := Filter(t, DeVendedor(vendedorId));
    var r := Sort(NombreAsc, mine);
    SortedAllPairs(NombreAsc, r);
    assert forall p :: p in r <==> p in mine by {
      forall p
        ensures p in r <==> p in mine
      {
        assert p in r <==> p in multiset(r);
      }
    }
    assert forall p :: p in t && p.vendedorId == vendedorId ==> p in mine by {
      forall p | p in t && p.vendedorId == vendedorId
        ensures p in mine
      {
        var i :| 0 <= i < |t| && t[i] == p;
      }
    }
    r
  }
}

=== FILE: ProductoModel.dfy ===
/** The catalogue entity `Producto` (table `productos`, primary key `codigo`) and the demo
    catalogue written into an empty table on first open. The `Float` rating `calificacion`
    is not part of this model. */
module ProductoModel {

  /** One catalogue row. Prices are whole pesos; the defaults are the Kotlin data-class defaults. */
  datatype Producto = Producto(
    codigo: string,
    nombre: string,
    descripcion: string,
    precio: int,
    categoriaId: int,
    categoriaNombre: string,
    stock: int := 100,
    imagenUrl: string := "",
    fabricante: string := "",
    vendedorId: int := 0,
    activo: bool := true
  )

  /** A product built with only the required fields carries the declared defaults. */
  lemma Defaults(codigo: string, nombre: string, descripcion: string, precio: int, categoriaId: int, categoriaNombre: string)
    ensures var p := Producto(codigo, nombre, descripcion, precio, categoriaId, categoriaNombre);
      && p.stock == 100 && p.imagenUrl == "" && p.fabricante == ""
      && p.vendedorId == 0 && p.activo
  {
  }

  /** No two products of the list share a code: the list can be stored under the primary key as is. */
  predicate DistinctCodes(ps: seq<Producto>) {
    forall i, j :: 0 <= i < j < |ps| ==> ps[i].codigo != ps[j].codigo
  }

  /* The demo list of `obtenerProductosDefault`, stored column by column. */

  /** Codes of the demo list, by position. */
  function CodigoSemilla(i: nat): string {
    match i
    case 0 => "JM001"
    case 1 => "JM002"
    case 2 => "AC001"
    case 3 => "AC002"
    case 4 => "CO001"
    case 5 => "CG001"
    case 6 => "SG001"
    case 7 => "MS001"
    case 8 => "MP001"
    case _ => "PP001"
  }

  /** Names of the demo list, by position. */
  function NombreSemilla(i: nat): string {
    match i
    case 0 => "Catan"
    case 1 => "Carcassonne"
    case 2 => "Controlador Inalámbrico Xbox Series X"
    case 3 => "Auriculares Gamer HyperX Cloud II"
    case 4 => "PlayStation 5"
    case 5 => "PC Gamer ASUS ROG Strix"
    case 6 => "Silla Gamer Secretlab Titan"
    case 7 => "Mouse Gamer Logitech G502 HERO"
    case 8 => "Mousepad Razer Goliathus Extended Chroma"
    case _ => "Polera Gamer Personalizada 'Level-Up'"
  }

  /** Descriptions of the demo list, by position. */
  function DescripcionSemilla(i: nat): string {
    match i
    case 0 => 
        "Un clásico juego de estrategia donde los jugadores "
        + "compiten por colonizar y expandirse en la isla de "
        + "Catan. Ideal para 3-4 jugadores y perfecto para "
        + "noches de juego en familia o con amigos."
    case 1 => 
        "Un juego de colocación de fichas donde los "
        + "jugadores construyen el paisaje alrededor de la "
        + "fortaleza medieval de Carcassonne. Ideal para 2-5 "
        + "jugadores y fácil de aprender."
    case 2 => 
        "Ofrece una experiencia de juego cómoda con botones "
        + "mapeables y una respuesta táctil mejorada. "
        + "Compatible con consolas Xbox y PC."
    case 3 => 
        "Proporcionan un sonido envolvente de calidad con "
        + "un micrófono desmontable y almohadillas de espuma "
        + "viscoelástica para mayor comodidad durante largas "
        + "sesiones de juego."
    case 4 => 
        "La consola de última generación de Sony, que "
        + "ofrece gráficos impresionantes y tiempos de carga "
        + "ultrarrápidos para una experiencia de juego "
        + "inmersiva."
    case 5 => 
        "Un potente equipo diseñado para los gamers más "
        + "exigentes, equipado con los últimos componentes "
        + "para ofrecer un rendimiento excepcional en "
        + "cualquier juego."
    case 6 => 
        "Diseñada para el máximo confort, esta silla ofrece "
        + "un soporte ergonómico y personalización ajustable "
        + "para sesiones de juego prolongadas."
    case 7 => 
        "Con sensor de alta precisión y botones "
        + "personalizables, este mouse es ideal para gamers "
        + "que buscan un control preciso y personalización."
    case 8 => 
        "Ofrece un área de juego amplia con iluminación RGB "
        + "personalizable, asegurando una superficie suave y "
        + "uniforme para el movimiento del mouse."
    case _ => 
        "Una camiseta cómoda y estilizada, con la "
        + "posibilidad de personalizarla con tu gamer tag o "
        + "diseño favorito."
  }

  /** Prices of the demo list, by position, in pesos. */
  function PrecioSemilla(i: nat): int {
    match i
    case 0 => 29990
    case 1 => 24990
    case 2 => 59990
    case 3 => 79990
    case 4 => 549990
    case 5 => 1299990
    case 6 => 349990
    case 7 => 49990
    case 8 => 29990
    case _ => 14990
  }

  /** Category ids of the demo list, by position. */
  function CategoriaIdSemilla(i: nat): int {
    match i
    case 0 => 1
    case 1 => 1
    case 2 => 2
    case 3 => 2
    case 4 => 3
    case 5 => 4
    case 6 => 5
    case 7 => 6
    case 8 => 7
    case _ => 8
  }

  /** Category names of the demo list, by position. */
  function CategoriaNombreSemilla(i: nat): string {
    match i
    case 0 => "Juegos de Mesa"
    case 1 => "Juegos de Mesa"
    case 2 => "Accesorios"
    case 3 => "Accesorios"
    case 4 => "Consolas"
    case 5 => "Computadores Gamers"
    case 6 => "Sillas Gamers"
    case 7 => "Mouse"
    case 8 => "Mousepad"
    case _ => "Poleras Personalizadas"
  }

  /** Makers of the demo list, by position. */
  function FabricanteSemilla(i: nat): string {
    match i
    case 0 => "Catan Studio"
    case 1 => "Z-Man Games"
    case 2 => "Microsoft"
    case 3 => "HyperX"
    case 4 => "Sony"
    case 5 => "ASUS"
    case 6 => "Secretlab"
    case 7 => "Logitech"
    case 8 => "Razer"
    case _ => "Level-Up Gamer"
  }

  /** `Producto.obtenerProductosDefault()`: the ten demo products in their listed order. */
  function ProductosDefault(): (ps: seq<Producto>)
    ensures |ps| == 10
  {
    seq(10, i requires 0 <= i < 10 => Semilla(i))
  }

  /** The `i`-th entry of the demo list: the columns above, with the data-class defaults for
      stock, image, seller and state. */
  function Semilla(i: nat): Producto {
    Producto(
      codigo := CodigoSemilla(i),
      nombre := NombreSemilla(i),
      descripcion := DescripcionSemilla(i),
      precio := PrecioSemilla(i),
      categoriaId := CategoriaIdSemilla(i),
      categoriaNombre := CategoriaNombreSemilla(i),
      fabricante := FabricanteSemilla(i))
  }

  /** The position of a demo code in the list, or -1 for any other code. */
  function PosicionDeCodigo(codigo: string): int {
    if codigo == "JM001" then 0
    else if codigo == "JM002" then 1
    else if codigo == "AC001" then 2
    else if codigo == "AC002" then 3
    else if codigo == "CO001" then 4
    else if codigo == "CG001" then 5
    else if codigo == "SG001" then 6
    else if codigo == "MS001" then 7
    else if codigo == "MP001" then 8
    else if codigo == "PP001" then 9
    else -1
  }

  /** The category name every demo product of category `id` carries. */
  function NombreDeCategoria(id: int): string {
    if id == 1 then "Juegos de Mesa"
    else if id == 2 then "Accesorios"
    else if id == 3 then "Consolas"
    else if id == 4 then "Computadores Gamers"
    else if id == 5 then "Sillas Gamers"
    else if id == 6 then "Mouse"
    else if id == 7 then "Mousepad"
    else "Poleras Personalizadas"
  }

  /** Row `i` carries the `i`-th code, a positive price, a category in 1..8 named as every other
      product of that category, no seller, and is active. */
  predicate FilaValida(p: Producto, i: int) {
    && PosicionDeCodigo(p.codigo) == i
    && p.precio > 0
    && 1 <= p.categoriaId <= 8 && p.categoriaNombre == NombreDeCategoria(p.categoriaId)
    && p.vendedorId == 0 && p.activo
  }

  /** All rows of the demo catalogue are valid. */
  lemma ProductosDefaultValid()
    ensures |ProductosDefault()| == 10
    ensures forall i :: 0 <= i < |ProductosDefault()| ==> FilaValida(ProductosDefault()[i], i)
  {
    forall i | 0 <= i < 10
      ensures FilaValida(Semilla(i), i)
    {
      SemillaValida(i);
    }
  }

  /** Each entry of the demo list is valid at its own position. */
  lemma SemillaValida(i: nat)
    requires i < 10
    ensures FilaValida(Semilla(i), i)
  {
    CodigosEnPosicion(i);
    CategoriasNombradas(i);
  }

  /** The code column lists ten different codes: each one leads back to its own position. */
  lemma CodigosEnPosicion(i: nat)
    requires i < 10
    ensures PosicionDeCodigo(CodigoSemilla(i)) == i
  {
  }

  /** The price and category columns agree row by row with the category naming. */
  lemma CategoriasNombradas(i: nat)
    requires i < 10
    ensures PrecioSemilla(i) > 0
    ensures 1 <= CategoriaIdSemilla(i) <= 8
    ensures CategoriaNombreSemilla(i) == NombreDeCategoria(CategoriaIdSemilla(i))
  {
  }

  /** The demo catalogue has ten products, all with distinct codes. */
  lemma ProductosDefaultDistinct()
    ensures |ProductosDefault()| == 10
    ensures DistinctCodes(ProductosDefault())
  {
    ProductosDefaultValid();
  }

  /** Every demo product has a strictly positive price. */
  lemma ProductosDefaultPrices()
    ensures forall i :: 0 <= i < |ProductosDefault()| ==> ProductosDefault()[i].precio > 0
  {
    ProductosDefaultValid();
  }

  /** Category ids are within `lo..hi` and each id is always named the same way. */
  predicate ConsistentCategories(ps: seq<Producto>, lo: int, hi: int) {
    && (forall i :: 0 <= i < |ps| ==> lo <= ps[i].categoriaId <= hi)
    && (forall i, j :: 0 <= i < |ps| && 0 <= j < |ps| && ps[i].categoriaId == ps[j].categoriaId ==>
          ps[i].categoriaNombre == ps[j].categoriaNombre)
  }

  /** Demo categories are 1..8 and each id always comes with the same category name. */
  lemma ProductosDefaultCategories()
    ensures ConsistentCategories(ProductosDefault(), 1, 8)
  {
    ProductosDefaultValid();
  }

  /** The demo catalogue belongs to no seller (id 0) and is entirely active, so neither demo
      seller (ids 1 and 2) owns any of it. */
  lemma ProductosDefaultOwnership()
    ensures forall i :: 0 <= i < |ProductosDefault()| ==>
      ProductosDefault()[i].vendedorId == 0 && ProductosDefault()[i].activo
  {
    ProductosDefaultValid();
  }
}

=== FILE: ProductoRepository.dfy ===
/** `ProductoRepository`: the catalogue layer the screens and view models call. Every call
    forwards to the `ProductoDao` query of the same meaning; the seller panel's aliases forward
    to the same queries under other names. */
module ProductoRepository {
  import opened Kotlin
  import opened ProductoModel
  import ProductoDao
  import opened Seqs

  type ProductoTable = ProductoDao.ProductoTable

  /* ---------------- reads ---------------- */

  /** `obtenerTodosLosProductos`: the rows the DAO lists, unchanged. */
  function ObtenerTodosLosProductos(t: ProductoTable): (r: seq<Producto>)
    ensures r == ProductoDao.ObtenerTodosLosProductos(t)
    ensures |r| == |t| && forall p :: p in r <==> p in t
  {
    ProductoDao.ObtenerTodosLosProductos(t)
  }

  /** `obtenerProductoPorCodigo`: the product the DAO finds for the code, unchanged. */
  function ObtenerProductoPorCodigo(t: ProductoTable, codigo: string): (r: Option<Producto>)
    ensures forall p :: p in t && p.codigo == codigo ==> r == Some(p)
    ensures r.None? <==> forall p :: p in t ==> p.codigo != codigo
  {
    ProductoDao.ObtenerProductoPorCodigo(t, codigo)
  }

  /** `obtenerProductoPorCodigoFlow`: each snapshot of the flow is what the one-shot lookup returns. */
  function ObtenerProductoPorCodigoFlow(t: ProductoTable, codigo: string): (r: Option<Producto>)
    ensures r == ObtenerProductoPorCodigo(t, codigo)
    ensures r.Some? ==> r.value in t && r.value.codigo == codigo
  {
    ProductoDao.ObtenerProductoPorCodigoFlow(t, codigo)
  }

  /** `obtenerProductosPorCategoria` */
  function ObtenerProductosPorCategoria(t: ProductoTable, categoriaId: int): (r: seq<Producto>)
    ensures forall i :: 0 <= i < |r| ==> r[i].categoriaId == categoriaId && r[i] in t
    ensures forall i :: 0 <= i < |t| && t[i].categoriaId == categoriaId ==> t[i] in r
    ensures IsSubsequence(r, t)
  {
    ProductoDao.ObtenerProductosPorCategoria(t, categoriaId)
  }

  /** `buscarProductos` */
  function BuscarProductos(t: ProductoTable, busqueda: string): (r: seq<Producto>)
    ensures forall i :: 0 <= i < |r| ==> ProductoDao.CoincideTexto(busqueda)(r[i]) && r[i] in t
    ensures forall i :: 0 <= i < |t| && ProductoDao.CoincideTexto(busqueda)(t[i]) ==> t[i] in r
    ensures IsSubsequence(r, t)
  {
    ProductoDao.BuscarProductos(t, busqueda)
  }

  /** `buscarProductosPorCategoria` */
  function BuscarProductosPorCategoria(t: ProductoTable, categoriaId: int, busqueda: string): (r: seq<Producto>)
    ensures forall i :: 0 <= i < |r| ==> ProductoDao.DeCategoriaYTexto(categoriaId, busqueda)(r[i]) && r[i] in t
    ensures forall i :: 0 <= i < |t| && ProductoDao.DeCategoriaYTexto(categoriaId, busqueda)(t[i]) ==> t[i] in r
    ensures IsSubsequence(r, t)
  {
    ProductoDao.BuscarProductosPorCategoria(t, categoriaId, busqueda)
  }

  /** `obtenerProductosOrdenadosPorPrecioAsc` */
  function ObtenerProductosOrdenadosPorPrecioAsc(t: ProductoTable): (r: seq<Producto>)
    ensures multiset(r) == multiset(t)
    ensures forall i, j :: 0 <= i < j < |r| ==> r[i].precio <= r[j].precio
  {
    ProductoDao.ObtenerProductosOrdenadosPorPrecioAsc(t)
  }

  /** `obtenerProductosOrdenadosPorPrecioDesc` */
  function ObtenerProductosOrdenadosPorPrecioDesc(t: ProductoTable): (r: seq<Producto>)
    ensures multiset(r) == multiset(t)
    ensures forall i, j :: 0 <= i < j < |r| ==> r[i].precio >= r[j].precio
  {
    ProductoDao.ObtenerProductosOrdenadosPorPrecioDesc(t)
  }

  /** `observeByVendedor`: the seller's products, by name. */
  function ObserveByVendedor(t: ProductoTable, vendedorId: int): (r: seq<Producto>)
    ensures forall p :: p in r <==> p in t && p.vendedorId == vendedorId
    ensures forall i, j :: 0 <= i < j < |r| ==> ProductoDao.LexLe(r[i].nombre, r[j].nombre)
  {
    ProductoDao.ObserveByVendedor(t, vendedorId)
  }

  /** `getByCode`: the seller panel's name for the point lookup, the same query. */
  function GetByCode(t: ProductoTable, codigo: string): (r: Option<Producto>)
    ensures r == ObtenerProductoPorCodigo(t, codigo)
    ensures r.Some? ==> r.value in t && r.value.codigo == codigo
  {
    ProductoDao.ObtenerProductoPorCodigo(t, codigo)
  }

  /* ---------------- writes ---------------- */

  /** `upsert` */
  function Upsert(t: ProductoTable, p: Producto): (r: ProductoTable)
    ensures ProductoDao.ObtenerProductoPorCodigo(r, p.codigo) == Some(p)
    ensures forall c :: c != p.codigo ==> ProductoDao.ObtenerProductoPorCodigo(r, c) == ProductoDao.ObtenerProductoPorCodigo(t, c)
  {
    ProductoDao.Upsert(t, p)
  }

  /** `upsertAll` */
  function UpsertAll(t: ProductoTable, ps: seq<Producto>): (r: ProductoTable)
    ensures forall c :: ProductoDao.ObtenerProductoPorCodigo(r, c) == (if ProductoDao.LastWithCode(ps, c).Some? then ProductoDao.LastWithCode(ps, c) else ProductoDao.ObtenerProductoPorCodigo(t, c))
  {
    ProductoDao.UpsertAll(t, ps)
  }

  /** `actualizarProducto` */
  function ActualizarProducto(t: ProductoTable, p: Producto): (r: ProductoTable)
    ensures ProductoDao.ObtenerProductoPorCodigo(t, p.codigo).None? ==> r == t
    ensures ProductoDao.ObtenerProductoPorCodigo(t, p.codigo).Some? ==> ProductoDao.ObtenerProductoPorCodigo(r, p.codigo) == Some(p)
    ensures forall c :: c != p.codigo ==> ProductoDao.ObtenerProductoPorCodigo(r, c) == ProductoDao.ObtenerProductoPorCodigo(t, c)
  {
    ProductoDao.ActualizarProducto(t, p)
  }

  /** `eliminarProducto` */
  function EliminarProducto(t: ProductoTable, p: Producto): (r: ProductoTable)
    ensures forall q :: q in r <==> q in t && q.codigo != p.codigo
  {
    ProductoDao.EliminarProducto(t, p)
  }

  /** `eliminarPorCodigo`: `deleteByCodigo`. */
  function EliminarPorCodigo(t: ProductoTable, codigo: string): (r: ProductoTable)
    ensures forall q :: q in r <==> q in t && q.codigo != codigo
  {
    ProductoDao.DeleteByCodigo(t, codigo)
  }

  /** `insert`: the seller panel's name for `upsert`, so it replaces an existing code. */
  function Insert(t: ProductoTable, p: Producto): (r: ProductoTable)
    ensures ProductoDao.ObtenerProductoPorCodigo(r, p.codigo) == Some(p)
    ensures forall q :: q in r <==> q == p || (q in t && q.codigo != p.codigo)
  {
    Upsert(t, p)
  }

  /** `update`: the seller panel's name for `actualizarProducto`, so it never inserts. */
  function Update(t: ProductoTable, p: Producto): (r: ProductoTable)
    ensures r == ActualizarProducto(t, p)
    ensures ProductoDao.ObtenerProductoPorCodigo(t, p.codigo).None? ==> r == t
    ensures |r| == |t|
  {
    ActualizarProducto(t, p)
  }

  /** `deleteByCode`: the seller panel's name for `eliminarPorCodigo`. */
  function DeleteByCode(t: ProductoTable, codigo: string): (r: ProductoTable)
    ensures ProductoDao.ObtenerProductoPorCodigo(r, codigo).None?
    ensures forall q :: q in r <==> q in t && q.codigo != codigo
  {
    EliminarPorCodigo(t, codigo)
  }

  /** Deleting an entity and deleting its code are the same write, under every name. */
  lemma DeletesAgree(t: ProductoTable, p: Producto)
    ensures EliminarProducto(t, p) == EliminarPorCodigo(t, p.codigo) == DeleteByCode(t, p.codigo)
  {
  }
}

=== FILE: ProductoViewModel.dfy ===
/** `ProductoViewModel`: the catalogue screen's filter state and the product list it shows.
    Every action records its argument in `filtroState` and then selects exactly one repository
    query, chosen from that argument alone; the list shown is that query's snapshot of the table. */
module ProductoViewModel {
  import opened Kotlin
  import opened ProductoModel
  import ProductoDao
  import ProductoRepository

  type ProductoTable = ProductoDao.ProductoTable

  /** `OrdenProductos` */
  datatype OrdenProductos = Ninguno | PrecioAsc | PrecioDesc

  /** `FiltroState`, with its defaults. */
  datatype FiltroState = FiltroState(
    busqueda: string := "",
    categoriaSeleccionada: Option<int> := None,
    orden: OrdenProductos := Ninguno)

  /** The repository query whose emissions feed `_productos`. */
  datatype Consulta =
    | Todos
    | PorCategoria(categoriaId: int)
    | Buscar(busqueda: string)
    | OrdenAsc
    | OrdenDesc

  /** The observable state: the shown list, the filter record and the selected product. */
  datatype ProductoUi = ProductoUi(
    productos: seq<Producto>,
    filtroState: FiltroState,
    productoSeleccionado: Option<Producto>)

  /** The snapshot a query emits for the table `t`. */
  function Ejecutar(t: ProductoTable, q: Consulta): (r: seq<Producto>)
    ensures forall p :: p in r ==> p in t
    ensures q.Todos? || q.OrdenAsc? || q.OrdenDesc? ==> multiset(r) == multiset(t)
    ensures q.PorCategoria? ==> forall p :: p in r <==> p in t && p.categoriaId == q.categoriaId
    ensures q.Buscar? ==> forall p :: p in r <==> p in t && ProductoDao.CoincideTexto(q.busqueda)(p)
    ensures q.OrdenAsc? ==> forall i, j :: 0 <= i < j < |r| ==> r[i].precio <= r[j].precio
    ensures q.OrdenDesc? ==> forall i, j :: 0 <= i < j < |r| ==> r[i].precio >= r[j].precio
  {
    match q
    case Todos => ProductoRepository.ObtenerTodosLosProductos(t)
    case PorCategoria(id) => ProductoRepository.ObtenerProductosPorCategoria(t, id)
    case Buscar(s) => ProductoRepository.BuscarProductos(t, s)
    case OrdenAsc =>
      var r := ProductoRepository.ObtenerProductosOrdenadosPorPrecioAsc(t);
      SameMembers(r, t); r
    case OrdenDesc =>
      var r := ProductoRepository.ObtenerProductosOrdenadosPorPrecioDesc(t);
      SameMembers(r, t); r
  }

  /** A permutation has the same members. */
  lemma SameMembers(a: seq<Producto>, b: seq<Producto>)
    requires multiset(a) == multiset(b)
    ensures forall p :: p in a <==> p in b
  {
    forall p
      ensures p in a <==> p in b
    {
      assert p in a <==> p in multiset(a);
    }
  }

  /** `init`: default filters, nothing selected, the full list loaded. */
  function Inicial(t: ProductoTable): (r: ProductoUi)
    ensures r.filtroState.busqueda == "" && r.filtroState.categoriaSeleccionada.None?
    ensures r.filtroState.orden == Ninguno && r.productoSeleccionado.None?
    ensures multiset(r.productos) == multiset(t)
  {
    ProductoUi(Ejecutar(t, Todos), FiltroState(), None)
  }

  /** The query `buscarProductos` selects: a blank search falls back to the full list. */
  function ConsultaBusqueda(busqueda: string): (q: Consulta)
    ensures q.Todos? <==> IsBlank(busqueda)
    ensures !IsBlank(busqueda) ==> q == Buscar(busqueda)
  {
    if IsBlank(busqueda) then Todos else Buscar(busqueda)
  }

  /** The query `onCategoriaSeleccionadaChange` selects. */
  function ConsultaCategoria(categoriaId: Option<int>): (q: Consulta)
    ensures q.Todos? <==> categoriaId.None?
    ensures categoriaId.Some? ==> q == PorCategoria(categoriaId.value)
  {
    match categoriaId
    case None => Todos
    case Some(id) => PorCategoria(id)
  }

  /** The query `onOrdenChange` selects. */
  function ConsultaOrden(orden: OrdenProductos): (q: Consulta)
    ensures q.Todos? <==> orden == Ninguno
    ensures q.OrdenAsc? <==> orden == PrecioAsc
    ensures q.OrdenDesc? <==> orden == PrecioDesc
  {
    match orden
    case Ninguno => Todos
    case PrecioAsc => OrdenAsc
    case PrecioDesc => OrdenDesc
  }

  /** Replaces the shown list with a query's snapshot. */
  function Mostrar(t: ProductoTable, ui: ProductoUi, q: Consulta): (r: ProductoUi)
    ensures r.filtroState == ui.filtroState && r.productoSeleccionado == ui.productoSeleccionado
    ensures forall p :: p in r.productos ==> p in t
  {
    ui.(productos := Ejecutar(t, q))
  }

  /** `cargarProductosPorCategoria`: the filter record is not touched. */
  function CargarProductosPorCategoria(t: ProductoTable, ui: ProductoUi, categoriaId: int): (r: ProductoUi)
    ensures r.filtroState == ui.filtroState && r.productoSeleccionado == ui.productoSeleccionado
    ensures forall p :: p in r.productos <==> p in t && p.categoriaId == categoriaId
  {
    Mostrar(t, ui, PorCategoria(categoriaId))
  }

  /** `buscarProductos`: the filter record is not touched. */
  function BuscarProductos(t: ProductoTable, ui: ProductoUi, busqueda: string): (r: ProductoUi)
    ensures r.filtroState == ui.filtroState && r.productoSeleccionado == ui.productoSeleccionado
    ensures IsBlank(busqueda) ==> multiset(r.productos) == multiset(t)
    ensures !IsBlank(busqueda) ==>
      forall p :: p in r.productos <==> p in t && ProductoDao.CoincideTexto(busqueda)(p)
  {
    Mostrar(t, ui, ConsultaBusqueda(busqueda))
  }

  /** `ordenarProductosPorPrecioAsc` */
  function OrdenarProductosPorPrecioAsc(t: ProductoTable, ui: ProductoUi): (r: ProductoUi)
    ensures r.filtroState == ui.filtroState && r.productoSeleccionado == ui.productoSeleccionado
    ensures multiset(r.productos) == multiset(t)
    ensures forall i, j :: 0 <= i < j < |r.productos| ==> r.productos[i].precio <= r.productos[j].precio
  {
    ui.(productos := ProductoRepository.ObtenerProductosOrdenadosPorPrecioAsc(t))
  }

  /** `ordenarProductosPorPrecioDesc` */
  function OrdenarProductosPorPrecioDesc(t: ProductoTable, ui: ProductoUi): (r: ProductoUi)
    ensures r.filtroState == ui.filtroState && r.productoSeleccionado == ui.productoSeleccionado
    ensures multiset(r.productos) == multiset(t)
    ensures forall i, j :: 0 <= i < j < |r.productos| ==> r.productos[i].precio >= r.productos[j].precio
  {
    ui.(productos := ProductoRepository.ObtenerProductosOrdenadosPorPrecioDesc(t))
  }

  /** `seleccionarProducto`: the selected product is the lookup's answer, `null` included. */
  function SeleccionarProducto(t: ProductoTable, ui: ProductoUi, codigo: string): (r: ProductoUi)
    ensures r.productos == ui.productos && r.filtroState == ui.filtroState
    ensures forall p :: p in t && p.codigo == codigo ==> r.productoSeleccionado == Some(p)
    ensures r.productoSeleccionado.None? <==> forall p :: p in t ==> p.codigo != codigo
  {
    ui.(productoSeleccionado := ProductoRepository.ObtenerProductoPorCodigo(t, codigo))
  }

  /** `onBusquedaChange`: records the text, then searches with it. */
  function OnBusquedaChange(t: ProductoTable, ui: ProductoUi, value: string): (r: ProductoUi)
    ensures r.filtroState == ui.filtroState.(busqueda := value)
    ensures r.productoSeleccionado == ui.productoSeleccionado
    ensures r.productos == Ejecutar(t, ConsultaBusqueda(value))
  {
    BuscarProductos(t, ui.(filtroState := ui.filtroState.(busqueda := value)), value)
  }

  /** `onCategoriaSeleccionadaChange`: records the category, then loads it (or everything). */
  function OnCategoriaSeleccionadaChange(t: ProductoTable, ui: ProductoUi, categoriaId: Option<int>): (r: ProductoUi)
    ensures r.filtroState == ui.filtroState.(categoriaSeleccionada := categoriaId)
    ensures r.productoSeleccionado == ui.productoSeleccionado
    ensures r.productos == Ejecutar(t, ConsultaCategoria(categoriaId))
  {
    var ui1 := ui.(filtroState := ui.filtroState.(categoriaSeleccionada := categoriaId));
    match categoriaId
    case Some(id) => CargarProductosPorCategoria(t, ui1, id)
    case None => Mostrar(t, ui1, Todos)
  }

  /** `onOrdenChange`: records the order, then runs the matching query. */
  function OnOrdenChange(t: ProductoTable, ui: ProductoUi, orden: OrdenProductos): (r: ProductoUi)
    ensures r.filtroState == ui.filtroState.(orden := orden)
    ensures r.productoSeleccionado == ui.productoSeleccionado
    ensures r.productos == Ejecutar(t, ConsultaOrden(orden))
    ensures multiset(r.productos) == multiset(t)
    ensures orden.PrecioAsc? ==> forall i, j :: 0 <= i < j < |r.productos| ==> r.productos[i].precio <= r.productos[j].precio
    ensures orden.PrecioDesc? ==> forall i, j :: 0 <= i < j < |r.productos| ==> r.productos[i].precio >= r.productos[j].precio
  {
    var ui1 := ui.(filtroState := ui.filtroState.(orden := orden));
    match orden
    case PrecioAsc => OrdenarProductosPorPrecioAsc(t, ui1)
    case PrecioDesc => OrdenarProductosPorPrecioDesc(t, ui1)
    case Ninguno => Mostrar(t, ui1, Todos)
  }

  /** `limpiarFiltros`: default filters and the full list; the selection survives. */
  function LimpiarFiltros(t: ProductoTable, ui: ProductoUi): (r: ProductoUi)
    ensures r.filtroState == FiltroState()
    ensures r.productoSeleccionado == ui.productoSeleccionado
    ensures multiset(r.productos) == multiset(t)
  {
    Mostrar(t, ui.(filtroState := FiltroState()), Todos)
  }

  /** Clearing the filters from any state shows what the freshly built view model shows. */
  lemma LimpiarIsInicial(t: ProductoTable, ui: ProductoUi)
    ensures LimpiarFiltros(t, ui) == Inicial(t).(productoSeleccionado := ui.productoSeleccionado)
  {
  }

  /** Filters never compose: after a search, the list depends on the text alone, whatever
      category or order was selected before. */
  lemma SearchIgnoresOtherFilters(t: ProductoTable, a: ProductoUi, b: ProductoUi, value: string)
    ensures OnBusquedaChange(t, a, value).productos == OnBusquedaChange(t, b, value).productos
    ensures !IsBlank(value) && a.filtroState.categoriaSeleccionada.Some? ==>
      forall p :: p in t && ProductoDao.CoincideTexto(value)(p) ==> p in OnBusquedaChange(t, a, value).productos
  {
  }

  /** Likewise a category change forgets the search text and the order. */
  lemma CategoryIgnoresOtherFilters(t: ProductoTable, a: ProductoUi, b: ProductoUi, categoriaId: Option<int>)
    ensures OnCategoriaSeleccionadaChange(t, a, categoriaId).productos
         == OnCategoriaSeleccionadaChange(t, b, categoriaId).productos
    ensures categoriaId.Some? ==>
      forall p :: p in OnCategoriaSeleccionadaChange(t, a, categoriaId).productos <==> p in t && p.categoriaId == categoriaId.value
  {
  }

  /** And an order change shows the whole table, whatever search text is recorded. */
  lemma OrderIgnoresOtherFilters(t: ProductoTable, ui: ProductoUi, orden: OrdenProductos)
    ensures multiset(OnOrdenChange(t, ui, orden).productos) == multiset(t)
  {
  }

  /** Each `on*Change` overwrites only its own field of the filter record, so the record can
      disagree with the list: after a category and then a search, both are recorded but only
      the search is applied. */
  lemma RecordedFiltersDisagreeWithList(t: ProductoTable, ui: ProductoUi, categoriaId: int, value: string)
    requires !IsBlank(value)
    ensures var r := OnBusquedaChange(t, OnCategoriaSeleccionadaChange(t, ui, Some(categoriaId)), value);
      r.filtroState.categoriaSeleccionada == Some(categoriaId) && r.filtroState.busqueda == value
      && forall p :: p in r.productos <==> p in t && ProductoDao.CoincideTexto(value)(p)
  {
  }
}

=== FILE: Seqs.dfy ===
/** Order-preserving filtering of lists, the shape of every `WHERE` clause without an
    `ORDER BY` over a table kept in rowid order, and of Kotlin's `List.filter`. */
module Seqs {

  /** `a` is `b` with some elements dropped and the rest kept in order. */
  ghost predicate IsSubsequence<T>(a: seq<T>, b: seq<T>)
    decreases |b|
  {
    if |a| == 0 then true
    else if |b| == 0 then false
    else (a[0] == b[0] && IsSubsequence(a[1..], b[1..])) || IsSubsequence(a, b[1..])
  }

  /** `s.filter(keep)` */
  function Filter<T>(s: seq<T>, keep: T -> bool): (r: seq<T>)
    ensures |r| <= |s|
    ensures forall i :: 0 <= i < |r| ==> keep(r[i]) && r[i] in s
    ensures forall i :: 0 <= i < |s| && keep(s[i]) ==> s[i] in r
  {
    if |s| == 0 then []
    else
      var rest := Filter(s[1..], keep);
      assert forall i :: 1 <= i < |s| ==> s[i] == s[1..][i - 1];
      if keep(s[0]) then
        assert ([s[0]] + rest)[1..] == rest;
        [s[0]] + rest
      else
        rest
  }

  /** What a filter keeps, it keeps in order. */
  lemma {:induction false} FilterSubsequence<T>(s: seq<T>, keep: T -> bool)
    ensures IsSubsequence(Filter(s, keep), s)
  {
    if |s| > 0 {
      FilterSubsequence(s[1..], keep);
      if keep(s[0]) {
        assert Filter(s, keep)[1..] == Filter(s[1..], keep);
      }
    }
  }

  lemma {:induction false} FilterAppend<T>(a: seq<T>, b: seq<T>, keep: T -> bool)
    ensures Filter(a + b, keep) == Filter(a, keep) + Filter(b, keep)
  {
    if |a| == 0 {
      assert a + b == b;
    } else {
      assert (a + b)[1..] == a[1..] + b;
      FilterAppend(a[1..], b, keep);
    }
  }

  /** Filtering keeps nothing the filter drops and everything it keeps. */
  lemma {:induction false} FilterAll<T>(s: seq<T>, keep: T -> bool)
    requires forall i :: 0 <= i < |s| ==> keep(s[i])
    ensures Filter(s, keep) == s
  {
    if |s| > 0 {
      FilterAll(s[1..], keep);
    }
  }

  /** An element that sits in the subsequence at position `i` sits in the original at or after `i`. */
  lemma {:induction false} SubsequenceOrder<T>(a: seq<T>, b: seq<T>, i: int, j: int)
    requires IsSubsequence(a, b)
    requires 0 <= i < j < |a|
    ensures exists k, l :: 0 <= k < l < |b| && b[k] == a[i] && b[l] == a[j]
    decreases |b|
  {
    if a[0] == b[0] && IsSubsequence(a[1..], b[1..]) {
      if i == 0 {
        assert a[j] == a[1..][j - 1];
        assert a[j] in b[1..] by { SubsequenceMember(a[1..], b[1..], j - 1); }
        var l :| 0 <= l < |b[1..]| && b[1..][l] == a[j];
        assert b[0] == a[i] && b[l + 1] == a[j];
      } else {
        SubsequenceOrder(a[1..], b[1..], i - 1, j - 1);
        var k, l :| 0 <= k < l < |b[1..]| && b[1..][k] == a[1..][i - 1] && b[1..][l] == a[1..][j - 1];
        assert b[k + 1] == a[i] && b[l + 1] == a[j];
      }
    } else {
      SubsequenceOrder(a, b[1..], i, j);
      var k, l :| 0 <= k < l < |b[1..]| && b[1..][k] == a[i] && b[1..][l] == a[j];
      assert b[k + 1] == a[i] && b[l + 1] == a[j];
    }
  }

  lemma {:induction false} SubsequenceMember<T>(a: seq<T>, b: seq<T>, i: int)
    requires IsSubsequence(a, b)
    requires 0 <= i < |a|
    ensures a[i] in b
    decreases |b|
  {
    if a[0] == b[0] && IsSubsequence(a[1..], b[1..]) {
      if i > 0 {
        SubsequenceMember(a[1..], b[1..], i - 1);
      }
    } else {
      SubsequenceMember(a, b[1..], i);
    }
  }

  /** Filtering by a stricter condition after a weaker one is filtering by the stricter one. */
  lemma {:induction false} FilterFilter<T>(s: seq<T>, weak: T -> bool, strict: T -> bool)
    requires forall i :: 0 <= i < |s| && strict(s[i]) ==> weak(s[i])
    ensures Filter(Filter(s, weak), strict) == Filter(s, strict)
  {
    if |s| > 0 {
      assert forall i :: 1 <= i < |s| ==> s[1..][i - 1] == s[i];
      FilterFilter(s[1..], weak, strict);
      if weak(s[0]) {
        assert Filter(s, weak)[1..] == Filter(s[1..], weak);
      }
    }
  }

  /** Filtering by two conditions no element meets together leaves nothing. */
  lemma FilterDisjoint<T>(s: seq<T>, k1: T -> bool, k2: T -> bool)
    requires forall i :: 0 <= i < |s| ==> !(k1(s[i]) && k2(s[i]))
    ensures Filter(Filter(s, k1), k2) == []
  {
  }

  /** Filtering splits around any position. */
  lemma {:induction false} FilterSplit<T>(s: seq<T>, i: int, keep: T -> bool)
    requires 0 <= i < |s|
    ensures Filter(s, keep) == Filter(s[..i], keep) + Filter([s[i]], keep) + Filter(s[i + 1..], keep)
  {
    var a, b, c := s[..i], [s[i]], s[i + 1..];
    assert s == a + (b + c);
    FilterAppend(a, b + c, keep);
    FilterAppend(b, c, keep);
    assert Filter(s, keep) == Filter(a, keep) + (Filter(b, keep) + Filter(c, keep));
  }

  /** Filtering by a conjunction is filtering by one conjunct, then by the other. */
  lemma {:induction false} FilterAnd<T>(s: seq<T>, first: T -> bool, second: T -> bool, both: T -> bool)
    requires forall i :: 0 <= i < |s| ==> both(s[i]) == (first(s[i]) && second(s[i]))
    ensures Filter(s, both) == Filter(Filter(s, first), second)
  {
    if |s| > 0 {
      assert forall i :: 1 <= i < |s| ==> s[1..][i - 1] == s[i];
      FilterAnd(s[1..], first, second, both);
      if first(s[0]) {
        assert Filter(s, first)[1..] == Filter(s[1..], first);
      }
    }
  }

  /** A filter that drops exactly position `i` removes that position. */
  lemma FilterDropsOne<T>(s: seq<T>, i: int, keep: T -> bool)
    requires 0 <= i < |s| && !keep(s[i])
    requires forall j :: 0 <= j < |s| && j != i ==> keep(s[j])
    ensures Filter(s, keep) == s[..i] + s[i + 1..]
  {
    KeepsAround(s, i, keep);
    SplitWithout(s, i, keep);
  }

  lemma SplitWithout<T>(s: seq<T>, i: int, keep: T -> bool)
    requires 0 <= i < |s|
    requires Filter(s[..i], keep) == s[..i]
    requires Filter([s[i]], keep) == []
    requires Filter(s[i + 1..], keep) == s[i + 1..]
    ensures Filter(s, keep) == s[..i] + s[i + 1..]
  {
    FilterSplit(s, i, keep);
    assert s[..i] + [] == s[..i];
  }

  lemma KeepsAround<T>(s: seq<T>, i: int, keep: T -> bool)
    requires 0 <= i < |s| && !keep(s[i])
    requires forall j :: 0 <= j < |s| && j != i ==> keep(s[j])
    ensures Filter(s[..i], keep) == s[..i]
    ensures Filter([s[i]], keep) == []
    ensures Filter(s[i + 1..], keep) == s[i + 1..]
  {
    var a, c := s[..i], s[i + 1..];
    assert forall j :: 0 <= j < |a| ==> a[j] == s[j];
    FilterAll(a, keep);
    assert forall j :: 0 <= j < |c| ==> c[j] == s[i + 1 + j];
    FilterAll(c, keep);
  }
}

=== FILE: SessionManager.dfy ===
/** `SessionManager`: the in-memory record of who is logged in. The Kotlin object is a global
    with mutable fields; here a session is a value and each operation returns the new one. */
module SessionManager {
  import opened Kotlin
  import CarritoViewModel

  /** The three roles of `data.user.Role`. */
  datatype Role = User | Vendedor | Admin

  /** The fields of the session object; `None` is Kotlin's `null`. */
  datatype Session = Session(
    currentUserId: Option<int>,
    currentUserName: Option<string>,
    esDuoc: bool,
    role: Role,
    currentVendedorId: Option<int>)

  /** The state the object starts in: a guest with the plain user role. */
  function Initial(): (s: Session)
    ensures s.currentUserId.None? && s.currentUserName.None?
    ensures !s.esDuoc && s.role == User && s.currentVendedorId.None?
  {
    Session(None, None, false, User, None)
  }

  /** `clear`: logs out. */
  function Clear(s: Session): (r: Session)
    ensures r.currentUserId.None? && r.currentUserName.None?
    ensures !r.esDuoc && r.role == User && r.currentVendedorId.None?
  {
    Session(None, None, false, User, None)
  }

  /** Logging out from any state gives the initial state, and doing it twice changes nothing more. */
  lemma ClearIsInitial(s: Session)
    ensures Clear(s) == Initial()
    ensures Clear(Clear(s)) == Clear(s)
  {
  }

  /** `safeUserId`: the logged-in id, or -1 for a guest. */
  function SafeUserId(s: Session): (r: int)
    ensures s.currentUserId.Some? ==> r == s.currentUserId.value
    ensures s.currentUserId.None? ==> r == -1
  {
    s.currentUserId.OrElse(-1)
  }

  /** The message `requireUserId` throws with. */
  const NO_USER_MESSAGE: string := "No hay usuario logeado en SessionManager.currentUserId"

  /** `requireUserId`: the logged-in id, or a thrown `IllegalStateException` for a guest. */
  function RequireUserId(s: Session): (r: Outcome<int>)
    ensures r.Returned? <==> s.currentUserId.Some?
    ensures r.Returned? ==> r.value == s.currentUserId.value
    ensures r.Thrown? ==> r.message == NO_USER_MESSAGE
  {
    match s.currentUserId
    case Some(id) => Returned(id)
    case None => Thrown(NO_USER_MESSAGE)
  }

  /** The two helpers agree whenever the strict one returns. */
  lemma RequireAgreesWithSafe(s: Session)
    ensures RequireUserId(s).Returned? ==> RequireUserId(s).value == SafeUserId(s)
    ensures RequireUserId(s).Thrown? <==> SafeUserId(s) == -1 && s.currentUserId.None?
  {
  }

  /** The discount the screens hand to the cart: 20 % for Duoc members, else none. */
  function DescuentoSesion(s: Session): (pct: int)
    ensures 0 <= pct <= 100
    ensures s.esDuoc <==> pct == 20
  {
    if s.esDuoc then 20 else 0
  }

  /** What the screens do on entry: `inicializarCarrito(currentUserId ?: 0, desc)`. */
  function CarritoDeSesion(s: Session): (c: CarritoViewModel.CarritoState)
    ensures c.userId == CoerceAtLeast(s.currentUserId.OrElse(0), 0)
    ensures c.descPorcentaje == DescuentoSesion(s)
  {
    CarritoViewModel.InicializarCarrito(Some(s.currentUserId.OrElse(0)), DescuentoSesion(s))
  }

  /** The cart's session id is the clamped `safeUserId`: the guest's -1 and 0 both become 0. */
  lemma CartUserIsClampedSafeId(s: Session)
    ensures CarritoDeSesion(s).userId == CoerceAtLeast(SafeUserId(s), 0)
  {
  }

  /** After logging out the cart is the guest cart without discount. */
  lemma ClearedSessionIsGuestCart(s: Session)
    ensures CarritoDeSesion(Clear(s)) == CarritoViewModel.CarritoState(0, 0)
  {
  }
}

=== FILE: VendedorProductosViewModel.dfy ===
/** `VendedorProductosViewModel`: the seller panel. Its UI record `VendorProdUI` holds the
    seller's product list (fed by `observeByVendedor`), a loading flag, the last error and the
    product being edited in the dialog. Each transition is a function from (UI, table) to
    (UI, table); a repository write that throws is an explicit `Escritura` argument, and the
    random code `nuevo` draws is a parameter. */
module VendedorProductosViewModel {
  import opened Kotlin
  import opened ProductoModel
  import ProductoDao
  import ProductoRepository

  type ProductoTable = ProductoDao.ProductoTable

  /** `VendorProdUI`, with its defaults. */
  datatype VendorProdUI = VendorProdUI(
    vendedorId: int,
    isLoading: bool := false,
    error: Option<string> := None,
    productos: seq<Producto> := [],
    editando: Option<Producto> := None)

  /** How a suspended repository write ended: normally, or by an exception with a nullable message. */
  datatype Escritura = Completa | Falla(mensaje: Option<string>)

  /** The state after a transition. */
  datatype Paso = Paso(ui: VendorProdUI, tabla: ProductoTable)

  /** The initial UI for the seller `vendedorIdArg`: loading, nothing listed, nothing edited. */
  function Inicial(vendedorIdArg: int): (r: VendorProdUI)
    ensures r.vendedorId == vendedorIdArg && r.isLoading
    ensures r.error.None? && r.productos == [] && r.editando.None?
  {
    VendorProdUI(vendedorId := vendedorIdArg, isLoading := true)
  }

  /** The collect handler: a new list clears the spinner and the error. */
  function OnEmission(ui: VendorProdUI, list: seq<Producto>): (r: VendorProdUI)
    ensures r.productos == list && !r.isLoading && r.error.None?
    ensures r.vendedorId == ui.vendedorId && r.editando == ui.editando
  {
    ui.(productos := list, isLoading := false, error := None)
  }

  /** The `catch` handler: the stream failed; the list shown so far stays. */
  function OnStreamError(ui: VendorProdUI, mensaje: Option<string>): (r: VendorProdUI)
    ensures !r.isLoading && r.error == mensaje
    ensures r.vendedorId == ui.vendedorId && r.productos == ui.productos && r.editando == ui.editando
  {
    ui.(isLoading := false, error := mensaje)
  }

  /** What the store emits to this panel: the seller's products, by name. */
  function Emitido(t: ProductoTable, ui: VendorProdUI): (r: seq<Producto>)
    ensures forall p :: p in r <==> p in t && p.vendedorId == ui.vendedorId
  {
    ProductoRepository.ObserveByVendedor(t, ui.vendedorId)
  }

  /** `refresh`: only shows the spinner. */
  function Refresh(ui: VendorProdUI): (r: VendorProdUI)
    ensures r.isLoading
    ensures r.vendedorId == ui.vendedorId && r.error == ui.error
    ensures r.productos == ui.productos && r.editando == ui.editando
  {
    ui.(isLoading := true)
  }

  /** The blank product `nuevo` opens, owned by this seller. */
  function ProductoNuevo(codigo: string, vendedorId: int): (p: Producto)
    ensures p.codigo == codigo && p.vendedorId == vendedorId && p.activo
    ensures p.nombre == "" && p.descripcion == "" && p.categoriaNombre == ""
    ensures p.precio == 0 && p.categoriaId == 0 && p.stock == 100
    ensures p.imagenUrl == "" && p.fabricante == ""
  {
    Producto(codigo, "", "", 0, 0, "", 100, "", "", vendedorId, true)
  }

  /** `nuevo`: opens the dialog on a blank product under a freshly drawn code. */
  function Nuevo(ui: VendorProdUI, codigoNuevo: string): (r: VendorProdUI)
    ensures r.editando == Some(ProductoNuevo(codigoNuevo, ui.vendedorId))
    ensures r.vendedorId == ui.vendedorId && r.isLoading == ui.isLoading
    ensures r.error == ui.error && r.productos == ui.productos
  {
    ui.(editando := Some(ProductoNuevo(codigoNuevo, ui.vendedorId)))
  }

  /** `editar` */
  function Editar(ui: VendorProdUI, p: Producto): (r: VendorProdUI)
    ensures r.editando == Some(p)
    ensures r.vendedorId == ui.vendedorId && r.isLoading == ui.isLoading
    ensures r.error == ui.error && r.productos == ui.productos
  {
    ui.(editando := Some(p))
  }

  /** `cancelar` */
  function Cancelar(ui: VendorProdUI): (r: VendorProdUI)
    ensures r.editando.None?
    ensures r.vendedorId == ui.vendedorId && r.isLoading == ui.isLoading
    ensures r.error == ui.error && r.productos == ui.productos
  {
    ui.(editando := None)
  }

  /** The product `guardar` writes: the edited one with the dialog's values, the texts trimmed,
      and the owner forced to this panel's seller. */
  function Editado(ed: Producto, vendedorId: int, nombre: string, descripcion: string, precio: int,
                   categoriaId: int, categoriaNombre: string, activo: bool): (p: Producto)
    ensures p.codigo == ed.codigo && p.vendedorId == vendedorId && p.activo == activo
    ensures p.nombre == Trim(nombre) && p.descripcion == Trim(descripcion)
    ensures p.categoriaNombre == Trim(categoriaNombre)
    ensures p.precio == precio && p.categoriaId == categoriaId
    ensures p.stock == ed.stock && p.imagenUrl == ed.imagenUrl && p.fabricante == ed.fabricante
  {
    ed.(nombre := Trim(nombre), descripcion := Trim(descripcion), precio := precio,
        categoriaId := categoriaId, categoriaNombre := Trim(categoriaNombre),
        vendedorId := vendedorId, activo := activo)
  }

  /** `guardar`. Without a product being edited nothing happens. Otherwise the edited product is
      upserted under its code; on success the dialog closes, on failure the table is untouched,
      the dialog stays open and the message is shown. */
  function Guardar(ui: VendorProdUI, t: ProductoTable, nombre: string, descripcion: string, precio: int,
                   categoriaId: int, categoriaNombre: string, activo: bool, w: Escritura): (r: Paso)
    ensures ui.editando.None? ==> r == Paso(ui, t)
    ensures ui.editando.Some? ==> !r.ui.isLoading && r.ui.vendedorId == ui.vendedorId && r.ui.productos == ui.productos
    ensures ui.editando.Some? && w.Completa? ==>
      && r.ui.editando.None? && r.ui.error.None?
      && r.tabla == ProductoRepository.Upsert(t, Editado(ui.editando.value, ui.vendedorId, nombre, descripcion, precio, categoriaId, categoriaNombre, activo))
    ensures ui.editando.Some? && w.Falla? ==>
      r.tabla == t && r.ui.editando == ui.editando && r.ui.error == w.mensaje
  {
    match ui.editando
    case None => Paso(ui, t)
    case Some(ed) =>
      var enCurso := ui.(isLoading := true, error := None);
      match w
      case Completa =>
        var p := Editado(ed, ui.vendedorId, nombre, descripcion, precio, categoriaId, categoriaNombre, activo);
        Paso(enCurso.(editando := None, isLoading := false), ProductoRepository.Upsert(t, p))
      case Falla(m) =>
        Paso(enCurso.(isLoading := false, error := m), t)
  }

  /** `eliminar`: deletes by code; the dialog state is never touched. */
  function Eliminar(ui: VendorProdUI, t: ProductoTable, codigo: string, w: Escritura): (r: Paso)
    ensures !r.ui.isLoading && r.ui.editando == ui.editando
    ensures r.ui.vendedorId == ui.vendedorId && r.ui.productos == ui.productos
    ensures w.Completa? ==> r.ui.error.None? && forall q :: q in r.tabla <==> q in t && q.codigo != codigo
    ensures w.Falla? ==> r.tabla == t && r.ui.error == w.mensaje
  {
    var enCurso := ui.(isLoading := true, error := None);
    match w
    case Completa => Paso(enCurso.(isLoading := false), ProductoRepository.EliminarPorCodigo(t, codigo))
    case Falla(m) => Paso(enCurso.(isLoading := false, error := m), t)
  }

  /** `find { it.codigo == codigo }` on the list shown. */
  function EnLista(ps: seq<Producto>, codigo: string): (r: Option<Producto>)
    ensures r.Some? ==> r.value in ps && r.value.codigo == codigo
    ensures r.None? <==> forall p :: p in ps ==> p.codigo != codigo
  {
    match ProductoDao.IndexOf(ps, codigo)
    case Some(i) => Some(ps[i])
    case None => None
  }

  /** `toggleActivo`: upserts the listed product with that code with `activo` flipped; a code that
      is not listed does nothing, and a failed write only sets the error. */
  function ToggleActivo(ui: VendorProdUI, t: ProductoTable, codigo: string, w: Escritura): (r: Paso)
    ensures (forall p :: p in ui.productos ==> p.codigo != codigo) ==> r == Paso(ui, t)
    ensures w.Completa? && EnLista(ui.productos, codigo).Some? ==>
      var p := EnLista(ui.productos, codigo).value;
      ProductoDao.ObtenerProductoPorCodigo(r.tabla, codigo) == Some(p.(activo := !p.activo))
    ensures forall c :: c != codigo ==> ProductoDao.ObtenerProductoPorCodigo(r.tabla, c) == ProductoDao.ObtenerProductoPorCodigo(t, c)
    ensures r.ui.productos == ui.productos && r.ui.editando == ui.editando && r.ui.isLoading == ui.isLoading
    ensures w.Falla? ==> r.tabla == t
    ensures w.Completa? ==> r.ui == ui
    ensures w.Falla? && EnLista(ui.productos, codigo).Some? ==> r.ui == ui.(error := w.mensaje)
  {
    match EnLista(ui.productos, codigo)
    case None => Paso(ui, t)
    case Some(actual) =>
      match w
      case Completa => Paso(ui, ProductoRepository.Upsert(t, actual.(activo := !actual.activo)))
      case Falla(m) => Paso(ui.(error := m), t)
  }

  /* ---------------- properties ---------------- */

  /** A listed product is found by its own code when the list is drawn from the table, since the
      table holds one product per code. */
  lemma EnListaFinds(ps: seq<Producto>, t: ProductoTable, p: Producto)
    requires forall q :: q in ps ==> q in t
    requires p in ps
    ensures EnLista(ps, p.codigo) == Some(p)
  {
    var q := EnLista(ps, p.codigo).value;
    assert ProductoDao.ObtenerProductoPorCodigo(t, p.codigo) == Some(p);
    assert ProductoDao.ObtenerProductoPorCodigo(t, p.codigo) == Some(q);
  }

  /** A successful save followed by the store's emission lists the saved product under this
      seller, trimmed, and the point lookup returns it. */
  lemma SavedProductIsListed(ui: VendorProdUI, t: ProductoTable, nombre: string, descripcion: string,
                             precio: int, categoriaId: int, categoriaNombre: string, activo: bool)
    requires ui.editando.Some?
    ensures var r := Guardar(ui, t, nombre, descripcion, precio, categoriaId, categoriaNombre, activo, Completa);
      var p := Editado(ui.editando.value, ui.vendedorId, nombre, descripcion, precio, categoriaId, categoriaNombre, activo);
      && ProductoDao.ObtenerProductoPorCodigo(r.tabla, ui.editando.value.codigo) == Some(p)
      && p in OnEmission(r.ui, Emitido(r.tabla, r.ui)).productos
  {
    var r := Guardar(ui, t, nombre, descripcion, precio, categoriaId, categoriaNombre, activo, Completa);
    var p := Editado(ui.editando.value, ui.vendedorId, nombre, descripcion, precio, categoriaId, categoriaNombre, activo);
    assert ProductoDao.ObtenerProductoPorCodigo(r.tabla, p.codigo) == Some(p);
    assert p in r.tabla;
  }

  /** Saving a product opened with `editar` keeps every field the dialog does not show. */
  lemma SaveKeepsHiddenFields(ui: VendorProdUI, t: ProductoTable, p: Producto, nombre: string, descripcion: string,
                              precio: int, categoriaId: int, categoriaNombre: string, activo: bool)
    ensures var r := Guardar(Editar(ui, p), t, nombre, descripcion, precio, categoriaId, categoriaNombre, activo, Completa);
      exists q :: ProductoDao.ObtenerProductoPorCodigo(r.tabla, p.codigo) == Some(q)
        && q.stock == p.stock && q.imagenUrl == p.imagenUrl && q.fabricante == p.fabricante
  {
    var r := Guardar(Editar(ui, p), t, nombre, descripcion, precio, categoriaId, categoriaNombre, activo, Completa);
    var q := Editado(p, ui.vendedorId, nombre, descripcion, precio, categoriaId, categoriaNombre, activo);
    assert ProductoDao.ObtenerProductoPorCodigo(r.tabla, p.codigo) == Some(q);
  }

  /** A failed save can be retried: the dialog still holds the same product. */
  lemma FailedSaveCanRetry(ui: VendorProdUI, t: ProductoTable, nombre: string, descripcion: string,
                           precio: int, categoriaId: int, categoriaNombre: string, activo: bool, m: Option<string>)
    requires ui.editando.Some?
    ensures var r := Guardar(ui, t, nombre, descripcion, precio, categoriaId, categoriaNombre, activo, Falla(m));
      Guardar(r.ui, r.tabla, nombre, descripcion, precio, categoriaId, categoriaNombre, activo, Completa).tabla
        == Guardar(ui, t, nombre, descripcion, precio, categoriaId, categoriaNombre, activo, Completa).tabla
  {
  }

  /** Toggling the same listed product twice, with the store's emission in between, restores its
      `activo` flag in the table. */
  lemma ToggleTwiceRestores(ui: VendorProdUI, t: ProductoTable, p: Producto)
    requires p in t && p.vendedorId == ui.vendedorId && ui.productos == Emitido(t, ui)
    ensures var r1 := ToggleActivo(ui, t, p.codigo, Completa);
      var ui1 := OnEmission(r1.ui, Emitido(r1.tabla, r1.ui));
      var r2 := ToggleActivo(ui1, r1.tabla, p.codigo, Completa);
      ProductoDao.ObtenerProductoPorCodigo(r2.tabla, p.codigo) == Some(p)
  {
    EnListaFinds(ui.productos, t, p);
    var r1 := ToggleActivo(ui, t, p.codigo, Completa);
    var flipped := p.(activo := !p.activo);
    assert ProductoDao.ObtenerProductoPorCodigo(r1.tabla, p.codigo) == Some(flipped);
    assert flipped in r1.tabla;
    var ui1 := OnEmission(r1.ui, Emitido(r1.tabla, r1.ui));
    EnListaFinds(ui1.productos, r1.tabla, flipped);
    assert flipped.(activo := !flipped.activo) == p;
  }

  /** No transition changes the seller the panel belongs to. */
  lemma SellerNeverChanges(ui: VendorProdUI, t: ProductoTable, p: Producto, codigo: string, w: Escritura)
    ensures Nuevo(ui, codigo).vendedorId == ui.vendedorId
    ensures Editar(ui, p).vendedorId == ui.vendedorId && Cancelar(ui).vendedorId == ui.vendedorId
    ensures Eliminar(ui, t, codigo, w).ui.vendedorId == ui.vendedorId
    ensures ToggleActivo(ui, t, codigo, w).ui.vendedorId == ui.vendedorId
  {
  }
}
